=== FILE: README.md ===
# GST invoice decision pipeline, modelled in Dafny

This project models the decision core of an invoice-processing application for Indian GST invoices. An uploaded invoice goes through four stages:

1. **Extraction.** An AI model reads the document. The extracted fields are cleaned (`validateExtractedData`), and a weighted confidence score is computed over seven fields (`calculateConfidenceScore`).
2. **Categorization.** The invoice's HSN code, or failing that its description, is looked up in the HSN/SAC table. This yields a category, the expected GST rate and a categorization score.
3. **Validation.** `validateGSTInvoice` runs nine rule checks, with the weights shown:

   | check | weight |
   |---|---|
   | amount arithmetic | 0.25 |
   | GSTIN format and mod-36 checksum | 0.20 |
   | CGST/SGST versus IGST split | 0.20 |
   | GST rate | 0.10 |
   | invoice date and financial year | 0.08 |
   | HSN/rate consistency | 0.07 |
   | duplicate detection | 0.05 |
   | state code | 0.03 |
   | invoice-number format | 0.02 |

   The weighted, penalised score then gives 'pass', 'review' or 'fail'.
4. **Decision.** The orchestrator aggregates the stage confidences (weights 0.40, 0.20, 0.40). The run is auto-approved at 0.95 with a successful validation, sent to review at 0.80, and rejected below that.

Two API routes wrap this core:

- `/api/ai/process` runs the pipeline for one invoice (`POST`) or for a batch of up to 50 invoices (`PUT`), and summarises a batch.
- `/api/ai/validate` runs the validator alone. It stores one confidence record per rule, sets the invoice's new status and writes review notes.

How the model is organised:

- One Dafny module per source file, with pure TypeScript functions as Dafny functions.
- Loops as methods proved against the functions that specify them: the GSTIN checksum loop, the pipeline's stage-by-stage updates, the batch loop, the confidence-record loop and the review-notes loop.
- Everything the code gets from outside the core is a parameter: database rows, the HSN table, the invoice history, what the AI calls returned or threw, and today's date.
- Amounts and confidences are `real`. JavaScript's `Math.round(x * 100) / 100` is written out as `Common.Round2`.

Modules and the files they model:

| module | source |
|---|---|
| `Common`, `Strings` | shared helpers: options, rounding, filtering, trimming, case |
| `Gstin` | GSTIN format and checksum (`lib/ai/validator.ts`) |
| `Rules` | the other per-rule checks (`lib/ai/validator.ts`) |
| `Duplicates` | duplicate detection (`lib/ai/validator.ts`) |
| `Scoring` | the validation score (`lib/ai/validator.ts`) |
| `Validator` | `validateGSTInvoice` (`lib/ai/validator.ts`) |
| `HsnTable`, `Categorizer` | `lib/ai/categorizer.ts` |
| `Extractor` | `lib/ai/extractor.ts` |
| `Confidence` | `lib/ai/confidence.ts` |
| `Orchestrator` | `lib/ai/orchestrator.ts` |
| `ProcessRoute` | `app/api/ai/process/route.ts` |
| `ValidateRoute` | `app/api/ai/validate/route.ts` |

Two consequences of the code as written are proved:

- **Extraction confidence is always 0.** The orchestrator reads the extraction confidence from a field that the extraction result does not have (see Findings). So with the default thresholds, every run in which extraction actually ran ends 'rejected'.
- **A failed validation always ends 'rejected'.** A failed validation caps the aggregate at 0.79, just under the 0.80 review threshold. So with the default thresholds, such a run ends 'rejected' rather than 'needs review' (`Orchestrator.FailedValidationRejectedByDefault`).

Two points where the code does something other than what its own comments or names suggest; the model follows the code:

- **The validation cap.** The comment at `lib/ai/orchestrator.ts:496` calls the 0.79 cap "Cap at review threshold", as if a failed validation sent the invoice to review. The cap applies whenever the validation stage is unsuccessful: the validator threw, or it returned `is_valid` false. Because 0.79 is under the 0.80 default review threshold, such an invoice is rejected (left 'pending'), not reviewed.
- **The HSN table.** The HSN-consistency check (`lib/ai/validator.ts:995-1000`) looks a code up with `.single()`, which fails when the code matches no row or several rows, so the table is not a keyed map. The model keeps it as a sequence of rows, in table order.

## Model

| member | source | states |
|---|---|---|
| Common.Round2Close | lib/ai/validator.ts:1231 | `Math.round(x * 100) / 100` lands within half a hundredth of x |
| Common.Round2Monotone | lib/ai/orchestrator.ts:503 | rounding to two decimals preserves order |
| Common.Round2OfHundredths | lib/ai/validator.ts:606 | a value with at most two decimals is unchanged by rounding |
| Common.FindIsFirst | lib/ai/validator.ts:1108-1126 | the search returns the first element that satisfies the test, as the fuzzy loop's early `return` does |
| Strings.Trim | lib/ai/validator.ts:481 | trimming never lengthens a string and leaves none of JavaScript's white-space characters (ASCII, no-break, ogham, U+2000 to U+200A, line and paragraph separators, U+202F, U+205F, U+3000, BOM) at either end |
| Strings.TrimIsSlice | lib/ai/validator.ts:481 | the trim is the slice of the input between a run of leading and a run of trailing white space; with Trim's contract, exactly `s.trim()` |
| Strings.ToUpper | lib/ai/validator.ts:481 | upper-casing keeps the length and upper-cases every character |
| Strings.ToUpperAppend | lib/ai/validator.ts:481 | upper-casing distributes over concatenation |
| Strings.ToLowerAppend | lib/ai/categorizer.ts:191 | lower-casing distributes over concatenation |
| Strings.RemoveSpacesAppend | lib/ai/categorizer.ts:56 | removing white space distributes over concatenation |
| Strings.RemoveSpacesChar | lib/ai/categorizer.ts:56 | a single character is removed exactly when it is white space, and kept otherwise |
| Strings.RemoveSpacesOfSpaces | lib/ai/categorizer.ts:56 | a string of white space only becomes empty |
| Strings.RemoveSpacesAfterTrim | lib/ai/categorizer.ts:56 | trimming before removing all white space makes no difference |
| Strings.WordsSplitAtSpace | lib/ai/categorizer.ts:192 | the words of a string split at a white-space character are the words before it followed by the words after it |
| Strings.WordsOfWord | lib/ai/categorizer.ts:192 | a non-empty string without white space is exactly one word, itself |
| Strings.WordsOfSpaces | lib/ai/categorizer.ts:192 | a string of white space only has no words (the empty strings `split` yields are dropped) |
| Gstin.CharValue | lib/ai/validator.ts:531-538 | the alphabet index of a character: -1 outside `0-9A-Z`, otherwise 0..35 with the digits first |
| Gstin.CheckDigit | lib/ai/validator.ts:548 | the check position `(36 - sum % 36) % 36` always lies in the 36-character alphabet |
| Gstin.VerifyGSTINChecksum | lib/ai/validator.ts:529-556 | the loop over the first fourteen characters returns true exactly when every one is in the alphabet and the fifteenth equals the computed check character |
| Gstin.ValidateGSTINFormat | lib/ai/validator.ts:466-524 | valid exactly when the input is not blank and its trimmed, upper-cased form matches the GSTIN pattern; blank input or a cleaned length other than 15 gives no state code and confidence 0; a pattern failure keeps the first two characters and confidence 0.3; a valid GSTIN gives 1.0 exactly when the checksum matches and 0.85 exactly when it does not |
| Gstin.PatternImpliesAlphabet | lib/ai/validator.ts:494-538 | a string that matches the GSTIN pattern never takes the loop's early `return false` |
| Gstin.WeightedSumPrefix | lib/ai/validator.ts:535-546 | the checksum sum depends only on the first n characters |
| Gstin.CheckCharIsTheOnlyOne | lib/ai/validator.ts:548-552 | for a fourteen-character body in the alphabet, exactly one fifteenth character makes the checksum pass |
| Gstin.ComputedCheckCharGetsFullConfidence | lib/ai/validator.ts:504-523 | a pattern-valid GSTIN ending in its computed check character is valid with confidence 1.0 and its first two characters as state code |
| Gstin.FlippedCheckCharacter | lib/ai/validator.ts:507-515 | changing only the check character of such a GSTIN keeps it valid but drops the confidence to 0.85 |
| Gstin.ValidPatternAccepted | lib/ai/validator.ts:472-524 | a pattern-valid string is not blank, is left unchanged by trimming and upper-casing, and is accepted with its first two characters as state code |
| Gstin.CleanOfPattern | lib/ai/validator.ts:481 | a pattern-valid string is already trimmed and upper case |
| Rules.ValidateStateCode | lib/ai/validator.ts:561-587 | valid exactly when the code is present and a key of the state table; confidence 1.0 when valid and 0 otherwise; a valid code's message names the state; a null or empty code is reported missing |
| Rules.StateTableIsRange | lib/ai/validator.ts:88-126 | a string is a key of the state table exactly when it is two decimal digits between 01 and 38 other than 28 |
| Rules.KnownNumberInTable | lib/ai/validator.ts:88-126 | every two-digit code from 01 to 38 except 28 is a key of the state table |
| Rules.TableKeysAreKnown | lib/ai/validator.ts:88-126 | every key of the state table is such a two-digit code |
| Rules.CodeTwentyEightRejected | lib/ai/validator.ts:561-587 | code 28, absent from the table, is rejected with confidence 0 and "Invalid state code: 28" |
| Rules.ValidateGSTRate | lib/ai/validator.ts:592-635 | a missing rate gives confidence 0; otherwise valid exactly when the rate, rounded to two decimals, is within 0.5 of a standard rate (then confidence 1.0); an invalid rate gets 0.5 exactly when its rounded value lies in [0, 30], else 0 |
| Rules.StandardRateAccepted | lib/ai/validator.ts:606-619 | each of the seven standard rates 0, 0.25, 3, 5, 12, 18, 28 is valid with confidence 1.0 |
| Rules.NearRateAccepted | lib/ai/validator.ts:606-611 | any rate less than 0.495 from a standard rate is still valid with confidence 1.0 |
| Rules.ReasonableNonStandardRate | lib/ai/validator.ts:621-628 | a rate that rounds into [28.5, 30] is not standard but gets confidence 0.5 |
| Rules.ValidateAmountCalculation | lib/ai/validator.ts:640-708 | the expected total is taxable + CGST + SGST + IGST; the difference is the absolute gap; valid exactly when the gap is at most 1; confidence 1.0 exactly on an exact match, 0.95 up to 1, 0.70 up to 10, 0.40 up to 100, 0 beyond |
| Rules.AmountConfidenceMonotone | lib/ai/validator.ts:656-707 | a larger gap never earns a higher amount confidence |
| Rules.ValidateTaxSplit | lib/ai/validator.ts:713-814 | inter-state exactly when the vendor code differs from the client code; the expected split is all IGST or half CGST and half SGST of taxable × rate / 100; the wrong kind of tax gives confidence 0; otherwise valid exactly when each amount is within 1 of its expectation, with 1.0 on an exact match, 0.95 otherwise, and 0.5 when invalid |
| Rules.MissingVendorCodeIsInterState | lib/ai/validator.ts:730-747 | with no vendor state code, an invoice is judged inter-state, so a CGST/SGST invoice scores 0 |
| Rules.AgeConfidence | lib/ai/validator.ts:875-887 | an invoice up to 30 days old keeps confidence 1.0, and only such an invoice does |
| Rules.AgeConfidenceMonotone | lib/ai/validator.ts:878-887 | the age confidence never rises as the invoice gets older |
| Rules.ValidateInvoiceDate | lib/ai/validator.ts:819-910 | invalid exactly when the date is missing, unparseable or in the future, and then confidence 0, 0 days and not in the financial year; a valid date's age is today minus the date, its financial-year flag is the April-to-March range test, and its confidence is the age band, capped at 0.60 outside the financial year |
| Rules.OlderDateNeverScoresHigher | lib/ai/validator.ts:863-892 | between two past dates on the same side of the financial-year boundary, the older never scores higher |
| Rules.ValidateInvoiceNumberFormat | lib/ai/validator.ts:915-972 | a missing or blank number is required (0); a trimmed length under 3 is too short (0.3) and over 50 too long (0.4); otherwise confidence 1.0 exactly for the standard pattern, valid exactly for letters, digits, `-` and `/`, 0.8 for acceptable non-standard numbers and 0.6 when invalid |
| Rules.StandardIsAcceptable | lib/ai/validator.ts:947-958 | every number matching the standard pattern also matches the alphanumeric one |
| Rules.StandardLength | lib/ai/validator.ts:931-948 | a standard number has 9 to 17 characters, so the length checks never reject one |
| Rules.DashedNumberIsStandard | lib/ai/validator.ts:947-955 | "INV-2024-0001" gets the standard verdict with confidence 1.0 |
| Rules.DashedNumberShape | lib/ai/validator.ts:947-948 | "INV-2024-0001" matches the standard pattern: three letters, a dash, four digits, a dash, four digits |
| Rules.UnderscoreIsUnusual | lib/ai/validator.ts:957-971 | "INV_001" matches neither pattern and gets 0.60 |
| Rules.ValidateHSNRateConsistency | lib/ai/validator.ts:977-1036 | a missing or blank HSN code is valid with 0.5 and no expected rate; an expected rate is present exactly when the trimmed code has a single table row, and it is that row's rate; a non-blank code without a single row gives exactly the 'not found in database' result, valid with 0.6; a found code is valid exactly when the rate is within 0.5 (confidence 1.0), else 0.70 up to 5 points off and 0.40 beyond |
| Rules.InconsistentHsnHasExpectedRate | lib/ai/validator.ts:1002-1037 | an HSN result that is not valid always carries an expected rate |
| HsnTable.RowsWithCode | lib/ai/validator.ts:996-999 | the rows returned by `.eq('hsn_code', code)` are exactly the table rows with that code |
| HsnTable.SingleRow | lib/ai/validator.ts:996-1009 | `.single()` yields a table row with the code, and yields nothing when the number of such rows is not one |
| HsnTable.UniqueCodeIsFound | lib/ai/validator.ts:996-1000 | a code held by exactly one row is found, and the result is that row |
| HsnTable.OnlyMatchFiltered | lib/ai/validator.ts:999 | when only row k has the code, the equality filter returns just that row |
| HsnTable.NoMatchFiltered | lib/ai/validator.ts:999 | when no row has the code, the equality filter returns no row |
| Duplicates.DaysApart | lib/ai/validator.ts:1111-1115 | the distance in days between two dates is never negative |
| Duplicates.PartialRows | lib/ai/validator.ts:1131-1138 | the partial query returns at most five rows |
| Duplicates.CheckDuplicateInvoice | lib/ai/validator.ts:1051-1178 | when the exact query fails (a database error, or an invoice without a usable date) the result is "Failed to check for duplicates" with 0.5; a duplicate is flagged exactly for exact and fuzzy matches; exact (1.0) exactly when the first exact-key row is within 1 of the amount, and that row is reported; otherwise fuzzy (0.85) exactly when some same-number, same-vendor row is within 10 and 7 days, and the first such row is reported; a partial match (0.70) reports exactly the same-vendor rows among the first five that are within 100 and 30 days; no match gives 1.0 |
| Duplicates.DatelessInvoiceFailsCheck | lib/ai/validator.ts:1062-1078 | an invoice with no date or an unparseable date is never reported as a duplicate: the exact query fails and the check gives 0.5 |
| Duplicates.ExactKeysWithinTenIsDuplicate | lib/ai/validator.ts:1082-1127 | a row with the same number, vendor and date, within 10 of the amount, always makes the invoice a duplicate |
| Duplicates.FirstExactMatchOnly | lib/ai/validator.ts:1082-1126 | only the first exact-key row's amount is compared: with a 50-off first row and an identical second row, the result is a fuzzy 0.85 match on the second |
| Duplicates.RejectedRowIgnored | lib/ai/validator.ts:1068-1136 | inserting a row whose status is 'rejected' anywhere in the history never changes the outcome |
| Duplicates.RejectedRowLeavesQueries | lib/ai/validator.ts:1068-1136 | none of the three queries returns a rejected row |
| Duplicates.PartialIsNotDuplicate | lib/ai/validator.ts:1152-1159 | a partial match never marks the invoice as a duplicate |
| Scoring.Entries | lib/ai/validator.ts:1193 | the score record has nine entries |
| Scoring.WeightedSumStep | lib/ai/validator.ts:1193-1196 | one step of the accumulation loop adds the entry's score times its weight |
| Scoring.EntryWeights | lib/ai/validator.ts:76-86 | the weight table gives each of the nine rules its weight: 0.20, 0.10, 0.25, 0.20, 0.08, 0.02, 0.07, 0.03, 0.05 |
| Scoring.EntriesWeightedSum | lib/ai/validator.ts:1192-1196 | summing score × weight over the entries gives the weighted score |
| Scoring.WeightedScoreInUnitRange | lib/ai/validator.ts:76-86 | the weights add up to one: scores in [0,1] give a weighted score in [0,1], and nine perfect scores give exactly 1 |
| Scoring.StatusOf | lib/ai/validator.ts:1214-1228 | 'pass' exactly at 0.95 or more and 'fail' exactly under 0.80 of the clamped score |
| Scoring.FailReason | lib/ai/validator.ts:1225-1227 | the failure reason is never empty |
| Scoring.CalculateValidationScore | lib/ai/validator.ts:1183-1235 | the two loops compute the weighted score, apply the penalties stopping at the first critical violation, clamp to [0,1], choose the status and reason, and round to two decimals, which is what `ValidationScore` states |
| Scoring.PenalizedBounds | lib/ai/validator.ts:1199-1208 | penalties never raise the score and never take it below 0 |
| Scoring.CriticalZeroes | lib/ai/validator.ts:1200-1202 | a critical violation anywhere in the list sets the score to 0 |
| Scoring.CriticalForcesFail | lib/ai/validator.ts:1200-1224 | any critical violation gives overall 0 and status 'fail' |
| Scoring.MajorOrWorseBlocksPass | lib/ai/validator.ts:1199-1218 | with scores in [0,1], a list whose first violation is critical or major can never pass |
| Scoring.CountSeverity | lib/ai/validator.ts:1199-1207 | a severity count never exceeds the list length |
| Scoring.PenaltyClosedForm | lib/ai/validator.ts:1203-1207 | without critical violations the score loses 0.15 per major and 0.05 per minor, floored at 0 |
| Scoring.StatusBounds | lib/ai/validator.ts:1211-1231 | the overall confidence lies in [0,1]; 'pass' reports at least 0.95, 'review' at least 0.80, 'fail' at most 0.80 |
| Scoring.GetValidationStatusLabel | lib/ai/validator.ts:1240-1245 | each label corresponds exactly to one band: 0.95, 0.80, 0.60 |
| Scoring.PassIsLabelledValidated | lib/ai/validator.ts:1217-1241 | every passing result is labelled "Validated" |
| Scoring.ReviewCanBeLabelledValidated | lib/ai/validator.ts:1217-1241 | a weighted score of 0.9475 is 'review', yet its rounded 0.95 is labelled "Validated" |
| Validator.Resolve | lib/ai/validator.ts:161-180 | the GST rate is gst ÷ taxable × 100 when the taxable amount is positive, and 0 otherwise |
| Validator.ResultOf | lib/ai/validator.ts:408-421 | a found invoice's result carries the violations, the warnings and the nine scores of its rule outcomes |
| Validator.ValidateInvoice | lib/ai/validator.ts:135-457 | `is_valid` exactly when the status is 'pass'; the id is echoed; an invoice that is not found gives 'fail', confidence 0, zero scores, no warning, no duplicate info and the single critical VALIDATION_ERROR violation; a found invoice gives the result of its rule outcomes |
| Validator.RecordGstin | lib/ai/validator.ts:198-217 | the first block starts the lists with the critical GSTIN_FORMAT violation or the GSTIN_CHECKSUM warning, if any |
| Validator.RecordState | lib/ai/validator.ts:222-235 | the state block appends the major STATE_CODE_INVALID violation when the code is invalid |
| Validator.RecordRate | lib/ai/validator.ts:240-253 | the rate block appends the major GST_RATE_INVALID violation when the rate is invalid |
| Validator.RecordAmount | lib/ai/validator.ts:258-283 | the amount block appends the critical AMOUNT_MISMATCH violation, or the AMOUNT_ROUNDING warning for a gap in (0, 1] |
| Validator.RecordSplit | lib/ai/validator.ts:288-316 | the split block appends the critical TAX_SPLIT_INCORRECT violation, on the IGST or the CGST/SGST field |
| Validator.RecordDate | lib/ai/validator.ts:321-340 | the date block appends DATE_INVALID, critical at confidence 0 and major otherwise, or the DATE_OLD warning past 90 days |
| Validator.RecordNumber | lib/ai/validator.ts:345-354 | the invoice-number block only ever appends a warning |
| Validator.RecordHsn | lib/ai/validator.ts:359-369 | the HSN block appends the HSN_RATE_MISMATCH warning, with the expected rate, when the rate is inconsistent |
| Validator.RecordDuplicate | lib/ai/validator.ts:374-403 | the duplicate block appends DUPLICATE_INVOICE, critical for an exact match and major otherwise, or the POTENTIAL_DUPLICATE warning for a partial match |
| Validator.ValidateGSTInvoice | lib/ai/validator.ts:135-457 | running the nine blocks in order and scoring them gives exactly `ValidateInvoice` |
| Validator.ChecksWellFormed | lib/ai/validator.ts:198-382 | every rule confidence of a found invoice lies in [0,1], and an invalid date has confidence 0 |
| Validator.RunChecksWellFormed | lib/ai/validator.ts:198-382 | the same for any resolved fields |
| Validator.CriticalRuleForcesFail | lib/ai/validator.ts:198-421 | a GSTIN-format failure, an amount mismatch, a wrong tax split, a date at confidence 0 or an exact duplicate each force 'fail' with confidence 0 |
| Validator.HsnNeverAddsViolations | lib/ai/validator.ts:359-369 | the HSN outcome never changes the violations |
| Validator.InvoiceNumberNeverAddsViolations | lib/ai/validator.ts:345-354 | the invoice-number outcome never changes the violations |
| Validator.HsnTableNeverChangesViolations | lib/ai/validator.ts:359-369 | whatever the HSN table holds, an invoice gets the same violations |
| Validator.ViolationRuleNames | lib/ai/validator.ts:201-393 | violations name only the seven blocking rules |
| Validator.PassMeansNoViolations | lib/ai/validator.ts:198-421 | with well-formed rule outcomes, a passing result has no violation: valid GSTIN, known state, standard rate, amount within tolerance, correct split, valid date and no duplicate |
| Validator.PassingInvoiceHasNoViolations | lib/ai/validator.ts:408-416 | a valid invoice result has an empty violation list |
| Extractor.ValidateGSTIN | lib/ai/extractor.ts:165-168 | true exactly for strings of fifteen characters, each an upper-case letter or a digit |
| Extractor.OrNull | lib/ai/extractor.ts:140-149 | `value \|\| null` keeps a truthy value and turns every falsy one into null |
| Extractor.NumberOrNull | lib/ai/extractor.ts:144-148 | an amount is kept exactly when it is a number, with its value |
| Extractor.FieldConfidence | lib/ai/extractor.ts:151-157 | a confidence is clamped into [0,1], and a missing map or a missing entry gives 0 |
| Extractor.ValidateExtractedData | lib/ai/extractor.ts:138-160 | each text field is its `\|\| null` value; the vendor GSTIN is kept exactly when `validateGSTIN` accepts it, unchanged; each amount is kept exactly when numeric; every field confidence lies in [0,1] |
| Extractor.NormalisationIdempotent | lib/ai/extractor.ts:138-160 | normalising an already normalised record gives it back unchanged |
| Extractor.TextFieldsStable | lib/ai/extractor.ts:140-149 | re-normalising keeps the text fields and the GSTIN |
| Extractor.AmountsStable | lib/ai/extractor.ts:144-148 | re-normalising keeps the amount fields |
| Extractor.ConfidencesStable | lib/ai/extractor.ts:150-158 | re-normalising keeps the field confidences |
| Extractor.AsRawTextFields | lib/ai/extractor.ts:140-149 | a normalised record read back as a reply yields its own text fields (null where absent) |
| Extractor.AsRawAmountFields | lib/ai/extractor.ts:144-148 | a normalised record read back as a reply yields its own amounts (null where absent) |
| Extractor.AsRawConfidences | lib/ai/extractor.ts:150-158 | a normalised record read back as a reply has exactly the seven confidence keys, with its own values |
| Extractor.LowerCaseGstinDropped | lib/ai/extractor.ts:143-167 | a lower-case GSTIN is dropped rather than upper-cased |
| Confidence.CalculateConfidenceScore | lib/ai/confidence.ts:26-86 | the field scores are returned unchanged and the overall score is the rounded weighted average; 'reject' exactly when the unrounded score is under 0.80; 'auto_approve' exactly when it is at least 0.95 and the three critical fields are each at least 0.80; at 0.80 or more with a weak critical field, 'review' with the critical-field reason |
| Confidence.ScoreInUnitRange | lib/ai/confidence.ts:30-81 | with every field confidence in [0,1], the weighted average and the rounded score lie in [0,1] |
| Confidence.ScoreMonotone | lib/ai/confidence.ts:41-78 | raising field confidences never lowers the weighted average, the rounded score or the tier |
| Confidence.AutoApproveRounded | lib/ai/confidence.ts:61-81 | an 'auto_approve' result reports a rounded score of at least 0.95 |
| Confidence.GetConfidenceLabel | lib/ai/confidence.ts:91-97 | each label corresponds exactly to one score band: 0.95, 0.85, 0.75, 0.60 |
| Confidence.Issues | lib/ai/confidence.ts:115-131 | the issue list is empty exactly when the three critical fields and the HSN code are at least 0.80 and the date at least 0.70 |
| Confidence.GetDetailedAssessment | lib/ai/confidence.ts:113-138 | the fixed "All critical fields…" text is returned exactly when no field is under its threshold |
| Categorizer.Normalize | lib/ai/categorizer.ts:56 | the normalised code is the input with every JavaScript `\s` character removed and the rest upper-cased (the trim is subsumed), so it is no longer than the input and holds no white space and no lower-case letter |
| Categorizer.NormalizeAppend | lib/ai/categorizer.ts:56 | normalising a concatenation is normalising each part: the operation works character by character, in order |
| Categorizer.NormalizeChar | lib/ai/categorizer.ts:56 | a white-space character normalises to nothing and any other character to its upper-case form |
| Categorizer.NormalizeIdempotent | lib/ai/categorizer.ts:56 | normalising an already normalised code changes nothing |
| Categorizer.RemoveSpacesNoop | lib/ai/categorizer.ts:56 | removing white space from a string without any leaves it unchanged |
| Categorizer.FindPartialHSNMatch | lib/ai/categorizer.ts:165-182 | the prefix query returns a table row whose code starts with the prefix, ignoring case, and returns nothing only when no row does |
| Categorizer.Keywords | lib/ai/categorizer.ts:190-193 | a string is a keyword exactly when it is a word of the lower-cased description longer than three characters; no keyword holds JavaScript `\s` white space |
| Categorizer.KeywordsSplitAtSpace | lib/ai/categorizer.ts:190-193 | the keywords of a description split at white space are the keywords before it followed by those after it, in order |
| Categorizer.KeywordsOfWord | lib/ai/categorizer.ts:190-193 | a single word yields itself lower-cased when it is longer than three characters and nothing otherwise |
| Categorizer.FindByDescription | lib/ai/categorizer.ts:187-214 | no keyword, or a keyword holding `,`, `(` or `)` (which breaks the `.or()` filter list), means no match; otherwise a match is a table row whose description contains a keyword, and no match means no row does |
| Categorizer.CategorizeInvoice | lib/ai/categorizer.ts:35-122 | a blank code gives the 18% default with 0.3; otherwise the result is never of unknown type and is exact (0.95, with the row's rate, exemption and category) exactly when the normalised code has a single row; 0.75, with the prefix row's rate, exemption and category, exactly when that fails and a four-character prefix matches; 0.60, with the description row's rate, exemption and category, exactly when both fail and a non-empty description matches; 0.75 and 0.60 are the partial matches; in every other case the result is the 18% non-exempt default with 0.40 and the fallback flag |
| Categorizer.CalculateCategorizationScore | lib/ai/categorizer.ts:219-262 | the overall score is the two-decimal rounding of the confidence raised to 0.90 for exact, to 0.70 for partial and lowered to 0.50 for default; HSN validity 0.9 or 0.4 and tax-rate confidence 0.95 or 0.60 follow the match; a fallback or a score under 0.70 needs review; above that, categorized exactly when exempt or not partial |
| Categorizer.ScoreFloorsAndCap | lib/ai/categorizer.ts:226-255 | after rounding, an exact match scores at least 0.90, a partial one at least 0.70 and a default at most 0.50 |
| Categorizer.CategorizedStatus | lib/ai/categorizer.ts:243-252 | on the categorizer's own results, a default always needs review, an exact match is always categorized, and a non-exempt partial match needs review |
| Categorizer.ValidGstRate | lib/ai/categorizer.ts:267-272 | true exactly when the rate is present and one of the seven standard rates |
| Categorizer.CategorizerRateAcceptedByValidator | lib/ai/categorizer.ts:267-272 | a rate the categorizer accepts gets full confidence from the validator's rate rule |
| Categorizer.CalculateExpectedGST | lib/ai/categorizer.ts:277-306 | the total is taxable × rate / 100 and equals the sum of the three parts; inter-state puts it all in IGST, intra-state halves it between CGST and SGST |
| Categorizer.ExpectedSplitPassesValidator | lib/ai/categorizer.ts:277-306 | the expected split always passes the validator's tax-split rule with confidence 1.0, for either pair of state codes |
| Categorizer.GetCategorizationLabel | lib/ai/categorizer.ts:311-317 | each label corresponds exactly to one score band: 0.90, 0.75, 0.60, 0.40 |
| Orchestrator.AggregateConfidence | lib/ai/orchestrator.ts:478-504 | weights 0.40/0.20/0.40; a failed extraction gives 0; all stages successful gives the rounded weighted sum; a failed categorization alone takes off 10%; a failed validation gives the rounded minimum of the weighted sum and 0.79, taken times 0.90 when categorization failed too, so at most 0.79, and at most 0.72 with both failed |
| Orchestrator.BuildFailureResult | lib/ai/orchestrator.ts:571-588 | a failure result is unsuccessful, 'failed', confidence 0, 'rejected', final status 'pending', and carries the given stages and errors |
| Orchestrator.Decide | lib/ai/orchestrator.ts:335-433 | at or above the auto threshold with a successful validation, the run is auto-approved exactly when the approval call succeeds, and otherwise needs review with exactly one error, recoverable, of stage 'approval' and type 'approval_error'; no other path records an error; auto-approval happens only then; 'rejected' exactly when neither that nor the review threshold is met; an auto-approved invoice ends 'approved', one needing review ends 'review', a rejected one stays 'pending' |
| Orchestrator.ProcessInvoice | lib/ai/orchestrator.ts:69-469 | every run reports its invoice id and its stages, is successful exactly when its status is not 'failed', and always reaches a decision |
| Orchestrator.ProcessInvoicePipeline | lib/ai/orchestrator.ts:69-469 | the step-by-step run (access check, extraction, then the three later stages) returns exactly the result `ProcessInvoice` describes |
| Orchestrator.RunCategorization | lib/ai/orchestrator.ts:201-268 | the categorization record is replaced by the completed, failed or skipped record, and a thrown categorizer adds one recoverable error |
| Orchestrator.RunValidation | lib/ai/orchestrator.ts:273-322 | the validation record takes the validator's `is_valid` as its success, or becomes failed or skipped; a thrown validator appends one recoverable error |
| Orchestrator.RunDecision | lib/ai/orchestrator.ts:326-433 | the aggregate is `AggregateConfidence` of the stages, and decision, final status, approval record and errors are those `Decide` gives |
| Orchestrator.ExtractionFailureShortCircuits | lib/ai/orchestrator.ts:167-191 | a thrown extraction ends the run failed and rejected with one non-recoverable 'extraction' error, and the later stages stay pending |
| Orchestrator.AccessFailureShortCircuits | lib/ai/orchestrator.ts:126-140 | an unknown invoice or another user's invoice ends the run failed and rejected with one non-recoverable 'orchestrator' error, before any stage runs |
| Orchestrator.RecoverableFailuresContinue | lib/ai/orchestrator.ts:239-263 | a run that gets past extraction succeeds; it is 'completed' exactly when no error was recorded and 'partial' otherwise; every recorded error is recoverable; a thrown categorization is the first error |
| Orchestrator.SkippedStagesSucceed | lib/ai/orchestrator.ts:192-322 | in every run that gets past extraction, a skipped stage is recorded as successful, 'skipped', with confidence 1 |
| Orchestrator.DecisionThresholds | lib/ai/orchestrator.ts:338-433 | an auto-approved run met the auto threshold, passed validation, was approved and ends 'approved'; a rejected run stays 'pending'; a successful run under both thresholds is rejected |
| Orchestrator.FailedValidationRejectedByDefault | lib/ai/orchestrator.ts:495-497 | with the default thresholds a failed or throwing validation always ends 'rejected', because the 0.79 cap is under the 0.80 review threshold |
| Orchestrator.AsWrittenExtractionAlwaysRejected | lib/ai/orchestrator.ts:157 | with the extraction confidence read as written (always 0) and the default thresholds, every run whose extraction ran is rejected |
| Orchestrator.ExtractionConfidence | lib/ai/orchestrator.ts:157 | the intended extraction confidence, the extraction's overall score, lies in [0, 1] when the per-field confidences do |
| Orchestrator.CorrectedExtractionCanAutoApprove | lib/ai/orchestrator.ts:338-357 | with the intended extraction confidence, a fully confident extraction, a 0.95 categorization and a passing validation at 1.0 give aggregate 0.99 and are auto-approved, 'completed' |
| Orchestrator.BatchEntry | lib/ai/orchestrator.ts:637-663 | an entry reports its invoice id and a decision; a run that threw gives an unsuccessful, 'failed', rejected entry with no stages |
| Orchestrator.BatchResults | lib/ai/orchestrator.ts:628-669 | one entry per id, in order, each carrying its own id and a decision |
| Orchestrator.BatchEntriesIsolated | lib/ai/orchestrator.ts:637-663 | changing what happens to one invoice of a batch changes that invoice's entry and no other |
| Orchestrator.BatchProcessInvoices | lib/ai/orchestrator.ts:628-669 | the loop returns exactly `BatchResults`: one entry per id, in order |
| Orchestrator.GetPipelineStatusLabel | lib/ai/orchestrator.ts:674-682 | 'completed', 'partial' and 'failed' get their labels; any other text is returned unchanged |
| Orchestrator.StatusLabelsDistinct | lib/ai/orchestrator.ts:674-682 | the three pipeline statuses have three different labels |
| ProcessRoute.SingleRequestGuard | app/api/ai/process/route.ts:28-71 | the pipeline starts exactly when both ids are given, the invoice exists, belongs to the user and has a file; a missing id is a 400, a missing invoice a 404, another user's invoice a 403, and an owned invoice without a file the 400 'Invoice file not found. Please upload the file first.' |
| ProcessRoute.GetResultMessage | app/api/ai/process/route.ts:338-353 | a failed run reports its first error's message, or 'Unknown error'; a successful run's message names its decision with the confidence percentage |
| ProcessRoute.ResultMessagesDistinct | app/api/ai/process/route.ts:338-353 | results that differ in success, or successful results that differ in decision, get different messages |
| ProcessRoute.LeadOfMessage | app/api/ai/process/route.ts:338-353 | every message is non-empty and its first character is determined by the success flag and the decision |
| ProcessRoute.ProcessSingle | app/api/ai/process/route.ts:22-126 | `POST` refuses exactly when a guard fails; otherwise it reports the run's success flag, the run of the requested invoice and the run's message |
| ProcessRoute.GuardedRequestIsAuthorized | app/api/ai/process/route.ts:56-81 | a request that passes the route's guards is processed and never meets the pipeline's own access error |
| ProcessRoute.BatchGuard | app/api/ai/process/route.ts:153-173 | the batch runs exactly when the ids are a non-empty array of at most 50 and a user id is given; every refusal is a 400 |
| ProcessRoute.Summarize | app/api/ai/process/route.ts:182-193 | the summary's total is the number of results, its average times the total is the sum of the aggregate confidences (undefined for no results), and its time is the sum of the times |
| ProcessRoute.StatusCountsPartition | app/api/ai/process/route.ts:184-186 | the completed, partial and failed counts add up to the number of results |
| ProcessRoute.DecisionCounts | app/api/ai/process/route.ts:187-189 | the three decision counts add up to at most the number of results, and to exactly that when every result is decided |
| ProcessRoute.SumConfidenceBounds | app/api/ai/process/route.ts:191 | with every confidence in [0, 1], their sum lies between 0 and the number of results |
| ProcessRoute.AverageInUnitRange | app/api/ai/process/route.ts:190-191 | with every confidence in [0, 1], so is the average confidence |
| ProcessRoute.ProcessBatch | app/api/ai/process/route.ts:147-212 | `PUT` refuses exactly when a guard fails; otherwise its results are the batch's results for the ids and its summary is computed from them |
| ProcessRoute.BatchSummaryWellFormed | app/api/ai/process/route.ts:168-193 | a processed batch has 1 to 50 entries and a defined average; its status counts and its decision counts each add up to the total |
| ValidateRoute.ValidateRequestGuard | app/api/ai/validate/route.ts:15-62 | validation runs exactly when both ids are given, the invoice exists, belongs to the user and has non-empty extracted data; each failed check gives its own status and message (400, 404, 403, 400) |
| ValidateRoute.ConfidenceRecords | app/api/ai/validate/route.ts:71-84 | one record per rule score, in order, with the rule's name and score |
| ValidateRoute.ConfidenceRecordsShape | app/api/ai/validate/route.ts:71-84 | nine records for the invoice, none for the same rule twice, all uncorrected 'auto_validation', with scores in [0, 1] when the rule scores are |
| ValidateRoute.EntryNamesDistinct | lib/ai/validator.ts:76-86 | the nine rule names are pairwise different |
| ValidateRoute.BuildConfidenceRecords | app/api/ai/validate/route.ts:71-84 | the loop builds exactly `ConfidenceRecords` |
| ValidateRoute.NewStatus | app/api/ai/validate/route.ts:98-106 | 'approved' exactly for a pass at 0.95 or more; otherwise 'review' exactly for a 'review' result or a confidence of 0.80 or more; 'pending' in every other case |
| ValidateRoute.ValidationDecidesStatus | app/api/ai/validate/route.ts:98-106 | a passing validation always approves the invoice, a 'review' one always sends it to review, and a failing one never approves it |
| ValidateRoute.NumberedAppend | app/api/ai/validate/route.ts:112-114 | numbering a concatenation is numbering the first part, then the second part starting where the first stopped |
| ValidateRoute.NumberedAt | app/api/ai/validate/route.ts:112-120 | the entry at position k is on the line numbered n + k, between the lines before and after it |
| ValidateRoute.ReviewNotesStartWithReason | app/api/ai/validate/route.ts:108-121 | the notes begin with the validation reason, and are just the reason when there are no violations and no warnings |
| ValidateRoute.ReviewNotesListViolation | app/api/ai/validate/route.ts:110-115 | violation k is listed after the 'Violations:' header on line k + 1, with its severity in capitals and its message |
| ValidateRoute.ReviewNotesListWarning | app/api/ai/validate/route.ts:116-121 | warning k is listed after the 'Warnings:' header on line k + 1, and the warnings come last |
| ValidateRoute.AppendSection | app/api/ai/validate/route.ts:110-121 | one `forEach` appends the header and then one numbered line per entry, and nothing when there are no entries |
| ValidateRoute.BuildReviewNotes | app/api/ai/validate/route.ts:108-121 | the appended text is exactly `ReviewNotes`: the reason, the violations section, then the warnings section |
| ValidateRoute.HandleValidate | app/api/ai/validate/route.ts:9-173 | a failed guard is refused; a failed invoice update is a 500; otherwise the answer carries the validator's result, its nine records, `NewStatus`, the review notes, and the approved and review flags that match the new status |
| ValidateRoute.ValidatePost | app/api/ai/validate/route.ts:9-173 | the handler run step by step answers exactly `HandleValidate` |
| ValidateRoute.PassingRequestAutoApproves | app/api/ai/validate/route.ts:98-106 | a request that is validated and whose invoice passes is auto-approved and not sent to review, with nine confidence records |

## Left out

Outside the model:
- Database reads and writes, the activity log and console output. What a read returns is a parameter. What a write would store is returned as a value.
- `extractInvoiceData` (`lib/ai/extractor.ts:36-133`). It calls an external AI service over the network. Only its outcome, a confidence or a thrown message, is an input.
- `autoApproveInvoice` (`lib/ai/approval.ts`). It is not part of this model. Whether it succeeded or threw is an input of the decision stage.

Time:
- Wall-clock time, timestamps, `processing_time_ms` and stage durations. Today's date and the financial-year bounds are day numbers passed in.
- Batch processing times. They are a separate parameter of `ProcessRoute.ProcessBatch`, which summarises them without checking that they line up with the runs.

Parts of the source not modelled:
- `retry_on_error` and `max_retries` (`lib/ai/orchestrator.ts:84-85`) are read but never used, so nothing in the model depends on them.
- The orchestrator's `buildReviewNotes` text (`lib/ai/orchestrator.ts:509-566`) is free text that no decision reads. The validate route's review notes are modelled.
- The GET handlers of both routes only read back stored data.
- The 500 answers of the routes' outer `catch` blocks (`app/api/ai/process/route.ts:127-136` and `:213-222`, `app/api/ai/validate/route.ts:174-180`), reached when an unmodelled step throws, for example when `request.json()` cannot parse the body. The modelled guards, lookups and pipeline runs are inputs that cannot throw.
- The validator's HSN catch branch (`lib/ai/validator.ts:1038-1044`, 0.5 'Failed to validate HSN rate consistency') is left out; a failed lookup is modelled through `.single()` finding no row, which gives 0.6.
- The categorizer's catch branch (`lib/ai/categorizer.ts:123-138`), which returns 0.30 'Error', is left out because the modelled table lookups cannot throw.
- The colour helpers (`lib/ai/categorizer.ts:322-327`, `lib/ai/confidence.ts:102-108`, `getDecisionColor` in `lib/ai/orchestrator.ts`) only pick display colours.

Data left out:
- Corrections are always empty. A violation's `expected_value` and `actual_value` are not modelled.
- The extracted and validated values of a confidence record are always null, so they are not modelled.
- The stage records' `data` payloads are not modelled.
- The description the orchestrator hands to the categorizer (`lib/ai/orchestrator.ts:210`) is not modelled: the categorization stage's outcome is an input of the pipeline.

Messages:
- Messages that interpolate numbers formatted with `toFixed` are shortened to their fixed text. This covers the GST-rate and rounding messages, the IGST/CGST mismatch messages, the HSN messages and the categorization reasons.
- In `ProcessRoute.GetResultMessage`, the formatted percentage is a parameter.

Types and values:
- Floating point is modelled by exact reals. Characters are compared code point by code point, with no Unicode case folding beyond ASCII.
- String lengths count characters, where JavaScript's `.length` counts UTF-16 code units, so a character outside the Basic Multilingual Plane counts 1 here and 2 in the source. The lines below name the members this affects.
- Gstin.ValidateGSTINFormat: the length test of 15 (`lib/ai/validator.ts:483`) counts characters, not UTF-16 code units.
- Rules.ValidateInvoiceNumberFormat: the bounds 3 and 50 count characters, not UTF-16 code units.
- Categorizer.Keywords: the `length > 3` filter counts characters, not UTF-16 code units.
- Confidence-map entries are reals, so a non-numeric entry in the stored confidence map is not modelled.
- The difference between `null` and `undefined` in the configuration is not modelled. Both are `None`.
- Label lookups by object key are modelled for the known keys and for plain strings. Keys inherited from `Object.prototype` are not modelled.

Database queries:
- Categorizer.FindPartialHSNMatch: the prefix is matched literally, ignoring ASCII case. The source's ILIKE pattern `prefix%` also treats a `%`, `_` or `*` inside the prefix as a wildcard and a backslash as an escape; such prefixes are not modelled.
- Categorizer.FindByDescription: keywords are matched literally as substrings, ignoring ASCII case. ILIKE wildcards (`%`, `_`, `*`) and escapes inside a keyword are not modelled. Of the characters PostgREST reserves in an `or=(…)` list, only `,`, `(` and `)` are modelled as breaking the query; a keyword holding a double quote, `.` or `:` is taken literally.
- Categorizer.FindByDescription: `.limit(1)` with no ordering is modelled as the first matching row in table order. The same holds for the prefix query and the duplicate queries.
- Duplicates.CheckDuplicateInvoice: a missing invoice number or vendor GSTIN matches no row. The source sends the text `null` or `undefined`, which would match a stored value of that text.
- Duplicates.CheckDuplicateInvoice: an invoice date counts as usable exactly when it parses as a date. A text that JavaScript's `Date` parses but the database's date type refuses, or the reverse, is not modelled.

Errors:
- `Validator.ValidateInvoice`: the only error it models is a missing invoice. A failed HSN lookup or duplicate query is modelled through its result (no single row, or no history), as the code treats it. Exceptions thrown elsewhere inside the validator are not modelled.

## Findings

| source | as written | input that shows it | evidently intended | confidence | as-written member | corrected member |
|---|---|---|---|---|---|---|
| lib/ai/orchestrator.ts:157 | the extraction stage's confidence is `extractionResult.overall_confidence \|\| 0`, but the extraction result (`ExtractedInvoiceData`, lib/ai/extractor.ts:5-25) has no such field, so the confidence is always 0 | any invoice whose extraction runs, under the default thresholds: the aggregate is at most 0.60, so the run is 'rejected' even with perfect categorization and validation | the stage confidence is the extraction's overall score from `calculateConfidenceScore` | not executed | Orchestrator.AsWrittenExtractionAlwaysRejected | Orchestrator.CorrectedExtractionCanAutoApprove |

=== FILE: categorizer.dfy ===
/** The categorizer (categorizer.ts): HSN code to GST rate through an ordered
    fallback chain over the `hsn_tax_mapping` table (exact code, four-character
    prefix, description keyword, default 18%), its scoring wrapper, the rate
    check and the CGST/SGST/IGST split calculator. */
module Categorizer {
  import opened Common
  import opened Strings
  import opened HsnTable
  import Rules

  datatype MatchType = ExactMatch | PartialMatch | DefaultRate | UnknownMatch

  /** `CategorizationResult` */
  datatype CategorizationResult = CategorizationResult(
    hsnCode: Option<string>,
    category: string,
    description: string,
    gstRate: real,
    isExempt: bool,
    exemptionReason: Option<string>,
    confidenceScore: real,
    matchType: MatchType,
    fallbackUsed: bool)

  /** `hsnCode.trim().replace(/\s/g, '').toUpperCase()`: the trim is subsumed
      by removing every white-space character. */
  function Normalize(hsn: string): (n: string)
    ensures |n| <= |hsn|
    ensures forall k :: 0 <= k < |n| ==> !IsSpace(n[k]) && !IsLower(n[k])
    ensures n == ToUpper(RemoveSpaces(hsn))
  {
    RemoveSpacesAfterTrim(hsn);
    ToUpper(RemoveSpaces(Trim(hsn)))
  }

  /** Normalising works character by character: a code is normalised by
      normalising its parts. */
  lemma NormalizeAppend(a: string, b: string)
    ensures Normalize(a + b) == Normalize(a) + Normalize(b)
  {
    RemoveSpacesAppend(a, b);
    ToUpperAppend(RemoveSpaces(a), RemoveSpaces(b));
  }

  /** A white-space character is dropped; any other is upper-cased. */
  lemma NormalizeChar(c: char)
    ensures Normalize([c]) == if IsSpace(c) then [] else [UpperChar(c)]
  {
    RemoveSpacesChar(c);
  }

  /** The prefix query: `.ilike('hsn_code', prefix + '%').limit(1)`, the first
      row in table order whose code starts with the prefix, ignoring case. */
  function FindPartialHSNMatch(table: seq<HsnRow>, prefix: string): (r: Option<HsnRow>)
    ensures r.Some? ==> r.value in table && StartsWith(ToUpper(r.value.hsnCode), prefix)
    ensures r.None? ==> forall row :: row in table ==> !StartsWith(ToUpper(row.hsnCode), prefix)
  {
    Find(table, (row: HsnRow) => StartsWith(ToUpper(row.hsnCode), prefix))
  }

  /** Keyword extraction: the lower-cased, white-space separated words longer
      than three characters. */
  function Keywords(description: string): (kws: seq<string>)
    ensures forall kw :: kw in kws ==> |kw| > 3 && forall k :: 0 <= k < |kw| ==> !IsSpace(kw[k])
    ensures forall w :: w in kws <==> w in Words(ToLower(description)) && |w| > 3
  {
    Filter(Words(ToLower(description)), (w: string) => |w| > 3)
  }

  /** White space separates the keywords before it from those after it. */
  lemma KeywordsSplitAtSpace(a: string, c: char, b: string)
    requires IsSpace(c)
    ensures Keywords(a + [c] + b) == Keywords(a) + Keywords(b)
  {
    ToLowerAppend(a + [c], b);
    ToLowerAppend(a, [c]);
    assert ToLower([c]) == [c];
    WordsSplitAtSpace(ToLower(a), c, ToLower(b));
    FilterAppend(Words(ToLower(a)), Words(ToLower(b)), (w: string) => |w| > 3);
  }

  /** A single word is a keyword, lower-cased, exactly when it is longer than
      three characters. */
  lemma KeywordsOfWord(w: string)
    requires w != [] && forall k :: 0 <= k < |w| ==> !IsSpace(w[k])
    ensures Keywords(w) == if |w| > 3 then [ToLower(w)] else []
  {
    var l := ToLower(w);
    assert forall k :: 0 <= k < |l| ==> !IsSpace(l[k]);
    WordsOfWord(l);
    assert [l][1..] == [];
  }

  predicate MentionsKeyword(row: HsnRow, keywords: seq<string>)
  {
    exists i :: 0 <= i < |keywords| && Contains(ToLower(row.description), keywords[i])
  }

  /** A keyword holding a character that PostgREST's `or=(…)` list syntax
      reserves: the list is then malformed and the query reports an error. */
  predicate BreaksOrFilter(keyword: string)
  {
    exists k :: 0 <= k < |keyword| && (keyword[k] == ',' || keyword[k] == '(' || keyword[k] == ')')
  }

  predicate AnyBreaksOrFilter(keywords: seq<string>)
  {
    exists i :: 0 <= i < |keywords| && BreaksOrFilter(keywords[i])
  }

  /** `findByDescription`: no keyword, or a keyword that breaks the `.or()`
      filter, means no match; otherwise the first row (table order) whose
      description contains one of the keywords, ignoring case. */
  function FindByDescription(table: seq<HsnRow>, description: string): (r: Option<HsnRow>)
    ensures Keywords(description) == [] ==> r.None?
    ensures AnyBreaksOrFilter(Keywords(description)) ==> r.None?
    ensures r.Some? ==> r.value in table && MentionsKeyword(r.value, Keywords(description))
    ensures r.None? && Keywords(description) != [] && !AnyBreaksOrFilter(Keywords(description)) ==>
              forall row :: row in table ==> !MentionsKeyword(row, Keywords(description))
  {
    var keywords := Keywords(description);
    if keywords == [] || AnyBreaksOrFilter(keywords) then None
    else Find(table, (row: HsnRow) => MentionsKeyword(row, keywords))
  }

  predicate Blank(s: Option<string>)
  {
    s.None? || Trim(s.value) == ""
  }

  /** `categorizeInvoice`. The description argument is used only when truthy
      (not null and not empty). */
  function CategorizeInvoice(hsn: Option<string>, description: Option<string>, table: seq<HsnRow>): (r: CategorizationResult)
    ensures Blank(hsn) ==>
              r == CategorizationResult(None, "Unknown", "No HSN code provided", 18.0, false, None, 0.3, DefaultRate, true)
    ensures !Blank(hsn) ==> r.hsnCode.Some?
    ensures !Blank(hsn) ==>
              var n := Normalize(hsn.value);
              && (r.matchType == ExactMatch <==> SingleRow(table, n).Some?)
              && r.matchType != UnknownMatch
              && (r.matchType == ExactMatch ==>
                    && r.confidenceScore == 0.95 && !r.fallbackUsed
                    && r.gstRate == SingleRow(table, n).value.gstRate
                    && r.isExempt == SingleRow(table, n).value.isExempt
                    && r.category == SingleRow(table, n).value.category)
              && (r.matchType != ExactMatch ==> r.hsnCode == Some(n))
              && (r.confidenceScore == 0.75 <==>
                    SingleRow(table, n).None? && |n| >= 4 && FindPartialHSNMatch(table, n[..4]).Some?)
              && (r.confidenceScore == 0.60 <==>
                    && SingleRow(table, n).None?
                    && (|n| < 4 || FindPartialHSNMatch(table, n[..4]).None?)
                    && description.Some? && description.value != ""
                    && FindByDescription(table, description.value).Some?)
              && (r.confidenceScore == 0.75 || r.confidenceScore == 0.60 <==> r.matchType == PartialMatch)
              && (r.confidenceScore == 0.75 ==>
                    && r.gstRate == FindPartialHSNMatch(table, n[..4]).value.gstRate
                    && r.isExempt == FindPartialHSNMatch(table, n[..4]).value.isExempt
                    && r.category == FindPartialHSNMatch(table, n[..4]).value.category)
              && (r.confidenceScore == 0.60 ==>
                    && r.gstRate == FindByDescription(table, description.value).value.gstRate
                    && r.isExempt == FindByDescription(table, description.value).value.isExempt
                    && r.category == FindByDescription(table, description.value).value.category)
              && (r.matchType == DefaultRate <==> r.fallbackUsed)
              && (r.matchType == DefaultRate ==> r.confidenceScore == 0.40 && r.gstRate == 18.0 && !r.isExempt)
  {
    if Blank(hsn) then
      CategorizationResult(None, "Unknown", "No HSN code provided", 18.0, false, None, 0.3, DefaultRate, true)
    else
      var n := Normalize(hsn.value);
      match SingleRow(table, n)
      case Some(row) =>
        CategorizationResult(Some(row.hsnCode), row.category, row.description, row.gstRate,
                             row.isExempt, row.exemptionReason, 0.95, ExactMatch, false)
      case None =>
        var partial := if |n| >= 4 then FindPartialHSNMatch(table, n[..4]) else None;
        if partial.Some? then
          var row := partial.value;
          CategorizationResult(Some(n), row.category, "Similar to: " + row.description, row.gstRate,
                               row.isExempt, row.exemptionReason, 0.75, PartialMatch, false)
        else
          var byDescription :=
            if description.Some? && description.value != "" then FindByDescription(table, description.value) else None;
          if byDescription.Some? then
            var row := byDescription.value;
            CategorizationResult(Some(n), row.category, "Matched by description: " + row.description, row.gstRate,
                                 row.isExempt, row.exemptionReason, 0.60, PartialMatch, false)
          else
            CategorizationResult(Some(n), "Unclassified", "HSN code not found in database - using default rate",
                                 18.0, false, None, 0.40, DefaultRate, true)
  }

  /** Normalising a normalised code changes nothing. */
  lemma NormalizeIdempotent(hsn: string)
    ensures Normalize(Normalize(hsn)) == Normalize(hsn)
  {
    var n := Normalize(hsn);
    RemoveSpacesNoop(n);
    assert RemoveSpaces(n) == n;
    if n != [] {
      TrimNoop(n);
    }
    assert Trim(n) == n;
    assert forall k :: 0 <= k < |n| ==> UpperChar(n[k]) == n[k];
  }

  lemma {:induction false} RemoveSpacesNoop(s: string)
    requires forall k :: 0 <= k < |s| ==> !IsSpace(s[k])
    ensures RemoveSpaces(s) == s
  {
    if s != [] {
      RemoveSpacesNoop(s[1..]);
      assert [s[0]] + s[1..] == s;
    }
  }

  datatype CategorizationStatus = Categorized | NeedsReview

  /** `CategorizationScoring` */
  datatype CategorizationScoring = CategorizationScoring(
    overallScore: real,
    categorizationConfidence: real,
    hsnValidity: real,
    taxRateConfidence: real,
    status: CategorizationStatus,
    reason: string)

  /** The score before rounding: exact results are raised to 0.90, partial
      ones to 0.70, and defaults lowered to 0.50. */
  function AdjustedScore(r: CategorizationResult): real
  {
    match r.matchType
    case ExactMatch => Max(r.confidenceScore, 0.90)
    case PartialMatch => Max(r.confidenceScore, 0.70)
    case DefaultRate => Min(r.confidenceScore, 0.50)
    case UnknownMatch => r.confidenceScore
  }

  /** The status rules, tried in order. */
  function ScoringStatus(r: CategorizationResult, overall: real): CategorizationStatus
  {
    if r.fallbackUsed || overall < 0.70 then NeedsReview
    else if r.isExempt then Categorized
    else if r.matchType == PartialMatch then NeedsReview
    else Categorized
  }

  function ScoringReason(r: CategorizationResult, overall: real): string
  {
    if r.fallbackUsed || overall < 0.70 then
      "HSN code not found in database - defaulting to the most common rate. Admin review recommended."
    else if r.isExempt then
      "HSN is exempt from GST. Reason: "
      + (if r.exemptionReason.Some? && r.exemptionReason.value != "" then r.exemptionReason.value else "Standard exemption")
    else if r.matchType == PartialMatch then
      "Partial match for HSN - applied GST based on similar category. Please verify."
    else
      "HSN categorized as " + r.category
  }

  /** `calculateCategorizationScore` */
  function CalculateCategorizationScore(r: CategorizationResult): (s: CategorizationScoring)
    ensures s.overallScore == Round2(AdjustedScore(r))
    ensures s.categorizationConfidence == r.confidenceScore
    ensures s.hsnValidity == if r.hsnCode.Some? && r.hsnCode.value != "" && !r.fallbackUsed then 0.9 else 0.4
    ensures s.taxRateConfidence == if r.matchType == ExactMatch then 0.95 else 0.60
    ensures r.fallbackUsed || AdjustedScore(r) < 0.70 ==> s.status == NeedsReview
    ensures !r.fallbackUsed && AdjustedScore(r) >= 0.70 ==>
              (s.status == Categorized <==> r.isExempt || r.matchType != PartialMatch)
  {
    var overall := AdjustedScore(r);
    var hsnValidity := if r.hsnCode.Some? && r.hsnCode.value != "" && !r.fallbackUsed then 0.9 else 0.4;
    var taxRateConfidence := if r.matchType == ExactMatch then 0.95 else 0.60;
    CategorizationScoring(Round2(overall), r.confidenceScore, hsnValidity, taxRateConfidence,
                          ScoringStatus(r, overall), ScoringReason(r, overall))
  }

  /** The floors and the cap of the scoring wrapper, after rounding. */
  lemma ScoreFloorsAndCap(r: CategorizationResult)
    ensures r.matchType == ExactMatch ==> CalculateCategorizationScore(r).overallScore >= 0.90
    ensures r.matchType == PartialMatch ==> CalculateCategorizationScore(r).overallScore >= 0.70
    ensures r.matchType == DefaultRate ==> CalculateCategorizationScore(r).overallScore <= 0.50
  {
    var a := AdjustedScore(r);
    if r.matchType == ExactMatch {
      Round2AtLeast(a, 90);
    } else if r.matchType == PartialMatch {
      Round2AtLeast(a, 70);
    } else if r.matchType == DefaultRate {
      Round2AtMost(a, 50);
    }
  }

  /** On results of `categorizeInvoice`: a default needs review, an exact match
      is categorized, and a non-exempt partial match needs review. */
  lemma CategorizedStatus(hsn: Option<string>, description: Option<string>, table: seq<HsnRow>)
    ensures var r := CategorizeInvoice(hsn, description, table);
            var s := CalculateCategorizationScore(r);
            && (r.matchType == DefaultRate ==> s.status == NeedsReview)
            && (r.matchType == ExactMatch ==> s.status == Categorized)
            && (r.matchType == PartialMatch && !r.isExempt ==> s.status == NeedsReview)
  {
  }

  /** `validateGSTRate` (categorizer.ts): exact membership in the standard rates. */
  function ValidGstRate(rate: Option<real>): (ok: bool)
    ensures ok <==> rate.Some? && rate.value in Rules.ValidGstRates
  {
    rate.Some? && rate.value in Rules.ValidGstRates
  }

  /** A rate the categorizer accepts also gets full confidence from the
      validator's tolerant rate check. */
  lemma CategorizerRateAcceptedByValidator(rate: real)
    requires ValidGstRate(Some(rate))
    ensures Rules.ValidateGSTRate(Some(rate)).confidence == 1.0
  {
    var i :| 0 <= i < |Rules.ValidGstRates| && Rules.ValidGstRates[i] == rate;
    Rules.StandardRateAccepted(i);
  }

  datatype GstSplit = GstSplit(cgst: real, sgst: real, igst: real, totalGst: real)

  /** `calculateExpectedGST` */
  function CalculateExpectedGST(taxable: real, rate: real, isInterState: bool): (r: GstSplit)
    ensures r.totalGst == taxable * rate / 100.0
    ensures r.cgst + r.sgst + r.igst == r.totalGst
    ensures isInterState ==> r.cgst == 0.0 && r.sgst == 0.0
    ensures !isInterState ==> r.igst == 0.0 && r.cgst == r.sgst
  {
    var totalGst := taxable * rate / 100.0;
    if isInterState then GstSplit(0.0, 0.0, totalGst, totalGst)
    else GstSplit(totalGst / 2.0, totalGst / 2.0, 0.0, totalGst)
  }

  /** The expected split is exactly what the validator's tax-split rule wants,
      for either pair of state codes. */
  lemma ExpectedSplitPassesValidator(vendorCode: Option<string>, clientCode: string, taxable: real, rate: real)
    ensures var split := CalculateExpectedGST(taxable, rate, vendorCode != Some(clientCode));
            var check := Rules.ValidateTaxSplit(vendorCode, clientCode, taxable, rate, split.cgst, split.sgst, split.igst);
            check.valid && check.confidence == 1.0
  {
  }

  /** `getCategorizationLabel` */
  function GetCategorizationLabel(score: real): (text: string)
    ensures score >= 0.90 <==> text == "Exact Match"
    ensures 0.75 <= score < 0.90 <==> text == "Partial Match"
    ensures 0.60 <= score < 0.75 <==> text == "Probable"
    ensures 0.40 <= score < 0.60 <==> text == "Default Applied"
    ensures score < 0.40 <==> text == "Unknown"
  {
    if score >= 0.90 then "Exact Match"
    else if score >= 0.75 then "Partial Match"
    else if score >= 0.60 then "Probable"
    else if score >= 0.40 then "Default Applied"
    else "Unknown"
  }
}

=== FILE: common.dfy ===
/** Values shared by every part of the pipeline model: an optional value, the
    arithmetic helpers the TypeScript code gets from `Math`, and a sequence filter. */
module Common {

  datatype Option<T> = None | Some(value: T)

  /** A request-body text field that JavaScript treats as truthy: present and
      not the empty string. */
  predicate Truthy(s: Option<string>) { s.Some? && s.value != "" }

  /** A route's request check: an early return with an HTTP status and an
      error text, or going on. */
  datatype Guard = Proceed | Refuse(httpStatus: int, error: string)

  /** A date field after `new Date(text)`: either not a date, or a day number
      (days since a fixed epoch; times of day play no part in the model). */
  datatype CalendarDate = Invalid | Day(n: int)

  function Abs(x: real): (r: real)
    ensures r >= 0.0
    ensures r == x || r == -x
  {
    if x < 0.0 then -x else x
  }

  function Max(a: real, b: real): (r: real)
    ensures r >= a && r >= b && (r == a || r == b)
  {
    if a >= b then a else b
  }

  function Min(a: real, b: real): (r: real)
    ensures r <= a && r <= b && (r == a || r == b)
  {
    if a <= b then a else b
  }

  /** `Math.min(1, Math.max(0, x))` */
  function Clamp01(x: real): (r: real)
    ensures 0.0 <= r <= 1.0
    ensures 0.0 <= x <= 1.0 ==> r == x
    ensures x < 0.0 ==> r == 0.0
    ensures x > 1.0 ==> r == 1.0
  {
    Min(1.0, Max(0.0, x))
  }

  /** `Math.round(x * 100) / 100`: JavaScript rounds halves towards +infinity. */
  function Round2(x: real): real
  {
    ((x * 100.0 + 0.5).Floor as real) / 100.0
  }

  lemma Round2Close(x: real)
    ensures x - 0.005 < Round2(x) <= x + 0.005
  {
    var f := (x * 100.0 + 0.5).Floor;
    assert f as real <= x * 100.0 + 0.5 < f as real + 1.0;
  }

  lemma Round2Monotone(x: real, y: real)
    requires x <= y
    ensures Round2(x) <= Round2(y)
  {
    var fx := (x * 100.0 + 0.5).Floor;
    var fy := (y * 100.0 + 0.5).Floor;
    assert fx as real <= x * 100.0 + 0.5 <= y * 100.0 + 0.5 < fy as real + 1.0;
    assert fx <= fy;
  }

  /** A value with at most two decimals is left unchanged by Round2. */
  lemma Round2OfHundredths(k: int)
    ensures Round2(k as real / 100.0) == k as real / 100.0
  {
    var x := k as real / 100.0;
    assert x * 100.0 + 0.5 == k as real + 0.5;
    assert (k as real + 0.5).Floor == k;
  }

  /** Rounding never crosses a two-decimal threshold from above ... */
  lemma Round2AtLeast(x: real, k: int)
    requires x >= k as real / 100.0
    ensures Round2(x) >= k as real / 100.0
  {
    Round2Monotone(k as real / 100.0, x);
    Round2OfHundredths(k);
  }

  /** ... nor from below. */
  lemma Round2AtMost(x: real, k: int)
    requires x <= k as real / 100.0
    ensures Round2(x) <= k as real / 100.0
  {
    Round2Monotone(x, k as real / 100.0);
    Round2OfHundredths(k);
  }

  lemma Round2UnitRange(x: real)
    requires 0.0 <= x <= 1.0
    ensures 0.0 <= Round2(x) <= 1.0
  {
    Round2AtLeast(x, 0);
    Round2AtMost(x, 100);
  }

  /** `array.filter(p)`, keeping order. */
  function Filter<T>(s: seq<T>, p: T -> bool): (r: seq<T>)
    ensures |r| <= |s|
    ensures forall x :: x in r ==> x in s && p(x)
    ensures forall x :: x in s && p(x) ==> x in r
  {
    if s == [] then [] else (if p(s[0]) then [s[0]] else []) + Filter(s[1..], p)
  }

  lemma {:induction false} FilterAppend<T>(a: seq<T>, b: seq<T>, p: T -> bool)
    ensures Filter(a + b, p) == Filter(a, p) + Filter(b, p)
  {
    if a == [] {
      assert a + b == b;
    } else {
      assert (a + b)[1..] == a[1..] + b;
      FilterAppend(a[1..], b, p);
    }
  }

  /** An element the test rejects does not reach the filtered list. */
  lemma FilterSkips<T>(before: seq<T>, after: seq<T>, x: T, p: T -> bool)
    requires !p(x)
    ensures Filter(before + [x] + after, p) == Filter(before + after, p)
  {
    FilterAppend(before + [x], after, p);
    FilterAppend(before, [x], p);
    FilterAppend(before, after, p);
    assert Filter([x], p) == [];
    var fb := Filter(before, p);
    assert fb + [] == fb;
  }

  /** Number of elements satisfying p: `array.filter(p).length`. */
  function Count<T>(s: seq<T>, p: T -> bool): (n: nat)
    ensures n <= |s|
  {
    if s == [] then 0 else (if p(s[0]) then 1 else 0) + Count(s[1..], p)
  }

  /** The first element satisfying p: `array.find(p)`. */
  function Find<T>(s: seq<T>, p: T -> bool): (r: Option<T>)
    ensures r.Some? ==> r.value in s && p(r.value)
    ensures r.None? ==> forall x :: x in s ==> !p(x)
  {
    if s == [] then None else if p(s[0]) then Some(s[0]) else Find(s[1..], p)
  }

  /** `find` returns the first element that satisfies p. */
  lemma {:induction false} FindIsFirst<T>(s: seq<T>, p: T -> bool)
    ensures Find(s, p).Some? ==>
              exists i :: 0 <= i < |s| && s[i] == Find(s, p).value && forall j :: 0 <= j < i ==> !p(s[j])
  {
    if s != [] && !p(s[0]) {
      var t := s[1..];
      FindIsFirst(t, p);
      if Find(t, p).Some? {
        var i :| 0 <= i < |t| && t[i] == Find(t, p).value && forall j :: 0 <= j < i ==> !p(t[j]);
        assert s[i + 1] == Find(s, p).value;
        forall j | 0 <= j < i + 1
          ensures !p(s[j])
        {
          if j > 0 { assert s[j] == t[j - 1]; }
        }
      }
    }
  }

  /** `array.slice(0, n)` */
  function Take<T>(s: seq<T>, n: nat): (r: seq<T>)
    ensures |r| <= n && |r| <= |s|
    ensures r == s[..|r|]
    ensures |s| >= n ==> |r| == n
  {
    if |s| <= n then s else s[..n]
  }
}

=== FILE: confidence.dfy ===
/** `calculateConfidenceScore`, `getConfidenceLabel` and
    `getDetailedAssessment` (confidence.ts): the fixed-weight average of the
    seven extraction confidences and the three-tier decision with its safety
    net on the critical fields. */
module Confidence {
  import opened Common
  import opened Strings
  import opened Extractor

  datatype Tier = AutoApprove | Review | Reject

  datatype ConfidenceScoring = ConfidenceScoring(overallScore: real, fieldScores: FieldConfidences, status: Tier, reason: string)

  /** The weighted average; the weights 0.20, 0.30, 0.25, 0.15, 0.05, 0.03 and
      0.02 are divided by their sum, which is 1. */
  function WeightedAverage(f: FieldConfidences): real
  {
    (f.vendorGstin * 0.20 + f.totalAmount * 0.30 + f.gstAmount * 0.25 + f.hsnCode * 0.15
     + f.vendorName * 0.05 + f.invoiceNumber * 0.03 + f.invoiceDate * 0.02)
    / (0.20 + 0.30 + 0.25 + 0.15 + 0.05 + 0.03 + 0.02)
  }

  /** Vendor GSTIN, total amount and GST amount all at 0.80 or more. */
  predicate CriticalFieldsConfident(f: FieldConfidences)
  {
    f.vendorGstin >= 0.80 && f.totalAmount >= 0.80 && f.gstAmount >= 0.80
  }

  /** `calculateConfidenceScore` */
  function CalculateConfidenceScore(extracted: ExtractedInvoiceData): (r: ConfidenceScoring)
    ensures r.fieldScores == extracted.confidencePerField
    ensures r.overallScore == Round2(WeightedAverage(extracted.confidencePerField))
    ensures r.status == Reject <==> WeightedAverage(extracted.confidencePerField) < 0.80
    ensures r.status == AutoApprove <==>
              WeightedAverage(extracted.confidencePerField) >= 0.95 && CriticalFieldsConfident(extracted.confidencePerField)
    ensures (WeightedAverage(extracted.confidencePerField) >= 0.80 && !CriticalFieldsConfident(extracted.confidencePerField))
            ==> r.status == Review && r.reason == "Critical field(s) have low confidence - requires admin review"
  {
    var f := extracted.confidencePerField;
    var score := WeightedAverage(f);
    var (status, reason) :=
      if score >= 0.95 then (AutoApprove, "High confidence extraction (95%+)")
      else if score < 0.80 then (Reject, "Low confidence extraction (<80%). Client clarification needed.")
      else (Review, "Manual review required");
    var (status', reason') :=
      if status != Reject && !CriticalFieldsConfident(f) then
        (Review, "Critical field(s) have low confidence - requires admin review")
      else (status, reason);
    ConfidenceScoring(Round2(score), f, status', reason')
  }

  /** With every field confidence in [0,1] the score is in [0,1]. */
  lemma ScoreInUnitRange(extracted: ExtractedInvoiceData)
    requires ConfidencesInUnitRange(extracted.confidencePerField)
    ensures 0.0 <= WeightedAverage(extracted.confidencePerField) <= 1.0
    ensures 0.0 <= CalculateConfidenceScore(extracted).overallScore <= 1.0
  {
    Round2UnitRange(WeightedAverage(extracted.confidencePerField));
  }

  /** Pointwise comparison of two sets of field confidences. */
  predicate AtMost(f: FieldConfidences, g: FieldConfidences)
  {
    && f.invoiceNumber <= g.invoiceNumber && f.invoiceDate <= g.invoiceDate && f.vendorName <= g.vendorName
    && f.vendorGstin <= g.vendorGstin && f.totalAmount <= g.totalAmount && f.gstAmount <= g.gstAmount
    && f.hsnCode <= g.hsnCode
  }

  function TierRank(t: Tier): int
  {
    match t
    case Reject => 0
    case Review => 1
    case AutoApprove => 2
  }

  /** Raising field confidences never lowers the overall score nor the tier. */
  lemma ScoreMonotone(e1: ExtractedInvoiceData, e2: ExtractedInvoiceData)
    requires AtMost(e1.confidencePerField, e2.confidencePerField)
    ensures WeightedAverage(e1.confidencePerField) <= WeightedAverage(e2.confidencePerField)
    ensures CalculateConfidenceScore(e1).overallScore <= CalculateConfidenceScore(e2).overallScore
    ensures TierRank(CalculateConfidenceScore(e1).status) <= TierRank(CalculateConfidenceScore(e2).status)
  {
    Round2Monotone(WeightedAverage(e1.confidencePerField), WeightedAverage(e2.confidencePerField));
  }

  /** 'auto_approve' implies a rounded score of at least 0.95. */
  lemma AutoApproveRounded(extracted: ExtractedInvoiceData)
    requires CalculateConfidenceScore(extracted).status == AutoApprove
    ensures CalculateConfidenceScore(extracted).overallScore >= 0.95
  {
    Round2AtLeast(WeightedAverage(extracted.confidencePerField), 95);
  }

  /** `getConfidenceLabel` */
  function GetConfidenceLabel(score: real): (text: string)
    ensures score >= 0.95 <==> text == "Very High"
    ensures 0.85 <= score < 0.95 <==> text == "High"
    ensures 0.75 <= score < 0.85 <==> text == "Medium"
    ensures 0.60 <= score < 0.75 <==> text == "Low"
    ensures score < 0.60 <==> text == "Very Low"
  {
    if score >= 0.95 then "Very High"
    else if score >= 0.85 then "High"
    else if score >= 0.75 then "Medium"
    else if score >= 0.60 then "Low"
    else "Very Low"
  }

  /** The assessment when no field is under its threshold. It is written as
      "All" followed by the rest because the verifier does not read the first
      character of the literal written whole. Split this way, the proof of
      GetDetailedAssessment can see that it starts with 'A'. No issue text
      does, so a joined list of issues can never equal it. */
  const AllGood: string := "All" + " critical fields extracted with good confidence"

  /** The issues in the order they are checked. */
  function Issues(f: FieldConfidences): (issues: seq<string>)
    ensures issues == [] <==>
              CriticalFieldsConfident(f) && f.hsnCode >= 0.80 && f.invoiceDate >= 0.70
    ensures forall k :: 0 <= k < |issues| ==> issues[k] != [] && issues[k][0] != 'A'
  {
    (if f.vendorGstin < 0.80 then ["Vendor GSTIN confidence is low"] else [])
    + (if f.totalAmount < 0.80 then ["Total amount extraction uncertain"] else [])
    + (if f.gstAmount < 0.80 then ["GST amount confidence is low"] else [])
    + (if f.hsnCode < 0.80 then ["HSN code could not be extracted clearly"] else [])
    + (if f.invoiceDate < 0.70 then ["Invoice date may be incorrect"] else [])
  }

  /** `getDetailedAssessment` */
  function GetDetailedAssessment(extracted: ExtractedInvoiceData): (text: string)
    ensures text == AllGood <==>
              var f := extracted.confidencePerField;
              CriticalFieldsConfident(f) && f.hsnCode >= 0.80 && f.invoiceDate >= 0.70
  {
    var issues := Issues(extracted.confidencePerField);
    if issues == [] then AllGood
    else
      var text := Join(issues, ". ");
      JoinStartsWithFirst(issues, ". ");
      assert text[..|issues[0]|] == issues[0];
      assert text[0] == text[..|issues[0]|][0] == issues[0][0];
      assert AllGood[0] == 'A';
      text
  }
}

=== FILE: duplicates.dfy ===
/** `checkDuplicateInvoice` (validator.ts): three database queries over the
    client's earlier invoices, tried in turn (exact, fuzzy, partial). The
    `invoices` table is given as its rows in database order. */
module Duplicates {
  import opened Common
  import opened Strings

  /** A row of `invoices` as the duplicate queries see it. `invoiceDate` is a
      day number; a null date is `new Date(null)`, day 0 of the epoch. */
  datatype StoredInvoice = StoredInvoice(
    id: string,
    clientId: string,
    invoiceNumber: Option<string>,
    vendorGstin: Option<string>,
    invoiceDate: Option<int>,
    totalAmount: real,
    status: string)

  /** The invoice being checked. */
  datatype DuplicateQuery = DuplicateQuery(
    clientId: string,
    invoiceNumber: Option<string>,
    vendorGstin: Option<string>,
    invoiceDate: Option<CalendarDate>,
    totalAmount: real,
    currentId: string)

  datatype MatchType = Exact | Fuzzy | Partial | NoMatch

  /** `DuplicateCheckResult` */
  datatype DuplicateResult = DuplicateResult(
    isDuplicate: bool,
    confidence: real,
    matched: Option<StoredInvoice>,
    matchType: MatchType,
    reason: string,
    potentialDuplicates: seq<StoredInvoice>)

  const NilUuid: string := "00000000-0000-0000-0000-000000000000"

  /** `.eq(column, key)`: a missing key matches no row. */
  predicate EqKey(column: Option<string>, key: Option<string>)
  {
    key.Some? && column == key
  }

  /** The filters every query shares: same client, not rejected, not the
      invoice itself (`currentInvoiceId || NIL_UUID`). */
  predicate Eligible(q: DuplicateQuery, row: StoredInvoice)
  {
    && row.clientId == q.clientId
    && row.status != "rejected"
    && row.id != (if q.currentId == "" then NilUuid else q.currentId)
  }

  predicate SameNumberAndVendor(q: DuplicateQuery, row: StoredInvoice)
  {
    Eligible(q, row) && EqKey(row.invoiceNumber, q.invoiceNumber) && EqKey(row.vendorGstin, q.vendorGstin)
  }

  /** The exact query adds `.eq('invoice_date', invoiceDate)`. */
  predicate ExactKeys(q: DuplicateQuery, row: StoredInvoice)
  {
    SameNumberAndVendor(q, row) && q.invoiceDate.Some? && q.invoiceDate.value.Day? && row.invoiceDate == Some(q.invoiceDate.value.n)
  }

  predicate SameVendor(q: DuplicateQuery, row: StoredInvoice)
  {
    Eligible(q, row) && EqKey(row.vendorGstin, q.vendorGstin)
  }

  /** `|matchDate - invoiceDate|` in days; None when the invoice's own date is
      not a date, where the source computes NaN and every comparison fails. */
  function DaysApart(q: DuplicateQuery, row: StoredInvoice): (d: Option<int>)
    ensures d.Some? ==> d.value >= 0
  {
    if q.invoiceDate.Some? && q.invoiceDate.value.Day? then
      var stored := if row.invoiceDate.Some? then row.invoiceDate.value else 0;
      var diff := stored - q.invoiceDate.value.n;
      Some(if diff < 0 then -diff else diff)
    else None
  }

  /** Amount within `maxAmount` and date within `maxDays`. */
  predicate Near(q: DuplicateQuery, row: StoredInvoice, maxAmount: real, maxDays: int)
  {
    Abs(row.totalAmount - q.totalAmount) <= maxAmount && DaysApart(q, row).Some? && DaysApart(q, row).value <= maxDays
  }

  function ExactRows(history: seq<StoredInvoice>, q: DuplicateQuery): seq<StoredInvoice>
  {
    Filter(history, (row: StoredInvoice) => ExactKeys(q, row))
  }

  function FuzzyRows(history: seq<StoredInvoice>, q: DuplicateQuery): seq<StoredInvoice>
  {
    Filter(history, (row: StoredInvoice) => SameNumberAndVendor(q, row))
  }

  /** The partial query: same vendor, `.limit(5)`. */
  function PartialRows(history: seq<StoredInvoice>, q: DuplicateQuery): (rows: seq<StoredInvoice>)
    ensures |rows| <= 5
  {
    Take(Filter(history, (row: StoredInvoice) => SameVendor(q, row)), 5)
  }

  function FirstFuzzy(history: seq<StoredInvoice>, q: DuplicateQuery): Option<StoredInvoice>
  {
    Find(FuzzyRows(history, q), (row: StoredInvoice) => Near(q, row, 10.0, 7))
  }

  function SimilarRows(history: seq<StoredInvoice>, q: DuplicateQuery): seq<StoredInvoice>
  {
    Filter(PartialRows(history, q), (row: StoredInvoice) => Near(q, row, 100.0, 30))
  }

  /** The first exact match decides the exact tier on its own. */
  predicate ExactHit(history: seq<StoredInvoice>, q: DuplicateQuery)
  {
    var exact := ExactRows(history, q);
    exact != [] && Abs(exact[0].totalAmount - q.totalAmount) <= 1.0
  }

  function OrEmpty(s: Option<string>): string
  {
    if s.Some? then s.value else ""
  }

  /** Whether the exact query runs. It reports an error when the database
      does (`history` is None), and when the invoice has no date or one that
      is not a date: `.eq('invoice_date', …)` then sends `null`, `undefined`
      or the unparseable text, which the date column refuses. */
  predicate ExactQueryRuns(history: Option<seq<StoredInvoice>>, q: DuplicateQuery)
  {
    history.Some? && q.invoiceDate.Some? && q.invoiceDate.value.Day?
  }

  /** `checkDuplicateInvoice` */
  function CheckDuplicateInvoice(history: Option<seq<StoredInvoice>>, q: DuplicateQuery): (r: DuplicateResult)
    ensures !ExactQueryRuns(history, q) ==>
              r == DuplicateResult(false, 0.5, None, NoMatch, "Failed to check for duplicates", [])
    ensures r.isDuplicate <==> r.matchType == Exact || r.matchType == Fuzzy
    ensures 0.0 <= r.confidence <= 1.0
    ensures r.matchType == Exact <==> ExactQueryRuns(history, q) && ExactHit(history.value, q)
    ensures r.matchType == Exact ==>
              r.confidence == 1.0 && r.matched == Some(ExactRows(history.value, q)[0])
              && r.matched.value in history.value && ExactKeys(q, r.matched.value)
    ensures r.matchType == Fuzzy ==>
              r.confidence == 0.85 && r.matched == FirstFuzzy(history.value, q) && r.matched.Some?
              && r.matched.value in history.value
              && SameNumberAndVendor(q, r.matched.value) && Near(q, r.matched.value, 10.0, 7)
    ensures ExactQueryRuns(history, q) && !ExactHit(history.value, q) ==>
              (r.matchType == Fuzzy <==> exists row :: row in FuzzyRows(history.value, q) && Near(q, row, 10.0, 7))
    ensures r.matchType == Partial ==>
              r.confidence == 0.70 && r.matched.None? && r.potentialDuplicates == SimilarRows(history.value, q)
              && r.potentialDuplicates != [] && |r.potentialDuplicates| <= 5
              && forall row :: row in r.potentialDuplicates ==> row in history.value && SameVendor(q, row) && Near(q, row, 100.0, 30)
    ensures r.matchType != Partial ==> r.potentialDuplicates == []
    ensures ExactQueryRuns(history, q) && r.matchType == NoMatch ==> r.confidence == 1.0 && SimilarRows(history.value, q) == []
  {
    if !ExactQueryRuns(history, q) then DuplicateResult(false, 0.5, None, NoMatch, "Failed to check for duplicates", [])
    else
      var rows := history.value;
      var exact := ExactRows(rows, q);
      if ExactHit(rows, q) then
        var m := exact[0];
        DuplicateResult(true, 1.0, Some(m), Exact,
          "Exact duplicate found: Invoice #" + OrEmpty(m.invoiceNumber) + " already exists (ID: " + m.id + ")", [])
      else
        match FirstFuzzy(rows, q)
        case Some(m) =>
          DuplicateResult(true, 0.85, Some(m), Fuzzy,
            "Potential duplicate: Similar invoice #" + OrEmpty(m.invoiceNumber) + " within 7 days", [])
        case None =>
          var similar := SimilarRows(rows, q);
          if similar != [] then
            DuplicateResult(false, 0.70, None, Partial,
              "Found " + NatToString(|similar|) + " similar invoice(s) from same vendor within 30 days", similar)
          else DuplicateResult(false, 1.0, None, NoMatch, "No duplicates found", [])
  }

  /** An invoice without a usable date is never reported as a duplicate: the
      exact query fails and the check gives 0.5. */
  lemma DatelessInvoiceFailsCheck(history: seq<StoredInvoice>, q: DuplicateQuery)
    requires q.invoiceDate.None? || q.invoiceDate.value.Invalid?
    ensures var r := CheckDuplicateInvoice(Some(history), q);
            !r.isDuplicate && r.confidence == 0.5 && r.reason == "Failed to check for duplicates"
  {
  }

  /** A row that matches number, vendor and date exactly and is within 10 of
      the amount is always reported as a duplicate, exact or fuzzy. */
  lemma ExactKeysWithinTenIsDuplicate(history: seq<StoredInvoice>, q: DuplicateQuery, row: StoredInvoice)
    requires row in history && ExactKeys(q, row) && Abs(row.totalAmount - q.totalAmount) <= 10.0
    ensures CheckDuplicateInvoice(Some(history), q).isDuplicate
  {
    assert DaysApart(q, row) == Some(0);
    assert row in FuzzyRows(history, q);
  }

  /** Only the first exact match's amount is inspected: when the first row
      with the same number, vendor and date differs by 50 and a later one is
      an identical copy, the copy is reported as a fuzzy (0.85) duplicate,
      not an exact one. */
  lemma FirstExactMatchOnly()
    ensures var q := DuplicateQuery("c1", Some("INV-1"), Some("G1"), Some(Day(100)), 1000.0, "i0");
            var a := StoredInvoice("i1", "c1", Some("INV-1"), Some("G1"), Some(100), 1050.0, "approved");
            var b := StoredInvoice("i2", "c1", Some("INV-1"), Some("G1"), Some(100), 1000.0, "approved");
            var r := CheckDuplicateInvoice(Some([a, b]), q);
            r.matchType == Fuzzy && r.confidence == 0.85 && r.matched == Some(b)
  {
    var q := DuplicateQuery("c1", Some("INV-1"), Some("G1"), Some(Day(100)), 1000.0, "i0");
    var a := StoredInvoice("i1", "c1", Some("INV-1"), Some("G1"), Some(100), 1050.0, "approved");
    var b := StoredInvoice("i2", "c1", Some("INV-1"), Some("G1"), Some(100), 1000.0, "approved");
    assert "approved" != "rejected" by { assert "approved"[0] != "rejected"[0]; }
    assert a.id != "i0" && b.id != "i0" by { assert a.id[1] != "i0"[1] && b.id[1] != "i0"[1]; }
    assert ExactKeys(q, a) && ExactKeys(q, b);
    var pe := (row: StoredInvoice) => ExactKeys(q, row);
    var pf := (row: StoredInvoice) => SameNumberAndVendor(q, row);
    var pn := (row: StoredInvoice) => Near(q, row, 10.0, 7);
    assert [a, b][1..] == [b];
    assert [b][1..] == [];
    assert Filter([b], pe) == [b];
    assert ExactRows([a, b], q) == [a, b];
    assert Filter([b], pf) == [b];
    assert FuzzyRows([a, b], q) == [a, b];
    assert !pn(a) && pn(b);
    assert Find([b], pn) == Some(b);
    assert FirstFuzzy([a, b], q) == Some(b);
  }

  /** Rows with status 'rejected' take no part in any tier, wherever they
      stand in the history. */
  lemma RejectedRowIgnored(before: seq<StoredInvoice>, after: seq<StoredInvoice>, q: DuplicateQuery, row: StoredInvoice)
    requires row.status == "rejected"
    ensures CheckDuplicateInvoice(Some(before + [row] + after), q) == CheckDuplicateInvoice(Some(before + after), q)
  {
    RejectedRowLeavesQueries(before, after, q, row);
    var h := before + [row] + after;
    var g := before + after;
    assert ExactHit(h, q) == ExactHit(g, q);
    assert FirstFuzzy(h, q) == FirstFuzzy(g, q);
    assert SimilarRows(h, q) == SimilarRows(g, q);
  }

  /** None of the three queries returns a rejected row. */
  lemma RejectedRowLeavesQueries(before: seq<StoredInvoice>, after: seq<StoredInvoice>, q: DuplicateQuery, row: StoredInvoice)
    requires row.status == "rejected"
    ensures ExactRows(before + [row] + after, q) == ExactRows(before + after, q)
    ensures FuzzyRows(before + [row] + after, q) == FuzzyRows(before + after, q)
    ensures PartialRows(before + [row] + after, q) == PartialRows(before + after, q)
  {
    FilterSkips(before, after, row, (x: StoredInvoice) => ExactKeys(q, x));
    FilterSkips(before, after, row, (x: StoredInvoice) => SameNumberAndVendor(q, x));
    FilterSkips(before, after, row, (x: StoredInvoice) => SameVendor(q, x));
  }

  /** A partial match never marks the invoice as a duplicate. */
  lemma PartialIsNotDuplicate(history: Option<seq<StoredInvoice>>, q: DuplicateQuery)
    ensures CheckDuplicateInvoice(history, q).matchType == Partial ==> !CheckDuplicateInvoice(history, q).isDuplicate
  {
  }
}

=== FILE: extractor.dfy ===
/** `validateExtractedData` and `validateGSTIN` (extractor.ts): the
    normalisation applied to whatever JSON object the language model returned.
    The HTTP call and the parsing of the reply are not part of this model; the
    parsed object is the input. */
module Extractor {
  import opened Common
  import opened Strings

  /** A JSON value as JavaScript sees it. Objects and arrays are `Composite`:
      the normalisation only asks whether they are truthy. */
  datatype JsValue = Undefined | Null | Bool(b: bool) | Num(x: real) | Str(s: string) | Composite

  /** JavaScript truthiness: false, 0, "" , null and undefined are falsy. */
  predicate Truthy(v: JsValue)
  {
    match v
    case Undefined => false
    case Null => false
    case Bool(b) => b
    case Num(x) => x != 0.0
    case Str(s) => s != ""
    case Composite => true
  }

  /** The parsed reply: its top-level fields, and `confidence_per_field` when
      that is an object of numbers (None when it is absent or not an object). */
  datatype RawExtraction = RawExtraction(fields: map<string, JsValue>, confidencePerField: Option<map<string, real>>)

  function Field(data: RawExtraction, name: string): JsValue
  {
    if name in data.fields then data.fields[name] else Undefined
  }

  /** `confidence_per_field` of `ExtractedInvoiceData`. */
  datatype FieldConfidences = FieldConfidences(
    invoiceNumber: real,
    invoiceDate: real,
    vendorName: real,
    vendorGstin: real,
    totalAmount: real,
    gstAmount: real,
    hsnCode: real)

  predicate ConfidencesInUnitRange(c: FieldConfidences)
  {
    && 0.0 <= c.invoiceNumber <= 1.0 && 0.0 <= c.invoiceDate <= 1.0 && 0.0 <= c.vendorName <= 1.0
    && 0.0 <= c.vendorGstin <= 1.0 && 0.0 <= c.totalAmount <= 1.0 && 0.0 <= c.gstAmount <= 1.0
    && 0.0 <= c.hsnCode <= 1.0
  }

  /** `ExtractedInvoiceData`. Text fields keep whatever truthy value the reply
      had, or are `Null`; amounts are numbers or None. */
  datatype ExtractedInvoiceData = ExtractedInvoiceData(
    invoiceNumber: JsValue,
    invoiceDate: JsValue,
    vendorName: JsValue,
    vendorGstin: Option<string>,
    totalAmount: Option<real>,
    cgstAmount: Option<real>,
    sgstAmount: Option<real>,
    igstAmount: Option<real>,
    gstAmount: Option<real>,
    hsnCode: JsValue,
    confidencePerField: FieldConfidences)

  /** `/^[A-Z0-9]{15}$/` */
  predicate GstinShape(s: string)
  {
    |s| == 15 && forall k :: 0 <= k < |s| ==> IsUpper(s[k]) || IsDigit(s[k])
  }

  /** `validateGSTIN`: a string of exactly fifteen upper-case letters and digits. */
  function ValidateGSTIN(gstin: JsValue): (ok: bool)
    ensures ok <==> gstin.Str? && |gstin.s| == 15
                    && forall k :: 0 <= k < 15 ==> IsUpper(gstin.s[k]) || IsDigit(gstin.s[k])
  {
    gstin.Str? && GstinShape(gstin.s)
  }

  /** `value || null` */
  function OrNull(v: JsValue): (r: JsValue)
    ensures Truthy(v) ==> r == v
    ensures !Truthy(v) ==> r == Null
  {
    if Truthy(v) then v else Null
  }

  /** `typeof value === 'number' ? value : null` */
  function NumberOrNull(v: JsValue): (r: Option<real>)
    ensures r.Some? <==> v.Num?
    ensures r.Some? ==> r.value == v.x
  {
    if v.Num? then Some(v.x) else None
  }

  /** `Math.min(1, Math.max(0, confidence_per_field?.name || 0))` */
  function FieldConfidence(data: RawExtraction, name: string): (c: real)
    ensures 0.0 <= c <= 1.0
    ensures data.confidencePerField.None? || name !in data.confidencePerField.value ==> c == 0.0
    ensures data.confidencePerField.Some? && name in data.confidencePerField.value ==>
              c == Clamp01(data.confidencePerField.value[name])
  {
    if data.confidencePerField.Some? && name in data.confidencePerField.value then
      Clamp01(data.confidencePerField.value[name])
    else 0.0
  }

  /** `validateExtractedData` */
  function ValidateExtractedData(data: RawExtraction): (r: ExtractedInvoiceData)
    ensures r.invoiceNumber == OrNull(Field(data, "invoice_number"))
    ensures r.invoiceDate == OrNull(Field(data, "invoice_date"))
    ensures r.vendorName == OrNull(Field(data, "vendor_name"))
    ensures r.hsnCode == OrNull(Field(data, "hsn_code"))
    ensures r.vendorGstin.Some? <==> ValidateGSTIN(Field(data, "vendor_gstin"))
    ensures r.vendorGstin.Some? ==> Field(data, "vendor_gstin") == Str(r.vendorGstin.value)
    ensures r.totalAmount == NumberOrNull(Field(data, "total_amount"))
    ensures r.gstAmount == NumberOrNull(Field(data, "gst_amount"))
    ensures r.cgstAmount == NumberOrNull(Field(data, "cgst_amount"))
    ensures r.sgstAmount == NumberOrNull(Field(data, "sgst_amount"))
    ensures r.igstAmount == NumberOrNull(Field(data, "igst_amount"))
    ensures ConfidencesInUnitRange(r.confidencePerField)
  {
    var gstin := Field(data, "vendor_gstin");
    ExtractedInvoiceData(
      OrNull(Field(data, "invoice_number")),
      OrNull(Field(data, "invoice_date")),
      OrNull(Field(data, "vendor_name")),
      if ValidateGSTIN(gstin) then Some(gstin.s) else None,
      NumberOrNull(Field(data, "total_amount")),
      NumberOrNull(Field(data, "cgst_amount")),
      NumberOrNull(Field(data, "sgst_amount")),
      NumberOrNull(Field(data, "igst_amount")),
      NumberOrNull(Field(data, "gst_amount")),
      OrNull(Field(data, "hsn_code")),
      FieldConfidences(
        FieldConfidence(data, "invoice_number"),
        FieldConfidence(data, "invoice_date"),
        FieldConfidence(data, "vendor_name"),
        FieldConfidence(data, "vendor_gstin"),
        FieldConfidence(data, "total_amount"),
        FieldConfidence(data, "gst_amount"),
        FieldConfidence(data, "hsn_code")))
  }

  /** Normalising twice changes nothing: every kept value passes its own test
      again. The reply is rebuilt from the normalised record. */
  function AsRaw(d: ExtractedInvoiceData): RawExtraction
  {
    RawExtraction(
      map["invoice_number" := d.invoiceNumber, "invoice_date" := d.invoiceDate,
          "vendor_name" := d.vendorName,
          "vendor_gstin" := if d.vendorGstin.Some? then Str(d.vendorGstin.value) else Null,
          "total_amount" := if d.totalAmount.Some? then Num(d.totalAmount.value) else Null,
          "cgst_amount" := if d.cgstAmount.Some? then Num(d.cgstAmount.value) else Null,
          "sgst_amount" := if d.sgstAmount.Some? then Num(d.sgstAmount.value) else Null,
          "igst_amount" := if d.igstAmount.Some? then Num(d.igstAmount.value) else Null,
          "gst_amount" := if d.gstAmount.Some? then Num(d.gstAmount.value) else Null,
          "hsn_code" := d.hsnCode],
      Some(map["invoice_number" := d.confidencePerField.invoiceNumber,
               "invoice_date" := d.confidencePerField.invoiceDate,
               "vendor_name" := d.confidencePerField.vendorName,
               "vendor_gstin" := d.confidencePerField.vendorGstin,
               "total_amount" := d.confidencePerField.totalAmount,
               "gst_amount" := d.confidencePerField.gstAmount,
               "hsn_code" := d.confidencePerField.hsnCode]))
  }

  lemma NormalisationIdempotent(data: RawExtraction)
    ensures ValidateExtractedData(AsRaw(ValidateExtractedData(data))) == ValidateExtractedData(data)
  {
    TextFieldsStable(data);
    AmountsStable(data);
    ConfidencesStable(data);
  }

  /** Reading the rebuilt reply's text fields back. */
  lemma AsRawTextFields(d: ExtractedInvoiceData)
    ensures Field(AsRaw(d), "invoice_number") == d.invoiceNumber
    ensures Field(AsRaw(d), "invoice_date") == d.invoiceDate
    ensures Field(AsRaw(d), "vendor_name") == d.vendorName
    ensures Field(AsRaw(d), "vendor_gstin") == if d.vendorGstin.Some? then Str(d.vendorGstin.value) else Null
    ensures Field(AsRaw(d), "hsn_code") == d.hsnCode
  {
  }

  /** Reading the rebuilt reply's amounts back. */
  lemma AsRawAmountFields(d: ExtractedInvoiceData)
    ensures Field(AsRaw(d), "total_amount") == if d.totalAmount.Some? then Num(d.totalAmount.value) else Null
    ensures Field(AsRaw(d), "cgst_amount") == if d.cgstAmount.Some? then Num(d.cgstAmount.value) else Null
    ensures Field(AsRaw(d), "sgst_amount") == if d.sgstAmount.Some? then Num(d.sgstAmount.value) else Null
    ensures Field(AsRaw(d), "igst_amount") == if d.igstAmount.Some? then Num(d.igstAmount.value) else Null
    ensures Field(AsRaw(d), "gst_amount") == if d.gstAmount.Some? then Num(d.gstAmount.value) else Null
  {
  }

  /** Reading the rebuilt reply's confidences back. */
  lemma AsRawConfidences(d: ExtractedInvoiceData)
    ensures var c := AsRaw(d).confidencePerField.value;
            && c.Keys == {"invoice_number", "invoice_date", "vendor_name", "vendor_gstin", "total_amount",
                          "gst_amount", "hsn_code"}
            && c["invoice_number"] == d.confidencePerField.invoiceNumber
            && c["invoice_date"] == d.confidencePerField.invoiceDate
            && c["vendor_name"] == d.confidencePerField.vendorName
            && c["vendor_gstin"] == d.confidencePerField.vendorGstin
            && c["total_amount"] == d.confidencePerField.totalAmount
            && c["gst_amount"] == d.confidencePerField.gstAmount
            && c["hsn_code"] == d.confidencePerField.hsnCode
  {
  }

  lemma TextFieldsStable(data: RawExtraction)
    ensures var d := ValidateExtractedData(data);
            var e := ValidateExtractedData(AsRaw(d));
            e.invoiceNumber == d.invoiceNumber && e.invoiceDate == d.invoiceDate && e.vendorName == d.vendorName
            && e.hsnCode == d.hsnCode && e.vendorGstin == d.vendorGstin
  {
    AsRawTextFields(ValidateExtractedData(data));
  }

  lemma AmountsStable(data: RawExtraction)
    ensures var d := ValidateExtractedData(data);
            var e := ValidateExtractedData(AsRaw(d));
            e.totalAmount == d.totalAmount && e.cgstAmount == d.cgstAmount && e.sgstAmount == d.sgstAmount
            && e.igstAmount == d.igstAmount && e.gstAmount == d.gstAmount
  {
    AsRawAmountFields(ValidateExtractedData(data));
  }

  lemma ConfidencesStable(data: RawExtraction)
    ensures var d := ValidateExtractedData(data);
            ValidateExtractedData(AsRaw(d)).confidencePerField == d.confidencePerField
  {
    AsRawConfidences(ValidateExtractedData(data));
  }

  /** A lower-case GSTIN is dropped, not upper-cased. */
  lemma LowerCaseGstinDropped()
    ensures ValidateGSTIN(Str("27aapfu0939f1zv")) == false
  {
    assert !IsUpper("27aapfu0939f1zv"[2]) && !IsDigit("27aapfu0939f1zv"[2]);
  }
}

=== FILE: gstin.dfy ===
/** GSTIN format and check-character verification (the first of the validator's
    nine rules). A GSTIN is 15 characters: a two-digit state code, a ten-character
    PAN, an entity digit, the letter Z and a check character computed with the
    Luhn mod-36 scheme over the first fourteen characters. */
module Gstin {
  import opened Common
  import opened Strings

  const Alphabet: string := "0123456789ABCDEFGHIJKLMNOPQRSTUVWXYZ"

  /** `chars.indexOf(c)`: the position of c in the alphabet, or -1. */
  function CharValue(c: char): (v: int)
    ensures -1 <= v < 36
  {
    if IsDigit(c) then c as int - '0' as int
    else if IsUpper(c) then c as int - 'A' as int + 10
    else -1
  }

  predicate IsAlphanumericUpper(c: char) { IsDigit(c) || IsUpper(c) }

  /** `/^[0-9]{2}[A-Z]{5}[0-9]{4}[A-Z]{1}[1-9A-Z]{1}Z[0-9A-Z]{1}$/` */
  predicate MatchesGstinPattern(s: string)
  {
    && |s| == 15
    && IsDigit(s[0]) && IsDigit(s[1])
    && IsUpper(s[2]) && IsUpper(s[3]) && IsUpper(s[4]) && IsUpper(s[5]) && IsUpper(s[6])
    && IsDigit(s[7]) && IsDigit(s[8]) && IsDigit(s[9]) && IsDigit(s[10])
    && IsUpper(s[11])
    && (('1' <= s[12] <= '9') || IsUpper(s[12]))
    && s[13] == 'Z'
    && IsAlphanumericUpper(s[14])
  }

  /** Contribution of the character at position i: its value times (i % 2) + 1,
      with the product's base-36 digits added together. */
  function Digit(c: char, i: nat): int
  {
    var product := CharValue(c) * (i % 2 + 1);
    product / 36 + product % 36
  }

  /** The running sum over the first n characters. */
  function WeightedSum(s: string, n: nat): int
    requires n <= |s|
  {
    if n == 0 then 0 else WeightedSum(s, n - 1) + Digit(s[n - 1], n - 1)
  }

  /** Every one of the first fourteen characters belongs to the alphabet. */
  predicate BodyInAlphabet(s: string)
  {
    |s| >= 14 && PrefixInAlphabet(s, 14)
  }

  predicate PrefixInAlphabet(s: string, n: nat)
  {
    n <= |s| && forall i :: 0 <= i < n ==> CharValue(s[i]) >= 0
  }

  /** The position in the alphabet of the check character for the first
      fourteen characters. */
  function CheckDigit(s: string): (d: int)
    requires |s| >= 14
    ensures 0 <= d < 36
  {
    (36 - WeightedSum(s, 14) % 36) % 36
  }

  /** The check character for the first fourteen characters. */
  function CheckChar(s: string): char
    requires |s| >= 14
  {
    Alphabet[CheckDigit(s)]
  }

  /** What `verifyGSTINChecksum` decides. */
  predicate ChecksumMatches(s: string)
  {
    |s| == 15 && BodyInAlphabet(s) && s[14] == CheckChar(s)
  }

  /** `verifyGSTINChecksum` (validator.ts): a loop that accumulates the weighted
      sum over the first fourteen characters and stops at the first character
      outside the alphabet. */
  method VerifyGSTINChecksum(gstin: string) returns (ok: bool)
    requires |gstin| == 15
    ensures ok <==> ChecksumMatches(gstin)
  {
    var sum := 0;
    var i := 0;
    while i < 14
      invariant 0 <= i <= 14
      invariant sum == WeightedSum(gstin, i)
      invariant PrefixInAlphabet(gstin, i)
    {
      var value := CharValue(gstin[i]);
      if value == -1 {
        assert !PrefixInAlphabet(gstin, 14);
        return false;
      }
      var factor := i % 2 + 1;
      var product := value * factor;
      sum := sum + product / 36 + product % 36;
      i := i + 1;
    }
    var checkDigit := (36 - sum % 36) % 36;
    assert BodyInAlphabet(gstin);
    assert CheckChar(gstin) == Alphabet[checkDigit];
    ok := Alphabet[checkDigit] == gstin[14];
  }

  /** The result of `validateGSTINFormat`. */
  datatype FormatCheck = FormatCheck(valid: bool, confidence: real, stateCode: Option<string>, message: string)

  /** A null or blank GSTIN. */
  predicate Blank(gstin: Option<string>)
  {
    gstin.None? || Trim(gstin.value) == ""
  }

  /** The trimmed, upper-cased GSTIN the checks look at. */
  function Clean(gstin: string): string
  {
    ToUpper(Trim(gstin))
  }

  /** `validateGSTINFormat` (validator.ts) */
  function ValidateGSTINFormat(gstin: Option<string>): (r: FormatCheck)
    ensures r.valid <==> !Blank(gstin) && MatchesGstinPattern(Clean(gstin.value))
    ensures r.stateCode.None? <==> Blank(gstin) || |Clean(gstin.value)| != 15
    ensures r.stateCode.Some? ==> r.stateCode.value == Clean(gstin.value)[..2]
    ensures r.stateCode.None? ==> !r.valid && r.confidence == 0.0
    ensures r.stateCode.Some? && !r.valid ==> r.confidence == 0.3
    ensures r.valid ==> (r.confidence == 1.0 <==> ChecksumMatches(Clean(gstin.value)))
    ensures r.valid ==> (r.confidence == 0.85 <==> !ChecksumMatches(Clean(gstin.value)))
    ensures 0.0 <= r.confidence <= 1.0
  {
    if Blank(gstin) then
      FormatCheck(false, 0.0, None, "GSTIN is required")
    else
      var clean := Clean(gstin.value);
      if |clean| != 15 then
        FormatCheck(false, 0.0, None, "GSTIN must be 15 characters (found " + NatToString(|clean|) + ")")
      else if !MatchesGstinPattern(clean) then
        FormatCheck(false, 0.3, Some(clean[..2]), "GSTIN format is invalid (expected: XX-AAAAA99999-X-Z-X)")
      else if !ChecksumMatches(clean) then
        FormatCheck(true, 0.85, Some(clean[..2]), "GSTIN format valid but checksum verification failed")
      else
        FormatCheck(true, 1.0, Some(clean[..2]), "GSTIN is valid")
  }

  /** A string that matches the pattern never reaches the loop's early exit. */
  lemma PatternImpliesAlphabet(s: string)
    requires MatchesGstinPattern(s)
    ensures BodyInAlphabet(s)
  {
  }

  /** The sum only reads the first n characters. */
  lemma {:induction false} WeightedSumPrefix(s: string, t: string, n: nat)
    requires n <= |s| && n <= |t| && s[..n] == t[..n]
    ensures WeightedSum(s, n) == WeightedSum(t, n)
  {
    if n > 0 {
      assert s[n - 1] == s[..n][n - 1] == t[..n][n - 1] == t[n - 1];
      assert s[..n - 1] == s[..n][..n - 1];
      assert t[..n - 1] == t[..n][..n - 1];
      WeightedSumPrefix(s, t, n - 1);
    }
  }

  /** Appending the computed check character to any fourteen-character body in
      the alphabet gives a string whose checksum verifies, and any other last
      character makes it fail. */
  lemma CheckCharIsTheOnlyOne(body: string, c: char)
    requires |body| == 14 && BodyInAlphabet(body)
    ensures ChecksumMatches(body + [c]) <==> c == CheckChar(body)
  {
    var s := body + [c];
    assert s[..14] == body[..14];
    WeightedSumPrefix(s, body, 14);
    assert forall i :: 0 <= i < 14 ==> s[i] == body[i];
  }

  /** A GSTIN that matches the pattern and ends in its computed check character
      gets full confidence. */
  lemma ComputedCheckCharGetsFullConfidence(body: string)
    requires |body| == 14 && MatchesGstinPattern(body + [CheckChar(body)])
    ensures ValidateGSTINFormat(Some(body + [CheckChar(body)])) == FormatCheck(true, 1.0, Some(body[..2]), "GSTIN is valid")
  {
    var good := body + [CheckChar(body)];
    assert BodyInAlphabet(body) by {
      PatternImpliesAlphabet(good);
      assert forall i :: 0 <= i < 14 ==> good[i] == body[i];
    }
    CheckCharIsTheOnlyOne(body, CheckChar(body));
    ValidPatternAccepted(good);
    assert good[..2] == body[..2];
  }

  /** Replacing the check character alone by any other letter or digit keeps the
      format valid but drops the confidence to 0.85. */
  lemma FlippedCheckCharacter(body: string, c: char)
    requires |body| == 14 && MatchesGstinPattern(body + [CheckChar(body)])
    requires IsAlphanumericUpper(c) && c != CheckChar(body)
    ensures var r := ValidateGSTINFormat(Some(body + [c])); r.valid && r.confidence == 0.85
  {
    var good := body + [CheckChar(body)];
    var bad := body + [c];
    assert BodyInAlphabet(body) by {
      PatternImpliesAlphabet(good);
      assert forall i :: 0 <= i < 14 ==> good[i] == body[i];
    }
    CheckCharIsTheOnlyOne(body, c);
    assert MatchesGstinPattern(bad) by {
      assert forall i :: 0 <= i < 14 ==> bad[i] == good[i];
    }
    ValidPatternAccepted(bad);
  }

  /** A pattern-valid string passes the blank, length and pattern tests
      unchanged and is accepted, with its first two characters as state code. */
  lemma ValidPatternAccepted(s: string)
    requires MatchesGstinPattern(s)
    ensures !Blank(Some(s)) && Clean(s) == s
    ensures var r := ValidateGSTINFormat(Some(s)); r.valid && r.stateCode == Some(s[..2])
  {
    CleanOfPattern(s);
  }

  /** A pattern-valid string is already trimmed and upper case. */
  lemma CleanOfPattern(s: string)
    requires MatchesGstinPattern(s)
    ensures Trim(s) == s && Clean(s) == s
  {
    TrimNoop(s);
    forall i | 0 <= i < |s| ensures UpperChar(s[i]) == s[i] {
      assert IsAlphanumericUpper(s[i]);
    }
    assert ToUpper(s) == s;
  }
}

=== FILE: hsn_table.dfy ===
/** The `hsn_tax_mapping` table that the categorizer and the validator query,
    given as its rows in the order the database returns them. */
module HsnTable {
  import opened Common
  import opened Strings

  datatype HsnRow = HsnRow(
    hsnCode: string,
    category: string,
    description: string,
    gstRate: real,
    isExempt: bool,
    exemptionReason: Option<string>)

  /** Rows whose code equals `code`: `.eq('hsn_code', code)`. */
  function RowsWithCode(table: seq<HsnRow>, code: string): (rows: seq<HsnRow>)
    ensures forall row :: row in rows <==> row in table && row.hsnCode == code
  {
    Filter(table, (row: HsnRow) => row.hsnCode == code)
  }

  /** `.eq('hsn_code', code).single()`: the row when exactly one row has that
      code; no row or several rows make `single()` report an error, which the
      callers treat as "not found". */
  function SingleRow(table: seq<HsnRow>, code: string): (r: Option<HsnRow>)
    ensures r.Some? ==> r.value in table && r.value.hsnCode == code
    ensures r.None? ==> |RowsWithCode(table, code)| != 1
  {
    var rows := RowsWithCode(table, code);
    if |rows| == 1 then Some(rows[0]) else None
  }

  /** A code that appears in exactly one row is found. */
  lemma {:induction false} UniqueCodeIsFound(table: seq<HsnRow>, k: nat)
    requires k < |table|
    requires forall j :: 0 <= j < |table| && j != k ==> table[j].hsnCode != table[k].hsnCode
    ensures SingleRow(table, table[k].hsnCode) == Some(table[k])
  {
    var code := table[k].hsnCode;
    OnlyMatchFiltered(table, k, code);
  }

  lemma {:induction false} OnlyMatchFiltered(table: seq<HsnRow>, k: nat, code: string)
    requires k < |table| && table[k].hsnCode == code
    requires forall j :: 0 <= j < |table| && j != k ==> table[j].hsnCode != code
    ensures RowsWithCode(table, code) == [table[k]]
  {
    var p := (row: HsnRow) => row.hsnCode == code;
    if k == 0 {
      NoMatchFiltered(table[1..], code);
    } else {
      OnlyMatchFiltered(table[1..], k - 1, code);
    }
  }

  lemma {:induction false} NoMatchFiltered(table: seq<HsnRow>, code: string)
    requires forall j :: 0 <= j < |table| ==> table[j].hsnCode != code
    ensures RowsWithCode(table, code) == []
  {
    if table != [] {
      NoMatchFiltered(table[1..], code);
    }
  }
}

=== FILE: orchestrator.dfy ===
/** `processInvoicePipeline` and its helpers (orchestrator.ts): the four-stage
    pipeline extract, categorize, validate, decide. What each stage returned
    or threw is an input; the database writes, the activity log, timestamps
    and durations are not part of this model. */
module Orchestrator {
  import opened Common
  import opened Extractor
  import opened Confidence

  /** `PipelineConfig`; None is an option the caller left undefined. */
  datatype PipelineConfig = PipelineConfig(
    skipExtraction: Option<bool>,
    skipCategorization: Option<bool>,
    skipValidation: Option<bool>,
    autoApproveThreshold: Option<real>,
    reviewThreshold: Option<real>,
    retryOnError: Option<bool>,
    maxRetries: Option<int>)

  const DefaultConfig := PipelineConfig(None, None, None, None, None, None, None)

  function OrFalse(b: Option<bool>): bool { b.Some? && b.value }

  function OrReal(x: Option<real>, default: real): real { if x.Some? then x.value else default }

  /** The thresholds after defaulting: 0.95 and 0.80. `retry_on_error` and
      `max_retries` are read with defaults true and 2 and then never used, so
      nothing below depends on them. */
  function AutoThreshold(config: PipelineConfig): real { OrReal(config.autoApproveThreshold, 0.95) }

  function ReviewThreshold(config: PipelineConfig): real { OrReal(config.reviewThreshold, 0.80) }

  /** `StageResult` without its data, duration and timestamp. */
  datatype StageResult = StageResult(stageName: string, success: bool, confidence: real, status: string,
                                     error: Option<string>)

  datatype Stages = Stages(extraction: StageResult, categorization: StageResult, validation: StageResult,
                           approval: StageResult)

  function Pending(name: string): StageResult { StageResult(name, false, 0.0, "pending", None) }

  const InitialStages := Stages(Pending("extraction"), Pending("categorization"), Pending("validation"),
                                Pending("approval"))

  datatype PipelineError = PipelineError(stage: string, errorType: string, message: string, recoverable: bool)

  datatype PipelineStatus = Completed | Partial | Failed

  datatype Decision = AutoApproved | NeedsReview | Rejected | Undecided

  /** `PipelineResult`; `stages` is None for the `{}` of a batch entry whose
      run threw. */
  datatype PipelineResult = PipelineResult(
    invoiceId: string,
    success: bool,
    pipelineStatus: PipelineStatus,
    stages: Option<Stages>,
    aggregateConfidence: real,
    finalDecision: Decision,
    finalStatus: string,
    errors: seq<PipelineError>)

  /** The invoice lookup: not found, or found with the user id of its
      client's owner. */
  datatype InvoiceAccess = NotFound | Found(ownerId: string)

  /** What the extraction or categorization call did: returned a result with
      this confidence, or threw with this message. */
  datatype StageOutcome = Returned(confidence: real) | Threw(message: string)

  /** What `validateGSTInvoice` did. */
  datatype ValidationOutcome = Validated(isValid: bool, confidence: real, status: string) | ValidationThrew(message: string)

  /** What `autoApproveInvoice` did. */
  datatype ApprovalOutcome = Approved | ApprovalThrew(message: string)

  /** `error.message || fallback` */
  function MessageOr(message: string, fallback: string): string
  {
    if message != "" then message else fallback
  }

  // ---------------------------------------------------------------------
  // Pure helpers
  // ---------------------------------------------------------------------

  /** `calculateAggregateConfidence`: weights 0.40, 0.20 and 0.40; a failed
      extraction zeroes it, a failed validation caps it at 0.79, a failed
      categorization then takes off 10%; rounded to two decimals. */
  function AggregateConfidence(stages: Stages): (a: real)
    ensures !stages.extraction.success ==> a == 0.0
    ensures stages.extraction.success && stages.categorization.success && stages.validation.success ==>
              a == Round2(0.40 * stages.extraction.confidence + 0.20 * stages.categorization.confidence
                          + 0.40 * stages.validation.confidence)
    ensures stages.extraction.success && !stages.categorization.success && stages.validation.success ==>
              a == Round2(0.90 * (0.40 * stages.extraction.confidence + 0.20 * stages.categorization.confidence
                                  + 0.40 * stages.validation.confidence))
    ensures stages.extraction.success && !stages.validation.success ==>
              a == Round2((if stages.categorization.success then 1.0 else 0.90)
                          * Min(0.40 * stages.extraction.confidence + 0.20 * stages.categorization.confidence
                                + 0.40 * stages.validation.confidence, 0.79))
    ensures !stages.validation.success ==> a <= 0.79
    ensures !stages.validation.success && !stages.categorization.success ==> a <= 0.72
  {
    var weighted := stages.extraction.confidence * 0.40 + stages.categorization.confidence * 0.20
                    + stages.validation.confidence * 0.40;
    var afterExtraction := if !stages.extraction.success then 0.0 else weighted;
    var afterValidation := if !stages.validation.success then Min(afterExtraction, 0.79) else afterExtraction;
    var afterCategorization := if !stages.categorization.success then afterValidation * 0.90 else afterValidation;
    Round2OfHundredths(0);
    if !stages.validation.success then
      Round2AtMost(afterCategorization, 79);
      if !stages.categorization.success then
        Round2AtMost(afterCategorization, 72);
        Round2(afterCategorization)
      else Round2(afterCategorization)
    else Round2(afterCategorization)
  }

  /** `buildFailureResult` */
  function BuildFailureResult(invoiceId: string, stages: Stages, errors: seq<PipelineError>): (r: PipelineResult)
    ensures !r.success && r.pipelineStatus == Failed && r.aggregateConfidence == 0.0
    ensures r.finalDecision == Rejected && r.finalStatus == "pending"
    ensures r.invoiceId == invoiceId && r.stages == Some(stages) && r.errors == errors
  {
    PipelineResult(invoiceId, false, Failed, Some(stages), 0.0, Rejected, "pending", errors)
  }

  function AccessError(access: InvoiceAccess): PipelineError
  {
    PipelineError("orchestrator", "pipeline_error",
                  if access.NotFound? then "Invoice not found" else "Unauthorized access to invoice", false)
  }

  predicate Authorized(access: InvoiceAccess, userId: string)
  {
    access.Found? && access.ownerId == userId
  }

  function Skipped(name: string): StageResult { StageResult(name, true, 1.0, "skipped", None) }

  function FailedStage(name: string, message: string): StageResult { StageResult(name, false, 0.0, "failed", Some(message)) }

  /** The extraction stage. `status` is the result's own `status` or
      'completed'; the extraction result has no such field. */
  function ExtractionStage(skip: bool, outcome: StageOutcome): StageResult
  {
    if skip then Skipped("extraction")
    else match outcome
      case Returned(c) => StageResult("extraction", true, c, "completed", None)
      case Threw(m) => FailedStage("extraction", MessageOr(m, "Extraction failed"))
  }

  function CategorizationStage(skip: bool, outcome: StageOutcome): StageResult
  {
    if skip then Skipped("categorization")
    else match outcome
      case Returned(c) => StageResult("categorization", true, c, "completed", None)
      case Threw(m) => FailedStage("categorization", MessageOr(m, "Categorization failed"))
  }

  function ValidationStage(skip: bool, outcome: ValidationOutcome): StageResult
  {
    if skip then Skipped("validation")
    else match outcome
      case Validated(ok, c, status) => StageResult("validation", ok, c, status, None)
      case ValidationThrew(m) => FailedStage("validation", MessageOr(m, "Validation failed"))
  }

  /** The recoverable error a thrown categorization or validation adds. */
  function CategorizationErrors(skip: bool, outcome: StageOutcome): seq<PipelineError>
  {
    if !skip && outcome.Threw? then
      [PipelineError("categorization", "categorization_error", MessageOr(outcome.message, "Categorization failed"), true)]
    else []
  }

  function ValidationErrors(skip: bool, outcome: ValidationOutcome): seq<PipelineError>
  {
    if !skip && outcome.ValidationThrew? then
      [PipelineError("validation", "validation_error", MessageOr(outcome.message, "Validation failed"), true)]
    else []
  }

  /** Stage 4: the decision, the final invoice status, the approval stage and
      the error a failed auto-approval adds. */
  datatype Verdict = Verdict(decision: Decision, finalStatus: string, approval: StageResult, errors: seq<PipelineError>)

  function Decide(aggregate: real, validationSucceeded: bool, config: PipelineConfig, approval: ApprovalOutcome): (v: Verdict)
    ensures v.decision == AutoApproved ==> aggregate >= AutoThreshold(config) && validationSucceeded
    ensures v.decision == Rejected <==> !(aggregate >= AutoThreshold(config) && validationSucceeded)
                                        && aggregate < ReviewThreshold(config)
    ensures v.decision == Rejected ==> v.finalStatus == "pending"
    ensures v.decision != Undecided
    ensures aggregate >= AutoThreshold(config) && validationSucceeded ==>
              (v.decision == AutoApproved <==> approval.Approved?)
    ensures v.decision == AutoApproved ==> v.finalStatus == "approved"
    ensures v.decision == NeedsReview ==> v.finalStatus == "review"
    ensures v.errors != [] <==> aggregate >= AutoThreshold(config) && validationSucceeded && approval.ApprovalThrew?
    ensures |v.errors| <= 1
    ensures forall e :: e in v.errors ==> e.stage == "approval" && e.errorType == "approval_error" && e.recoverable
  {
    if aggregate >= AutoThreshold(config) && validationSucceeded then
      match approval
      case Approved =>
        Verdict(AutoApproved, "approved", StageResult("approval", true, aggregate, "auto_approved", None), [])
      case ApprovalThrew(m) =>
        Verdict(NeedsReview, "review", StageResult("approval", false, aggregate, "failed_approval", Some(m)),
                [PipelineError("approval", "approval_error", m, true)])
    else if aggregate >= ReviewThreshold(config) then
      Verdict(NeedsReview, "review", StageResult("approval", true, aggregate, "review_required", None), [])
    else
      Verdict(Rejected, "pending", StageResult("approval", false, aggregate, "low_confidence", None), [])
  }

  /** What `processInvoicePipeline` returns. */
  function ProcessInvoice(invoiceId: string, userId: string, config: PipelineConfig, access: InvoiceAccess,
                          extraction: StageOutcome, categorization: StageOutcome, validation: ValidationOutcome,
                          approval: ApprovalOutcome): (r: PipelineResult)
    ensures r.invoiceId == invoiceId && r.stages.Some?
    ensures r.success <==> r.pipelineStatus != Failed
    ensures r.finalDecision != Undecided
  {
    if !Authorized(access, userId) then BuildFailureResult(invoiceId, InitialStages, [AccessError(access)])
    else
      var s1 := InitialStages.(extraction := ExtractionStage(OrFalse(config.skipExtraction), extraction));
      if !OrFalse(config.skipExtraction) && extraction.Threw? then
        BuildFailureResult(invoiceId, s1,
                           [PipelineError("extraction", "extraction_error", MessageOr(extraction.message, "Extraction failed"), false)])
      else
        var s2 := s1.(categorization := CategorizationStage(OrFalse(config.skipCategorization), categorization));
        var s3 := s2.(validation := ValidationStage(OrFalse(config.skipValidation), validation));
        var stageErrors := CategorizationErrors(OrFalse(config.skipCategorization), categorization)
                           + ValidationErrors(OrFalse(config.skipValidation), validation);
        var aggregate := AggregateConfidence(s3);
        var v := Decide(aggregate, s3.validation.success, config, approval);
        var errors := stageErrors + v.errors;
        PipelineResult(invoiceId, true, if errors == [] then Completed else Partial, Some(s3.(approval := v.approval)),
                       aggregate, v.decision, v.finalStatus, errors)
  }

  // ---------------------------------------------------------------------
  // The pipeline, step by step
  // ---------------------------------------------------------------------

  /** `processInvoicePipeline`: overwrites the stage records one by one and
      appends to the error list as it goes. */
  method ProcessInvoicePipeline(invoiceId: string, userId: string, config: PipelineConfig, access: InvoiceAccess,
                                extraction: StageOutcome, categorization: StageOutcome, validation: ValidationOutcome,
                                approval: ApprovalOutcome) returns (r: PipelineResult)
    ensures r == ProcessInvoice(invoiceId, userId, config, access, extraction, categorization, validation, approval)
  {
    var skipExtraction := OrFalse(config.skipExtraction);
    var skipCategorization := OrFalse(config.skipCategorization);
    var skipValidation := OrFalse(config.skipValidation);
    var errors: seq<PipelineError> := [];
    var stages := InitialStages;

    if access.NotFound? || access.ownerId != userId {
      var message := if access.NotFound? then "Invoice not found" else "Unauthorized access to invoice";
      errors := errors + [PipelineError("orchestrator", "pipeline_error", message, false)];
      return BuildFailureResult(invoiceId, stages, errors);
    }

    assert Authorized(access, userId);

    // Stage 1: extraction; a failure ends the run.
    if !skipExtraction {
      match extraction
      case Returned(c) =>
        stages := stages.(extraction := StageResult("extraction", true, c, "completed", None));
      case Threw(m) =>
        var message := MessageOr(m, "Extraction failed");
        stages := stages.(extraction := StageResult("extraction", false, 0.0, "failed", Some(message)));
        errors := errors + [PipelineError("extraction", "extraction_error", message, false)];
        return BuildFailureResult(invoiceId, stages, errors);
    } else {
      stages := stages.(extraction := stages.extraction.(status := "skipped", success := true, confidence := 1.0));
    }

    ghost var s1 := InitialStages.(extraction := ExtractionStage(skipExtraction, extraction));
    assert stages == s1 && errors == [];

    // Stage 2: categorization; a failure is recorded and the run goes on.
    stages, errors := RunCategorization(stages, skipCategorization, categorization);
    // Stage 3: validation; a failure is recorded and the run goes on.
    stages, errors := RunValidation(stages, errors, skipValidation, validation);
    ghost var s3 := stages;
    // Stage 4: decision.
    var aggregate, decision, finalStatus;
    stages, errors, aggregate, decision, finalStatus := RunDecision(stages, errors, config, approval);
    ghost var v := Decide(aggregate, s3.validation.success, config, approval);
    assert stages == s3.(approval := v.approval);
    r := PipelineResult(invoiceId, true, if |errors| == 0 then Completed else Partial, Some(stages),
                        aggregate, decision, finalStatus, errors);
  }

  /** Stage 2 of `processInvoicePipeline`, the first that may record an error. */
  method RunCategorization(stages: Stages, skip: bool, outcome: StageOutcome) returns (stages': Stages, errors: seq<PipelineError>)
    ensures stages' == stages.(categorization := CategorizationStage(skip, outcome))
    ensures errors == CategorizationErrors(skip, outcome)
  {
    stages', errors := stages, [];
    if !skip {
      match outcome
      case Returned(c) =>
        stages' := stages'.(categorization := StageResult("categorization", true, c, "completed", None));
      case Threw(m) =>
        var message := MessageOr(m, "Categorization failed");
        stages' := stages'.(categorization := StageResult("categorization", false, 0.0, "failed", Some(message)));
        errors := [PipelineError("categorization", "categorization_error", message, true)];
    } else {
      stages' := stages'.(categorization := Skipped("categorization"));
    }
  }

  /** Stage 3 of `processInvoicePipeline`. */
  method RunValidation(stages: Stages, errors: seq<PipelineError>, skip: bool, outcome: ValidationOutcome)
    returns (stages': Stages, errors': seq<PipelineError>)
    ensures stages' == stages.(validation := ValidationStage(skip, outcome))
    ensures errors' == errors + ValidationErrors(skip, outcome)
  {
    stages', errors' := stages, errors;
    if !skip {
      match outcome
      case Validated(ok, c, status) =>
        stages' := stages'.(validation := StageResult("validation", ok, c, status, None));
      case ValidationThrew(m) =>
        var message := MessageOr(m, "Validation failed");
        stages' := stages'.(validation := StageResult("validation", false, 0.0, "failed", Some(message)));
        errors' := errors' + [PipelineError("validation", "validation_error", message, true)];
    } else {
      stages' := stages'.(validation := Skipped("validation"));
    }
  }

  /** Stage 4 of `processInvoicePipeline`. */
  method RunDecision(stages: Stages, errors: seq<PipelineError>, config: PipelineConfig, approval: ApprovalOutcome)
    returns (stages': Stages, errors': seq<PipelineError>, aggregate: real, decision: Decision, finalStatus: string)
    ensures aggregate == AggregateConfidence(stages)
    ensures var v := Decide(aggregate, stages.validation.success, config, approval);
            decision == v.decision && finalStatus == v.finalStatus && stages' == stages.(approval := v.approval)
            && errors' == errors + v.errors
  {
    var autoThreshold := OrReal(config.autoApproveThreshold, 0.95);
    var reviewThreshold := OrReal(config.reviewThreshold, 0.80);
    stages', errors' := stages, errors;
    aggregate := AggregateConfidence(stages);
    if aggregate >= autoThreshold && stages.validation.success {
      match approval
      case Approved =>
        decision, finalStatus := AutoApproved, "approved";
        stages' := stages'.(approval := StageResult("approval", true, aggregate, "auto_approved", None));
      case ApprovalThrew(m) =>
        decision, finalStatus := NeedsReview, "review";
        stages' := stages'.(approval := StageResult("approval", false, aggregate, "failed_approval", Some(m)));
        errors' := errors' + [PipelineError("approval", "approval_error", m, true)];
    } else if aggregate >= reviewThreshold {
      decision, finalStatus := NeedsReview, "review";
      stages' := stages'.(approval := StageResult("approval", true, aggregate, "review_required", None));
    } else {
      decision, finalStatus := Rejected, "pending";
      stages' := stages'.(approval := StageResult("approval", false, aggregate, "low_confidence", None));
    }
    if errors' == errors { assert errors' == errors + []; }
  }

  // ---------------------------------------------------------------------
  // Properties of the pipeline
  // ---------------------------------------------------------------------

  /** A thrown extraction ends the run: the later stages stay pending and
      one non-recoverable error is recorded. */
  lemma ExtractionFailureShortCircuits(invoiceId: string, userId: string, config: PipelineConfig, access: InvoiceAccess,
                                       message: string, categorization: StageOutcome, validation: ValidationOutcome,
                                       approval: ApprovalOutcome)
    requires Authorized(access, userId) && !OrFalse(config.skipExtraction)
    ensures var r := ProcessInvoice(invoiceId, userId, config, access, Threw(message), categorization, validation, approval);
            && !r.success && r.pipelineStatus == Failed && r.aggregateConfidence == 0.0
            && r.finalDecision == Rejected && r.finalStatus == "pending"
            && |r.errors| == 1 && r.errors[0].stage == "extraction" && !r.errors[0].recoverable
            && r.stages.value.categorization == Pending("categorization")
            && r.stages.value.validation == Pending("validation")
            && r.stages.value.approval == Pending("approval")
            && !r.stages.value.extraction.success && r.stages.value.extraction.status == "failed"
  {
  }

  /** An unknown invoice or another user's invoice fails before any stage. */
  lemma AccessFailureShortCircuits(invoiceId: string, userId: string, config: PipelineConfig, access: InvoiceAccess,
                                   extraction: StageOutcome, categorization: StageOutcome, validation: ValidationOutcome,
                                   approval: ApprovalOutcome)
    requires !Authorized(access, userId)
    ensures var r := ProcessInvoice(invoiceId, userId, config, access, extraction, categorization, validation, approval);
            && !r.success && r.finalDecision == Rejected && r.stages == Some(InitialStages)
            && |r.errors| == 1 && r.errors[0].stage == "orchestrator" && !r.errors[0].recoverable
  {
  }

  /** A run that gets past extraction succeeds; its status is 'completed'
      exactly when no error was recorded, and every recorded error is
      recoverable. */
  lemma RecoverableFailuresContinue(invoiceId: string, userId: string, config: PipelineConfig, access: InvoiceAccess,
                                    extraction: StageOutcome, categorization: StageOutcome, validation: ValidationOutcome,
                                    approval: ApprovalOutcome)
    requires Authorized(access, userId) && (OrFalse(config.skipExtraction) || extraction.Returned?)
    ensures var r := ProcessInvoice(invoiceId, userId, config, access, extraction, categorization, validation, approval);
            && r.success
            && (r.pipelineStatus == Completed <==> r.errors == [])
            && (r.pipelineStatus == Partial <==> r.errors != [])
            && (forall e :: e in r.errors ==> e.recoverable)
            && (!OrFalse(config.skipCategorization) && categorization.Threw? ==>
                  r.errors[0].stage == "categorization" && !r.stages.value.categorization.success)
  {
  }

  /** In a run that gets past extraction, a skipped stage counts as a
      success with confidence 1. */
  lemma SkippedStagesSucceed(invoiceId: string, userId: string, config: PipelineConfig, access: InvoiceAccess,
                             extraction: StageOutcome, categorization: StageOutcome, validation: ValidationOutcome,
                             approval: ApprovalOutcome)
    requires Authorized(access, userId)
    ensures var r := ProcessInvoice(invoiceId, userId, config, access, extraction, categorization, validation, approval);
            && (OrFalse(config.skipExtraction) ==> r.stages.value.extraction == Skipped("extraction"))
            && ((OrFalse(config.skipExtraction) || extraction.Returned?) && OrFalse(config.skipCategorization) ==>
                  r.stages.value.categorization == Skipped("categorization"))
            && ((OrFalse(config.skipExtraction) || extraction.Returned?) && OrFalse(config.skipValidation) ==>
                  r.stages.value.validation == Skipped("validation"))
  {
  }

  /** Auto-approval needs the aggregate at the threshold and a successful
      validation stage; a rejection keeps the invoice 'pending'. */
  lemma DecisionThresholds(invoiceId: string, userId: string, config: PipelineConfig, access: InvoiceAccess,
                           extraction: StageOutcome, categorization: StageOutcome, validation: ValidationOutcome,
                           approval: ApprovalOutcome)
    ensures var r := ProcessInvoice(invoiceId, userId, config, access, extraction, categorization, validation, approval);
            && (r.finalDecision == AutoApproved ==>
                  r.aggregateConfidence >= AutoThreshold(config) && r.stages.value.validation.success
                  && r.finalStatus == "approved" && approval.Approved?)
            && (r.finalDecision == Rejected ==> r.finalStatus == "pending")
            && (r.success && r.aggregateConfidence < ReviewThreshold(config) && r.aggregateConfidence < AutoThreshold(config)
                ==> r.finalDecision == Rejected)
  {
  }

  /** With the default thresholds, an unsuccessful validation stage always
      ends 'rejected': the 0.79 cap is under the review threshold. */
  lemma FailedValidationRejectedByDefault(invoiceId: string, userId: string, config: PipelineConfig, access: InvoiceAccess,
                                          extraction: StageOutcome, categorization: StageOutcome,
                                          validation: ValidationOutcome, approval: ApprovalOutcome)
    requires config.autoApproveThreshold.None? && config.reviewThreshold.None?
    requires !OrFalse(config.skipValidation) && (validation.ValidationThrew? || !validation.isValid)
    ensures ProcessInvoice(invoiceId, userId, config, access, extraction, categorization, validation, approval).finalDecision
            == Rejected
  {
  }

  // ---------------------------------------------------------------------
  // The extraction stage's confidence
  // ---------------------------------------------------------------------

  /** As written the stage reads `overall_confidence` from the extraction
      result, a field `ExtractedInvoiceData` does not have, so the stage
      confidence is `undefined || 0`. */
  function ExtractionConfidenceAsWritten(extracted: ExtractedInvoiceData): real
  {
    0.0
  }

  /** As written, with the default thresholds, no run whose extraction ran
      can be approved or even sent to review: the aggregate is at most
      0.2 + 0.4 = 0.6. */
  lemma AsWrittenExtractionAlwaysRejected(invoiceId: string, userId: string, config: PipelineConfig,
                                          access: InvoiceAccess, extracted: ExtractedInvoiceData,
                                          categorization: StageOutcome, validation: ValidationOutcome,
                                          approval: ApprovalOutcome)
    requires config.autoApproveThreshold.None? && config.reviewThreshold.None? && !OrFalse(config.skipExtraction)
    requires categorization.Returned? ==> categorization.confidence <= 1.0
    requires validation.Validated? ==> validation.confidence <= 1.0
    ensures ProcessInvoice(invoiceId, userId, config, access, Returned(ExtractionConfidenceAsWritten(extracted)),
                           categorization, validation, approval).finalDecision == Rejected
  {
    var e := Returned(ExtractionConfidenceAsWritten(extracted));
    if Authorized(access, userId) {
      var s1 := InitialStages.(extraction := ExtractionStage(false, e));
      var s2 := s1.(categorization := CategorizationStage(OrFalse(config.skipCategorization), categorization));
      var s3 := s2.(validation := ValidationStage(OrFalse(config.skipValidation), validation));
      var w := s3.extraction.confidence * 0.40 + s3.categorization.confidence * 0.20 + s3.validation.confidence * 0.40;
      assert w <= 0.60;
      var a := AggregateConfidence(s3);
      if s3.categorization.success && s3.validation.success {
        Round2AtMost(w, 60);
      } else if s3.validation.success {
        Round2AtMost(w * 0.90, 60);
      }
      assert a < 0.80;
    }
  }

  /** The evident intent: the stage confidence is the extraction's overall
      score. */
  function ExtractionConfidence(extracted: ExtractedInvoiceData): (c: real)
    ensures ConfidencesInUnitRange(extracted.confidencePerField) ==> 0.0 <= c <= 1.0
  {
    var score := CalculateConfidenceScore(extracted).overallScore;
    if ConfidencesInUnitRange(extracted.confidencePerField) then
      ScoreInUnitRange(extracted);
      score
    else score
  }

  /** With it, a fully confident extraction, a 0.95 categorization and a
      passing validation at 1.0 are auto-approved under the defaults. */
  lemma CorrectedExtractionCanAutoApprove(invoiceId: string, userId: string, extracted: ExtractedInvoiceData)
    requires extracted.confidencePerField == FieldConfidences(1.0, 1.0, 1.0, 1.0, 1.0, 1.0, 1.0)
    ensures var r := ProcessInvoice(invoiceId, userId, DefaultConfig, Found(userId), Returned(ExtractionConfidence(extracted)),
                                    Returned(0.95), Validated(true, 1.0, "pass"), Approved);
            r.finalDecision == AutoApproved && r.pipelineStatus == Completed && r.aggregateConfidence == 0.99
  {
    Round2OfHundredths(100);
    assert ExtractionConfidence(extracted) == 1.0;
    Round2OfHundredths(99);
  }

  // ---------------------------------------------------------------------
  // Batches and labels
  // ---------------------------------------------------------------------

  /** One invoice of a batch: the inputs of its run, or the message of an
      exception that escaped `processInvoicePipeline`. */
  datatype InvoiceRun = Run(access: InvoiceAccess, extraction: StageOutcome, categorization: StageOutcome,
                            validation: ValidationOutcome, approval: ApprovalOutcome)
                      | Crashed(message: string)

  /** The entry a batch records for one invoice. */
  function BatchEntry(invoiceId: string, userId: string, config: PipelineConfig, run: InvoiceRun): (r: PipelineResult)
    ensures r.invoiceId == invoiceId
    ensures run.Crashed? ==> !r.success && r.pipelineStatus == Failed && r.finalDecision == Rejected && r.stages.None?
    ensures r.finalDecision != Undecided
  {
    match run
    case Run(access, e, c, v, a) => ProcessInvoice(invoiceId, userId, config, access, e, c, v, a)
    case Crashed(m) =>
      PipelineResult(invoiceId, false, Failed, None, 0.0, Rejected, "pending",
                     [PipelineError("orchestrator", "pipeline_error", m, false)])
  }

  /** What `batchProcessInvoices` returns; `runs[i]` is what happens to
      `ids[i]`. */
  function BatchResults(ids: seq<string>, userId: string, config: PipelineConfig, runs: seq<InvoiceRun>)
    : (rs: seq<PipelineResult>)
    requires |runs| == |ids|
    ensures |rs| == |ids|
    ensures forall i :: 0 <= i < |ids| ==> rs[i].invoiceId == ids[i]
    ensures forall i :: 0 <= i < |ids| ==> rs[i].finalDecision != Undecided
  {
    seq(|ids|, i requires 0 <= i < |ids| => BatchEntry(ids[i], userId, config, runs[i]))
  }

  /** Invoices in a batch are isolated: what happens to one invoice changes
      its own entry and no other. */
  lemma BatchEntriesIsolated(ids: seq<string>, userId: string, config: PipelineConfig, runs: seq<InvoiceRun>,
                             j: nat, run: InvoiceRun)
    requires |runs| == |ids| && j < |ids|
    ensures var before := BatchResults(ids, userId, config, runs);
            var after := BatchResults(ids, userId, config, runs[j := run]);
            && (forall i :: 0 <= i < |ids| && i != j ==> after[i] == before[i])
            && after[j] == BatchEntry(ids[j], userId, config, run)
  {
  }

  /** `batchProcessInvoices`: one entry per id, in order; a crashed run gives
      a failed entry and the loop goes on. */
  method BatchProcessInvoices(ids: seq<string>, userId: string, config: PipelineConfig, runs: seq<InvoiceRun>)
    returns (results: seq<PipelineResult>)
    requires |runs| == |ids|
    ensures results == BatchResults(ids, userId, config, runs)
    ensures forall i :: 0 <= i < |ids| ==> results[i].invoiceId == ids[i]
  {
    results := [];
    var i := 0;
    while i < |ids|
      invariant 0 <= i <= |ids|
      invariant |results| == i
      invariant forall k :: 0 <= k < i ==> results[k] == BatchEntry(ids[k], userId, config, runs[k])
    {
      var result;
      match runs[i] {
        case Run(access, e, c, v, a) =>
          result := ProcessInvoicePipeline(ids[i], userId, config, access, e, c, v, a);
        case Crashed(m) =>
          result := PipelineResult(ids[i], false, Failed, None, 0.0, Rejected, "pending",
                                   [PipelineError("orchestrator", "pipeline_error", m, false)]);
      }
      results := results + [result];
      i := i + 1;
    }
  }

  /** `getPipelineStatusLabel`: the three known statuses get a label, any
      other text is returned as it is. */
  function GetPipelineStatusLabel(status: string): (text: string)
    ensures status == "completed" ==> text == "Completed"
    ensures status == "partial" ==> text == "Partially Completed"
    ensures status == "failed" ==> text == "Failed"
    ensures status != "completed" && status != "partial" && status != "failed" ==> text == status
  {
    if status == "completed" then "Completed"
    else if status == "partial" then "Partially Completed"
    else if status == "failed" then "Failed"
    else status
  }

  function StatusText(s: PipelineStatus): string
  {
    match s
    case Completed => "completed"
    case Partial => "partial"
    case Failed => "failed"
  }

  /** Every pipeline status has its own label. */
  lemma StatusLabelsDistinct(s: PipelineStatus, t: PipelineStatus)
    requires s != t
    ensures GetPipelineStatusLabel(StatusText(s)) != GetPipelineStatusLabel(StatusText(t))
  {
    assert "Completed"[0] == 'C' && "Partially Completed"[0] == 'P' && "Failed"[0] == 'F';
  }
}

=== FILE: process_route.dfy ===
/** The decision and summary rules of the `/api/ai/process` route
    (app/api/ai/process/route.ts): the request guards of `POST` and `PUT`,
    the batch summary and `getResultMessage`. The invoice the route looks up
    and what each pipeline run does are inputs. */
module ProcessRoute {
  import opened Common
  import opened Orchestrator

  /** The invoice row the route fetches: the owning client's user and the
      uploaded file's path. `None` in a lookup is a fetch error or no row. */
  datatype InvoiceRecord = InvoiceRecord(ownerId: Option<string>, filePath: Option<string>)

  /** The checks `POST` makes before it starts the pipeline, in their order. */
  function SingleRequestGuard(invoiceId: Option<string>, userId: Option<string>, invoice: Option<InvoiceRecord>)
    : (g: Guard)
    ensures g.Proceed? <==>
              && Truthy(invoiceId) && Truthy(userId) && invoice.Some?
              && invoice.value.ownerId == userId && Truthy(invoice.value.filePath)
    ensures !Truthy(invoiceId) || !Truthy(userId) ==> g.Refuse? && g.httpStatus == 400
    ensures Truthy(invoiceId) && Truthy(userId) && invoice.None? ==> g == Refuse(404, "Invoice not found")
    ensures Truthy(invoiceId) && Truthy(userId) && invoice.Some? && invoice.value.ownerId != userId ==>
              g == Refuse(403, "Unauthorized access to invoice")
    ensures Truthy(invoiceId) && Truthy(userId) && invoice.Some? && invoice.value.ownerId == userId
            && !Truthy(invoice.value.filePath) ==>
              g == Refuse(400, "Invoice file not found. Please upload the file first.")
    ensures g.Refuse? ==> g.httpStatus in {400, 403, 404}
  {
    if !Truthy(invoiceId) then Refuse(400, "Invoice ID is required")
    else if !Truthy(userId) then Refuse(400, "User ID is required")
    else if invoice.None? then Refuse(404, "Invoice not found")
    else if invoice.value.ownerId != userId then Refuse(403, "Unauthorized access to invoice")
    else if !Truthy(invoice.value.filePath) then Refuse(400, "Invoice file not found. Please upload the file first.")
    else Proceed
  }

  /** `config || {}` */
  function ConfigOrDefault(config: Option<PipelineConfig>): PipelineConfig
  {
    if config.Some? then config.value else DefaultConfig
  }

  /** `getResultMessage`. `percent` is the text of
      `(aggregate_confidence * 100).toFixed(0)`; number formatting is not
      modelled. */
  function GetResultMessage(result: PipelineResult, percent: string): (m: string)
    ensures !result.success && result.errors != [] && result.errors[0].message != [] ==>
              m == "Pipeline failed: " + result.errors[0].message
    ensures !result.success && (result.errors == [] || result.errors[0].message == []) ==>
              m == "Pipeline failed: Unknown error"
    ensures result.success && result.finalDecision == AutoApproved ==>
              m == "✓ Invoice auto-approved with " + percent + "% confidence"
    ensures result.success && result.finalDecision == NeedsReview ==>
              m == "⚠ Invoice needs manual review (" + percent + "% confidence)"
    ensures result.success && result.finalDecision == Rejected ==>
              m == "✗ Invoice requires corrections (" + percent + "% confidence)"
  {
    if !result.success then
      "Pipeline failed: " + (if result.errors != [] && result.errors[0].message != [] then result.errors[0].message
                             else "Unknown error")
    else match result.finalDecision
      case AutoApproved => "✓ Invoice auto-approved with " + percent + "% confidence"
      case NeedsReview => "⚠ Invoice needs manual review (" + percent + "% confidence)"
      case Rejected => "✗ Invoice requires corrections (" + percent + "% confidence)"
      case Undecided => "Invoice processed with " + percent + "% confidence"
  }

  /** The first character of a message tells success and decision apart. */
  lemma ResultMessagesDistinct(r1: PipelineResult, r2: PipelineResult, p1: string, p2: string)
    requires r1.finalDecision != Undecided && r2.finalDecision != Undecided
    requires r1.success != r2.success || (r1.success && r1.finalDecision != r2.finalDecision)
    ensures GetResultMessage(r1, p1) != GetResultMessage(r2, p2)
  {
    var m1, m2 := GetResultMessage(r1, p1), GetResultMessage(r2, p2);
    assert m1[0] == Lead(r1) && m2[0] == Lead(r2) by {
      LeadOfMessage(r1, p1);
      LeadOfMessage(r2, p2);
    }
  }

  function Lead(r: PipelineResult): char
  {
    if !r.success then 'P'
    else match r.finalDecision
      case AutoApproved => '✓'
      case NeedsReview => '⚠'
      case Rejected => '✗'
      case Undecided => 'I'
  }

  lemma LeadOfMessage(r: PipelineResult, percent: string)
    ensures GetResultMessage(r, percent) != [] && GetResultMessage(r, percent)[0] == Lead(r)
  {
    var m := GetResultMessage(r, percent);
    if !r.success {
      assert m == "Pipeline failed: " + (if r.errors != [] && r.errors[0].message != [] then r.errors[0].message
                                         else "Unknown error");
    }
  }

  /** What `POST` answers: a guard's error, or the pipeline's result with its
      message. The pipeline fetches the same invoice row again, so its access
      check sees the owner the guard saw. */
  datatype SingleResponse =
    | SingleRejected(httpStatus: int, error: string)
    | SingleProcessed(success: bool, result: PipelineResult, message: string)

  function ProcessSingle(invoiceId: Option<string>, userId: Option<string>, invoice: Option<InvoiceRecord>,
                         config: Option<PipelineConfig>, extraction: StageOutcome, categorization: StageOutcome,
                         validation: ValidationOutcome, approval: ApprovalOutcome, percent: string)
    : (resp: SingleResponse)
    ensures SingleRequestGuard(invoiceId, userId, invoice).Refuse? <==> resp.SingleRejected?
    ensures resp.SingleProcessed? ==>
              && resp.success == resp.result.success
              && resp.result.invoiceId == invoiceId.value
              && resp.message == GetResultMessage(resp.result, percent)
  {
    match SingleRequestGuard(invoiceId, userId, invoice)
    case Refuse(status, error) => SingleRejected(status, error)
    case Proceed =>
      var result := ProcessInvoice(invoiceId.value, userId.value, ConfigOrDefault(config),
                                   Found(invoice.value.ownerId.value), extraction, categorization, validation, approval);
      SingleProcessed(result.success, result, GetResultMessage(result, percent))
  }

  /** A request that passes the guards is never turned away by the pipeline's
      own access check. */
  lemma StagesNamed(ce: seq<PipelineError>, ve: seq<PipelineError>, ae: seq<PipelineError>)
    requires forall e :: e in ce ==> e.stage == "categorization"
    requires forall e :: e in ve ==> e.stage == "validation"
    requires forall e :: e in ae ==> e.stage == "approval"
    ensures forall k :: 0 <= k < |ce + ve + ae| ==> (ce + ve + ae)[k].stage != "orchestrator"
  {
    forall k | 0 <= k < |ce + ve + ae|
      ensures (ce + ve + ae)[k].stage != "orchestrator"
    {
      assert (ce + ve + ae)[k] in ce || (ce + ve + ae)[k] in ve || (ce + ve + ae)[k] in ae;
    }
  }

  lemma GuardedRequestIsAuthorized(invoiceId: Option<string>, userId: Option<string>, invoice: Option<InvoiceRecord>,
                                   config: Option<PipelineConfig>, extraction: StageOutcome,
                                   categorization: StageOutcome, validation: ValidationOutcome,
                                   approval: ApprovalOutcome, percent: string)
    requires SingleRequestGuard(invoiceId, userId, invoice).Proceed?
    ensures var resp := ProcessSingle(invoiceId, userId, invoice, config, extraction, categorization, validation,
                                      approval, percent);
            resp.SingleProcessed?
            && forall k :: 0 <= k < |resp.result.errors| ==> resp.result.errors[k].stage != "orchestrator"
  {
    var f := ConfigOrDefault(config);
    assert Authorized(Found(invoice.value.ownerId.value), userId.value);
    var r := ProcessInvoice(invoiceId.value, userId.value, f, Found(invoice.value.ownerId.value),
                            extraction, categorization, validation, approval);
    var s1 := InitialStages.(extraction := ExtractionStage(OrFalse(f.skipExtraction), extraction));
    if !OrFalse(f.skipExtraction) && extraction.Threw? {
      assert r.errors[0].stage == "extraction";
    } else {
      var s2 := s1.(categorization := CategorizationStage(OrFalse(f.skipCategorization), categorization));
      var s3 := s2.(validation := ValidationStage(OrFalse(f.skipValidation), validation));
      var v := Decide(AggregateConfidence(s3), s3.validation.success, f, approval);
      var ce := CategorizationErrors(OrFalse(f.skipCategorization), categorization);
      var ve := ValidationErrors(OrFalse(f.skipValidation), validation);
      assert r.errors == ce + ve + v.errors;
      StagesNamed(ce, ve, v.errors);
    }
  }

  // ---------------------------------------------------------------------
  // Batch
  // ---------------------------------------------------------------------

  /** `invoice_ids` in the request body. */
  datatype IdsField = Missing | NotArray | Array(ids: seq<string>)

  const MaxBatchSize := 50

  /** The checks `PUT` makes before it runs the batch, in their order. */
  function BatchGuard(invoiceIds: IdsField, userId: Option<string>): (g: Guard)
    ensures g.Proceed? <==>
              invoiceIds.Array? && 1 <= |invoiceIds.ids| <= MaxBatchSize && Truthy(userId)
    ensures !invoiceIds.Array? || invoiceIds.ids == [] ==> g == Refuse(400, "Invoice IDs array is required")
    ensures invoiceIds.Array? && |invoiceIds.ids| > MaxBatchSize ==> g.Refuse? && g.httpStatus == 400
    ensures g.Refuse? ==> g.httpStatus == 400
  {
    if !invoiceIds.Array? || |invoiceIds.ids| == 0 then Refuse(400, "Invoice IDs array is required")
    else if !Truthy(userId) then Refuse(400, "User ID is required")
    else if |invoiceIds.ids| > MaxBatchSize then Refuse(400, "Maximum 50 invoices can be processed in one batch")
    else Proceed
  }

  predicate IsCompleted(r: PipelineResult) { r.pipelineStatus == Completed }
  predicate IsPartial(r: PipelineResult) { r.pipelineStatus == Partial }
  predicate IsFailed(r: PipelineResult) { r.pipelineStatus == Failed }
  predicate IsAutoApproved(r: PipelineResult) { r.finalDecision == AutoApproved }
  predicate IsNeedsReview(r: PipelineResult) { r.finalDecision == NeedsReview }
  predicate IsRejected(r: PipelineResult) { r.finalDecision == Rejected }

  /** `results.reduce((sum, r) => sum + r.aggregate_confidence, 0)` */
  function SumConfidence(rs: seq<PipelineResult>): real
  {
    if rs == [] then 0.0 else rs[0].aggregateConfidence + SumConfidence(rs[1..])
  }

  /** The sum of the entries' processing times. */
  function SumTimes(times: seq<int>): int
  {
    if times == [] then 0 else times[0] + SumTimes(times[1..])
  }

  /** The batch `summary`; `averageConfidence` is None where the division
      would be 0 / 0. */
  datatype Summary = Summary(total: nat, completed: nat, partial: nat, failed: nat, autoApproved: nat,
                             needsReview: nat, rejected: nat, averageConfidence: Option<real>,
                             totalProcessingTimeMs: int)

  function Summarize(rs: seq<PipelineResult>, times: seq<int>): (s: Summary)
    ensures s.total == |rs|
    ensures s.averageConfidence.Some? <==> rs != []
    ensures rs != [] ==> s.averageConfidence.value * (|rs| as real) == SumConfidence(rs)
    ensures s.totalProcessingTimeMs == SumTimes(times)
  {
    Summary(|rs|, Count(rs, IsCompleted), Count(rs, IsPartial), Count(rs, IsFailed),
            Count(rs, IsAutoApproved), Count(rs, IsNeedsReview), Count(rs, IsRejected),
            if rs == [] then None else Some(SumConfidence(rs) / (|rs| as real)),
            SumTimes(times))
  }

  /** Every result has one of the three pipeline statuses, so the three
      counts add up to the total. */
  lemma {:induction false} StatusCountsPartition(rs: seq<PipelineResult>)
    ensures Count(rs, IsCompleted) + Count(rs, IsPartial) + Count(rs, IsFailed) == |rs|
  {
    if rs != [] {
      StatusCountsPartition(rs[1..]);
    }
  }

  /** A decision other than the three counted ones adds to none of them. */
  lemma {:induction false} DecisionCounts(rs: seq<PipelineResult>)
    ensures Count(rs, IsAutoApproved) + Count(rs, IsNeedsReview) + Count(rs, IsRejected) <= |rs|
    ensures (forall k :: 0 <= k < |rs| ==> rs[k].finalDecision != Undecided) ==>
              Count(rs, IsAutoApproved) + Count(rs, IsNeedsReview) + Count(rs, IsRejected) == |rs|
  {
    if rs != [] {
      DecisionCounts(rs[1..]);
      assert forall k :: 1 <= k < |rs| ==> rs[1..][k - 1] == rs[k];
    }
  }

  lemma {:induction false} SumConfidenceBounds(rs: seq<PipelineResult>)
    requires forall k :: 0 <= k < |rs| ==> 0.0 <= rs[k].aggregateConfidence <= 1.0
    ensures 0.0 <= SumConfidence(rs) <= |rs| as real
  {
    if rs != [] {
      assert forall k :: 1 <= k < |rs| ==> rs[1..][k - 1] == rs[k];
      SumConfidenceBounds(rs[1..]);
    }
  }

  /** When every aggregate confidence is in [0,1], so is their average. */
  lemma AverageInUnitRange(rs: seq<PipelineResult>, times: seq<int>)
    requires rs != []
    requires forall k :: 0 <= k < |rs| ==> 0.0 <= rs[k].aggregateConfidence <= 1.0
    ensures 0.0 <= Summarize(rs, times).averageConfidence.value <= 1.0
  {
    SumConfidenceBounds(rs);
  }

  /** What `PUT` answers. */
  datatype BatchResponse =
    | BatchRejected(httpStatus: int, error: string)
    | BatchProcessed(summary: Summary, results: seq<PipelineResult>)

  /** `runs[i]` is what happens to the i-th id and `times[i]` is its
      processing time; both are only looked at once the guards pass. */
  function ProcessBatch(invoiceIds: IdsField, userId: Option<string>, config: Option<PipelineConfig>,
                        runs: seq<InvoiceRun>, times: seq<int>)
    : (resp: BatchResponse)
    requires invoiceIds.Array? ==> |runs| == |invoiceIds.ids|
    ensures BatchGuard(invoiceIds, userId).Refuse? <==> resp.BatchRejected?
    ensures resp.BatchProcessed? ==>
              && resp.results == BatchResults(invoiceIds.ids, userId.value, ConfigOrDefault(config), runs)
              && resp.summary == Summarize(resp.results, times)
  {
    match BatchGuard(invoiceIds, userId)
    case Refuse(status, error) => BatchRejected(status, error)
    case Proceed =>
      var results := BatchResults(invoiceIds.ids, userId.value, ConfigOrDefault(config), runs);
      BatchProcessed(Summarize(results, times), results)
  }

  /** A batch that gets through has between 1 and 50 entries, so its average
      is defined; its statuses partition it, and every entry is decided. */
  lemma BatchSummaryWellFormed(invoiceIds: IdsField, userId: Option<string>, config: Option<PipelineConfig>,
                               runs: seq<InvoiceRun>, times: seq<int>)
    requires invoiceIds.Array? ==> |runs| == |invoiceIds.ids|
    requires ProcessBatch(invoiceIds, userId, config, runs, times).BatchProcessed?
    ensures var s := ProcessBatch(invoiceIds, userId, config, runs, times).summary;
            && 1 <= s.total <= MaxBatchSize
            && s.averageConfidence.Some?
            && s.completed + s.partial + s.failed == s.total
            && s.autoApproved + s.needsReview + s.rejected == s.total
  {
    var rs := ProcessBatch(invoiceIds, userId, config, runs, times).results;
    StatusCountsPartition(rs);
    DecisionCounts(rs);
  }
}

=== FILE: rules.dfy ===
/** The validator's individual rule checks after the GSTIN check: state code,
    GST rate, amount reconciliation, CGST/SGST-versus-IGST split, invoice date,
    invoice number and HSN/rate consistency. Each is a pure decision over the
    invoice's fields; the HSN table and the calendar are parameters. */
module Rules {
  import opened Common
  import opened Strings
  import opened HsnTable

  /** `{ valid, confidence, message }`, the shape most rule checks return. */
  datatype RuleCheck = RuleCheck(valid: bool, confidence: real, message: string)

  // ---------------------------------------------------------------------------
  // State code
  // ---------------------------------------------------------------------------

  /** `STATE_CODES`: two-digit codes 01 to 38, with no entry for 28. */
  const StateNames: map<string, string> := map[
    "01" := "Jammu & Kashmir", "02" := "Himachal Pradesh", "03" := "Punjab",
    "04" := "Chandigarh", "05" := "Uttarakhand", "06" := "Haryana",
    "07" := "Delhi", "08" := "Rajasthan", "09" := "Uttar Pradesh",
    "10" := "Bihar", "11" := "Sikkim", "12" := "Arunachal Pradesh",
    "13" := "Nagaland", "14" := "Manipur", "15" := "Mizoram",
    "16" := "Tripura", "17" := "Meghalaya", "18" := "Assam",
    "19" := "West Bengal", "20" := "Jharkhand", "21" := "Odisha",
    "22" := "Chhattisgarh", "23" := "Madhya Pradesh", "24" := "Gujarat",
    "25" := "Daman & Diu", "26" := "Dadra & Nagar Haveli", "27" := "Maharashtra",
    "29" := "Karnataka", "30" := "Goa", "31" := "Lakshadweep",
    "32" := "Kerala", "33" := "Tamil Nadu", "34" := "Puducherry",
    "35" := "Andaman & Nicobar Islands", "36" := "Telangana", "37" := "Andhra Pradesh",
    "38" := "Ladakh"]

  /** `validateStateCode` */
  function ValidateStateCode(stateCode: Option<string>): (r: RuleCheck)
    ensures r.valid <==> stateCode.Some? && stateCode.value in StateNames
    ensures r.confidence == if r.valid then 1.0 else 0.0
    ensures r.valid ==> r.message == "State: " + StateNames[stateCode.value]
    ensures stateCode.None? || stateCode.value == "" ==> r.message == "State code is missing"
  {
    if stateCode.None? || stateCode.value == "" then RuleCheck(false, 0.0, "State code is missing")
    else if stateCode.value in StateNames then RuleCheck(true, 1.0, "State: " + StateNames[stateCode.value])
    else RuleCheck(false, 0.0, "Invalid state code: " + stateCode.value)
  }

  /** The number a two-digit code stands for. */
  function TwoDigitValue(s: string): int
    requires |s| == 2
  {
    (s[0] as int - '0' as int) * 10 + (s[1] as int - '0' as int)
  }

  /** The table, described without listing it: two decimal digits between 01
      and 38 other than 28. */
  predicate KnownStateNumber(s: string)
  {
    |s| == 2 && IsDigit(s[0]) && IsDigit(s[1]) && 1 <= TwoDigitValue(s) <= 38 && TwoDigitValue(s) != 28
  }

  lemma StateTableIsRange(s: string)
    ensures s in StateNames <==> KnownStateNumber(s)
  {
    if KnownStateNumber(s) {
      KnownNumberInTable(s);
    } else if s in StateNames {
      TableKeysAreKnown(s);
    }
  }

  lemma KnownNumberInTable(s: string)
    requires KnownStateNumber(s)
    ensures s in StateNames
  {
    assert s == [s[0], s[1]];
    var n := TwoDigitValue(s);
    assert s[0] == DigitChar(n / 10) && s[1] == DigitChar(n % 10);
    assert s == [DigitChar(n / 10), DigitChar(n % 10)];
  }

  lemma TableKeysAreKnown(s: string)
    requires s in StateNames
    ensures KnownStateNumber(s)
  {
    assert |s| == 2;
    if s[0] == '0' { KeysFrom0(s); }
    else if s[0] == '1' { KeysFrom1(s); }
    else if s[0] == '2' { KeysFrom2(s); }
    else { KeysFrom3(s); }
  }

  /** The table's keys, grouped by their first digit. */
  lemma KeysFrom0(s: string)
    requires s in StateNames && |s| == 2 && s[0] == '0'
    ensures KnownStateNumber(s)
  {
  }

  lemma KeysFrom1(s: string)
    requires s in StateNames && |s| == 2 && s[0] == '1'
    ensures KnownStateNumber(s)
  {
  }

  lemma KeysFrom2(s: string)
    requires s in StateNames && |s| == 2 && s[0] == '2'
    ensures KnownStateNumber(s)
  {
  }

  lemma KeysFrom3(s: string)
    requires s in StateNames && |s| == 2 && s[0] != '0' && s[0] != '1' && s[0] != '2'
    ensures KnownStateNumber(s)
  {
  }

  /** Code 28 (the former Andhra Pradesh code) is not in the table and is
      reported as invalid. */
  lemma CodeTwentyEightRejected()
    ensures ValidateStateCode(Some("28")) == RuleCheck(false, 0.0, "Invalid state code: 28")
  {
    StateTableIsRange("28");
  }

  // ---------------------------------------------------------------------------
  // GST rate
  // ---------------------------------------------------------------------------

  /** `VALID_GST_RATES` */
  const ValidGstRates: seq<real> := [0.0, 0.25, 3.0, 5.0, 12.0, 18.0, 28.0]

  /** `VALID_GST_RATES.some(v => Math.abs(x - v) < 0.5)` */
  predicate NearStandardRate(x: real)
  {
    exists i :: 0 <= i < |ValidGstRates| && Abs(x - ValidGstRates[i]) < 0.5
  }

  /** `validateGSTRate` (validator.ts): the rate is rounded to two decimals and
      compared with the standard rates. */
  function ValidateGSTRate(rate: Option<real>): (r: RuleCheck)
    ensures rate.None? ==> r == RuleCheck(false, 0.0, "GST rate is missing")
    ensures rate.Some? ==> (r.valid <==> NearStandardRate(Round2(rate.value)))
    ensures r.valid ==> r.confidence == 1.0
    ensures 0.0 <= r.confidence <= 1.0
    ensures rate.Some? && !r.valid ==>
              (r.confidence == 0.5 <==> 0.0 <= Round2(rate.value) <= 30.0)
    ensures !r.valid ==> r.confidence == 0.5 || r.confidence == 0.0
  {
    if rate.None? then RuleCheck(false, 0.0, "GST rate is missing")
    else
      var rounded := Round2(rate.value);
      if NearStandardRate(rounded) then RuleCheck(true, 1.0, "GST rate is valid")
      else if 0.0 <= rounded <= 30.0 then
        RuleCheck(false, 0.5, "GST rate is not standard. Valid rates: 0%, 0.25%, 3%, 5%, 12%, 18%, 28%")
      else RuleCheck(false, 0.0, "GST rate is invalid")
  }

  /** Every standard rate passes with full confidence. */
  lemma StandardRateAccepted(i: nat)
    requires i < |ValidGstRates|
    ensures ValidateGSTRate(Some(ValidGstRates[i])) == RuleCheck(true, 1.0, "GST rate is valid")
  {
    var k := [0, 25, 300, 500, 1200, 1800, 2800][i];
    assert ValidGstRates[i] == k as real / 100.0;
    Round2OfHundredths(k);
  }

  /** A rate less than 0.495 away from a standard rate is still accepted, so
      rounding to two decimals never pushes such a rate out. */
  lemma NearRateAccepted(x: real, i: nat)
    requires i < |ValidGstRates| && Abs(x - ValidGstRates[i]) < 0.495
    ensures ValidateGSTRate(Some(x)).valid && ValidateGSTRate(Some(x)).confidence == 1.0
  {
    Round2Close(x);
    assert Abs(Round2(x) - ValidGstRates[i]) < 0.5;
  }

  /** Between 28.5 and 30 (after rounding) a rate is "not standard" but
      reasonable: half confidence. */
  lemma ReasonableNonStandardRate(x: real)
    requires 28.5 <= Round2(x) <= 30.0
    ensures ValidateGSTRate(Some(x)) == RuleCheck(false, 0.5, "GST rate is not standard. Valid rates: 0%, 0.25%, 3%, 5%, 12%, 18%, 28%")
  {
    var y := Round2(x);
    forall i | 0 <= i < |ValidGstRates|
      ensures Abs(y - ValidGstRates[i]) >= 0.5
    {
    }
  }

  // ---------------------------------------------------------------------------
  // Amount reconciliation
  // ---------------------------------------------------------------------------

  datatype AmountCheck = AmountCheck(valid: bool, confidence: real, difference: real, expectedTotal: real, message: string)

  /** `validateAmountCalculation` (validator.ts): the total against taxable
      value plus the three tax heads, in tolerance bands of 1, 10 and 100. */
  function ValidateAmountCalculation(total: real, taxable: real, cgst: real, sgst: real, igst: real): (r: AmountCheck)
    ensures r.expectedTotal == taxable + cgst + sgst + igst
    ensures r.difference == Abs(total - r.expectedTotal)
    ensures r.valid <==> r.difference <= 1.0
    ensures r.confidence == 1.0 <==> total == r.expectedTotal
    ensures 0.0 <= r.confidence <= 1.0
    ensures 0.0 < r.difference <= 1.0 ==> r.confidence == 0.95
    ensures 1.0 < r.difference <= 10.0 ==> r.confidence == 0.70
    ensures 10.0 < r.difference <= 100.0 ==> r.confidence == 0.40
    ensures 100.0 < r.difference ==> r.confidence == 0.0
  {
    var expected := taxable + cgst + sgst + igst;
    var difference := Abs(total - expected);
    if difference == 0.0 then AmountCheck(true, 1.0, 0.0, expected, "Amount calculation is correct")
    else if difference <= 1.0 then AmountCheck(true, 0.95, difference, expected, "Amount within rounding tolerance")
    else if difference <= 10.0 then AmountCheck(false, 0.70, difference, expected, "Amount mismatch")
    else if difference <= 100.0 then AmountCheck(false, 0.40, difference, expected, "Significant amount mismatch")
    else AmountCheck(false, 0.0, difference, expected, "Critical amount mismatch")
  }

  /** A larger discrepancy never earns a higher confidence. */
  lemma AmountConfidenceMonotone(total1: real, total2: real, taxable: real, cgst: real, sgst: real, igst: real)
    requires Abs(total1 - (taxable + cgst + sgst + igst)) <= Abs(total2 - (taxable + cgst + sgst + igst))
    ensures ValidateAmountCalculation(total2, taxable, cgst, sgst, igst).confidence
            <= ValidateAmountCalculation(total1, taxable, cgst, sgst, igst).confidence
  {
  }

  // ---------------------------------------------------------------------------
  // CGST/SGST versus IGST
  // ---------------------------------------------------------------------------

  datatype TaxSplitCheck = TaxSplitCheck(
    valid: bool, confidence: real,
    expectedCgst: real, expectedSgst: real, expectedIgst: real,
    isInterState: bool, message: string)

  /** `validateTaxSplit` (validator.ts). The vendor's state code is the one the
      GSTIN check returned, which is null for a blank or wrong-length GSTIN;
      `null !== clientCode` holds for every client code, so such an invoice is
      checked as inter-state. */
  function ValidateTaxSplit(vendorCode: Option<string>, clientCode: string,
                            taxable: real, rate: real, cgst: real, sgst: real, igst: real): (r: TaxSplitCheck)
    ensures r.isInterState <==> vendorCode != Some(clientCode)
    ensures 0.0 <= r.confidence <= 1.0
    ensures var totalGst := taxable * rate / 100.0;
            if r.isInterState then r.expectedCgst == 0.0 && r.expectedSgst == 0.0 && r.expectedIgst == totalGst
            else r.expectedCgst == totalGst / 2.0 && r.expectedSgst == totalGst / 2.0 && r.expectedIgst == 0.0
    // inter-state: IGST only
    ensures r.isInterState && (cgst != 0.0 || sgst != 0.0) ==> !r.valid && r.confidence == 0.0
    ensures r.isInterState && cgst == 0.0 && sgst == 0.0 ==>
              (r.valid <==> Abs(igst - r.expectedIgst) <= 1.0)
              && (r.valid ==> (r.confidence == 1.0 <==> igst == r.expectedIgst))
              && (r.valid ==> (r.confidence == 0.95 <==> igst != r.expectedIgst))
              && (!r.valid ==> r.confidence == 0.5)
    // intra-state: CGST and SGST, half each
    ensures !r.isInterState && igst != 0.0 ==> !r.valid && r.confidence == 0.0
    ensures !r.isInterState && igst == 0.0 ==>
              (r.valid <==> Abs(cgst - r.expectedCgst) <= 1.0 && Abs(sgst - r.expectedSgst) <= 1.0)
              && (r.valid ==> (r.confidence == 1.0 <==> cgst == r.expectedCgst && sgst == r.expectedSgst))
              && (r.valid && r.confidence != 1.0 ==> r.confidence == 0.95)
              && (!r.valid ==> r.confidence == 0.5)
  {
    var isInterState := vendorCode != Some(clientCode);
    var totalGst := taxable * rate / 100.0;
    if isInterState then
      var expectedIgst := totalGst;
      if cgst != 0.0 || sgst != 0.0 then
        TaxSplitCheck(false, 0.0, 0.0, 0.0, expectedIgst, true, "Inter-state transaction must use IGST only (no CGST/SGST)")
      else
        var igstDiff := Abs(igst - expectedIgst);
        if igstDiff <= 1.0 then
          TaxSplitCheck(true, if igstDiff == 0.0 then 1.0 else 0.95, 0.0, 0.0, expectedIgst, true, "IGST calculation correct")
        else
          TaxSplitCheck(false, 0.5, 0.0, 0.0, expectedIgst, true, "IGST mismatch")
    else
      var expectedCgst := totalGst / 2.0;
      var expectedSgst := totalGst / 2.0;
      if igst != 0.0 then
        TaxSplitCheck(false, 0.0, expectedCgst, expectedSgst, 0.0, false, "Intra-state transaction must use CGST+SGST only (no IGST)")
      else
        var cgstDiff := Abs(cgst - expectedCgst);
        var sgstDiff := Abs(sgst - expectedSgst);
        if cgstDiff <= 1.0 && sgstDiff <= 1.0 then
          TaxSplitCheck(true, if cgstDiff == 0.0 && sgstDiff == 0.0 then 1.0 else 0.95,
                        expectedCgst, expectedSgst, 0.0, false, "CGST/SGST calculation correct")
        else
          TaxSplitCheck(false, 0.5, expectedCgst, expectedSgst, 0.0, false, "CGST/SGST mismatch")
  }

  /** An invoice whose vendor state code is missing is judged inter-state: a
      correct intra-state split (CGST and SGST, no IGST) then scores 0. */
  lemma MissingVendorCodeIsInterState(clientCode: string, taxable: real, rate: real, cgst: real, sgst: real)
    requires cgst != 0.0
    ensures var r := ValidateTaxSplit(None, clientCode, taxable, rate, cgst, sgst, 0.0);
            r.isInterState && !r.valid && r.confidence == 0.0
  {
  }

  // ---------------------------------------------------------------------------
  // Invoice date
  // ---------------------------------------------------------------------------

  /** Today's day number and the Indian financial year (1 April to 31 March)
      that contains it, which the source reads from the wall clock. */
  datatype Calendar = Calendar(today: int, fyStart: int, fyEnd: int)

  datatype DateCheck = DateCheck(valid: bool, confidence: real, daysOld: int, inCurrentFy: bool, message: string)

  /** Age bands: over 180 days 0.50, over 90 days 0.70, over 30 days 0.90. */
  function AgeConfidence(daysOld: int): (c: real)
    ensures daysOld <= 30 <==> c == 1.0
  {
    if daysOld > 180 then 0.50 else if daysOld > 90 then 0.70 else if daysOld > 30 then 0.90 else 1.0
  }

  lemma AgeConfidenceMonotone(d1: int, d2: int)
    requires d1 <= d2
    ensures AgeConfidence(d2) <= AgeConfidence(d1)
  {
  }

  /** `validateInvoiceDate` (validator.ts). A missing date (null or the empty
      string) is None. */
  function ValidateInvoiceDate(date: Option<CalendarDate>, cal: Calendar): (r: DateCheck)
    ensures !r.valid <==> date.None? || date.value.Invalid? || date.value.n > cal.today
    ensures !r.valid ==> r.confidence == 0.0 && r.daysOld == 0 && !r.inCurrentFy
    ensures r.valid ==> r.daysOld == cal.today - date.value.n >= 0
    ensures r.valid ==> (r.inCurrentFy <==> cal.fyStart <= date.value.n <= cal.fyEnd)
    ensures r.valid && r.inCurrentFy ==> r.confidence == AgeConfidence(r.daysOld)
    ensures r.valid && !r.inCurrentFy ==> r.confidence == Min(AgeConfidence(r.daysOld), 0.60)
    ensures r.valid ==> 0.5 <= r.confidence <= 1.0
  {
    if date.None? then DateCheck(false, 0.0, 0, false, "Invoice date is missing")
    else if date.value.Invalid? then DateCheck(false, 0.0, 0, false, "Invoice date is invalid")
    else if date.value.n > cal.today then DateCheck(false, 0.0, 0, false, "Invoice date cannot be in the future")
    else
      var daysOld := cal.today - date.value.n;
      var inFy := cal.fyStart <= date.value.n <= cal.fyEnd;
      var age := AgeConfidence(daysOld);
      var ageMessage :=
        if daysOld > 180 then "Invoice is " + NatToString(daysOld) + " days old (" + NatToString(daysOld / 30) + " months)"
        else if daysOld > 30 then "Invoice is " + NatToString(daysOld) + " days old"
        else "Invoice date is valid";
      if inFy then DateCheck(true, age, daysOld, true, ageMessage)
      else DateCheck(true, Min(age, 0.60), daysOld, false, ageMessage + " and is outside current financial year")
  }

  /** An older invoice never scores higher than a newer one in the same
      financial-year position. */
  lemma OlderDateNeverScoresHigher(d1: int, d2: int, cal: Calendar)
    requires d2 <= d1 <= cal.today
    requires (cal.fyStart <= d1 <= cal.fyEnd) == (cal.fyStart <= d2 <= cal.fyEnd)
    ensures ValidateInvoiceDate(Some(Day(d2)), cal).confidence <= ValidateInvoiceDate(Some(Day(d1)), cal).confidence
  {
    AgeConfidenceMonotone(cal.today - d1, cal.today - d2);
  }

  // ---------------------------------------------------------------------------
  // Invoice number
  // ---------------------------------------------------------------------------

  predicate IsSeparator(c: char) { c == '-' || c == '/' }

  /** One way of reading s as `/^[A-Z]{2,5}[-\/]?\d{4}[-\/]?\d{3,6}$/i`:
      p letters, s1 optional separators, four digits, s2 optional separators,
      and the remaining three to six digits. */
  predicate StandardShape(s: string, p: int, s1: int, s2: int)
  {
    && 2 <= p <= 5 && 0 <= s1 <= 1 && 0 <= s2 <= 1
    && p + s1 + 4 + s2 + 3 <= |s| <= p + s1 + 4 + s2 + 6
    && (forall k :: 0 <= k < p ==> IsLetter(s[k]))
    && (s1 == 1 ==> IsSeparator(s[p]))
    && (forall k :: p + s1 <= k < p + s1 + 4 ==> IsDigit(s[k]))
    && (s2 == 1 ==> IsSeparator(s[p + s1 + 4]))
    && (forall k :: p + s1 + 4 + s2 <= k < |s| ==> IsDigit(s[k]))
  }

  predicate StandardInvoiceNumber(s: string)
  {
    exists p, s1, s2 :: 0 <= p <= 5 && 0 <= s1 <= 1 && 0 <= s2 <= 1 && StandardShape(s, p, s1, s2)
  }

  /** `/^[A-Z0-9\-\/]+$/i` */
  predicate AcceptableInvoiceNumber(s: string)
  {
    s != [] && forall k :: 0 <= k < |s| ==> IsLetter(s[k]) || IsDigit(s[k]) || IsSeparator(s[k])
  }

  /** `validateInvoiceNumberFormat` (validator.ts) */
  function ValidateInvoiceNumberFormat(number: Option<string>): (r: RuleCheck)
    ensures number.None? || Trim(number.value) == [] ==> r == RuleCheck(false, 0.0, "Invoice number is required")
    ensures 0.0 <= r.confidence <= 1.0
    ensures number.Some? && Trim(number.value) != [] ==>
              var c := Trim(number.value);
              && (|c| < 3 ==> r == RuleCheck(false, 0.3, "Invoice number is too short"))
              && (|c| > 50 ==> r == RuleCheck(false, 0.4, "Invoice number is too long"))
              && (3 <= |c| <= 50 ==>
                    && (r.confidence == 1.0 <==> StandardInvoiceNumber(c))
                    && (r.valid <==> AcceptableInvoiceNumber(c))
                    && (!r.valid ==> r.confidence == 0.6)
                    && (r.valid && !StandardInvoiceNumber(c) ==> r.confidence == 0.8))
  {
    if number.None? || Trim(number.value) == [] then RuleCheck(false, 0.0, "Invoice number is required")
    else
      var cleaned := Trim(number.value);
      if |cleaned| < 3 then RuleCheck(false, 0.3, "Invoice number is too short")
      else if |cleaned| > 50 then RuleCheck(false, 0.4, "Invoice number is too long")
      else if StandardInvoiceNumber(cleaned) then
        StandardIsAcceptable(cleaned);
        RuleCheck(true, 1.0, "Invoice number format is standard")
      else if AcceptableInvoiceNumber(cleaned) then RuleCheck(true, 0.80, "Invoice number format is acceptable")
      else RuleCheck(false, 0.60, "Invoice number contains unusual characters")
  }

  /** Every standard number is made of letters, digits and separators. */
  lemma StandardIsAcceptable(s: string)
    requires StandardInvoiceNumber(s)
    ensures AcceptableInvoiceNumber(s)
  {
    var p, s1, s2 :| 0 <= p <= 5 && 0 <= s1 <= 1 && 0 <= s2 <= 1 && StandardShape(s, p, s1, s2);
    forall k | 0 <= k < |s|
      ensures IsLetter(s[k]) || IsDigit(s[k]) || IsSeparator(s[k])
    {
      if k < p {
      } else if k < p + s1 {
        assert k == p;
      } else if k < p + s1 + 4 {
      } else if k < p + s1 + 4 + s2 {
        assert k == p + s1 + 4;
      }
    }
  }

  /** A standard number has 9 to 17 characters, so it can never be too short
      or too long. */
  lemma StandardLength(s: string)
    requires StandardInvoiceNumber(s)
    ensures 9 <= |s| <= 17
  {
  }

  /** "INV-2024-0001" is a standard invoice number. */
  lemma DashedNumberIsStandard()
    ensures ValidateInvoiceNumberFormat(Some("INV-2024-0001")) == RuleCheck(true, 1.0, "Invoice number format is standard")
  {
    var s := "INV-2024-0001";
    TrimNoop(s);
    DashedNumberShape();
  }

  /** Three letters, a dash, four digits, a dash and four digits. */
  lemma DashedNumberShape()
    ensures StandardInvoiceNumber("INV-2024-0001")
  {
    var s := "INV-2024-0001";
    assert IsLetter(s[0]) && IsLetter(s[1]) && IsLetter(s[2]) && IsSeparator(s[3]);
    assert IsDigit(s[4]) && IsDigit(s[5]) && IsDigit(s[6]) && IsDigit(s[7]) && IsSeparator(s[8]);
    assert IsDigit(s[9]) && IsDigit(s[10]) && IsDigit(s[11]) && IsDigit(s[12]);
    assert StandardShape(s, 3, 1, 1);
  }

  /** An underscore is not allowed by either pattern. */
  lemma UnderscoreIsUnusual()
    ensures ValidateInvoiceNumberFormat(Some("INV_001")) == RuleCheck(false, 0.60, "Invoice number contains unusual characters")
  {
    var s := "INV_001";
    TrimNoop(s);
    assert !IsLetter(s[3]) && !IsDigit(s[3]) && !IsSeparator(s[3]);
    assert !StandardInvoiceNumber(s) by {
      if StandardInvoiceNumber(s) {
        StandardIsAcceptable(s);
      }
    }
  }

  // ---------------------------------------------------------------------------
  // HSN / rate consistency
  // ---------------------------------------------------------------------------

  datatype HsnCheck = HsnCheck(valid: bool, confidence: real, expectedRate: Option<real>, message: string)

  /** `validateHSNRateConsistency` (validator.ts). The code is trimmed (not
      upper-cased) and looked up with `.single()`. */
  function ValidateHSNRateConsistency(hsn: Option<string>, actualRate: real, table: seq<HsnRow>): (r: HsnCheck)
    ensures hsn.None? || Trim(hsn.value) == [] ==> r == HsnCheck(true, 0.5, None, "No HSN code provided for validation")
    ensures 0.0 <= r.confidence <= 1.0
    ensures r.expectedRate.Some? <==>
              hsn.Some? && Trim(hsn.value) != [] && SingleRow(table, Trim(hsn.value)).Some?
    ensures r.expectedRate.None? ==> r.valid && (r.confidence == 0.5 || r.confidence == 0.6)
    ensures hsn.Some? && Trim(hsn.value) != [] && SingleRow(table, Trim(hsn.value)).None? ==>
              r == HsnCheck(true, 0.6, None, "HSN code " + hsn.value + " not found in database")
    ensures r.expectedRate.Some? ==>
              r.expectedRate.value == SingleRow(table, Trim(hsn.value)).value.gstRate
              && (r.valid <==> Abs(actualRate - r.expectedRate.value) < 0.5)
              && (r.valid ==> r.confidence == 1.0)
              && (!r.valid ==> (r.confidence == 0.70 <==> Abs(actualRate - r.expectedRate.value) <= 5.0))
              && (!r.valid ==> (r.confidence == 0.40 <==> Abs(actualRate - r.expectedRate.value) > 5.0))
  {
    if hsn.None? || Trim(hsn.value) == [] then HsnCheck(true, 0.5, None, "No HSN code provided for validation")
    else
      match SingleRow(table, Trim(hsn.value))
      case None => HsnCheck(true, 0.6, None, "HSN code " + hsn.value + " not found in database")
      case Some(row) =>
        var rateDiff := Abs(actualRate - row.gstRate);
        if rateDiff < 0.5 then HsnCheck(true, 1.0, Some(row.gstRate), "GST rate matches HSN category: " + row.category)
        else if rateDiff <= 5.0 then
          HsnCheck(false, 0.70, Some(row.gstRate), "HSN " + hsn.value + " (" + row.category + ") typically has a different GST rate")
        else HsnCheck(false, 0.40, Some(row.gstRate), "Significant rate mismatch: HSN " + hsn.value)
  }

  /** An inconsistent HSN always comes with the expected rate, so the
      validator's `!valid && expected_rate !== null` test is just `!valid`. */
  lemma InconsistentHsnHasExpectedRate(hsn: Option<string>, actualRate: real, table: seq<HsnRow>)
    ensures !ValidateHSNRateConsistency(hsn, actualRate, table).valid ==>
              ValidateHSNRateConsistency(hsn, actualRate, table).expectedRate.Some?
  {
  }
}

=== FILE: scoring.dfy ===
/** `calculateValidationScore` and `getValidationStatusLabel` (validator.ts):
    the weighted average of the nine rule confidences, the violation penalties
    and the pass/review/fail decision. */
module Scoring {
  import opened Common

  datatype Severity = Critical | Major | Minor

  /** `ValidationViolation`; the free-form expected and actual values are not
      modelled. */
  datatype Violation = Violation(ruleName: string, severity: Severity, fieldName: string, message: string, confidenceImpact: real)

  /** `validation_scores`, one confidence per rule. */
  datatype ValidationScores = ValidationScores(
    gstinFormat: real,
    gstRateValid: real,
    amountCalculation: real,
    taxSplitCorrect: real,
    dateValid: real,
    invoiceNumberFormat: real,
    hsnRateConsistent: real,
    stateCodeValid: real,
    duplicateCheck: real)

  const ZeroScores := ValidationScores(0.0, 0.0, 0.0, 0.0, 0.0, 0.0, 0.0, 0.0, 0.0)

  /** `Object.entries(validationScores)`, in the order the validator creates them. */
  function Entries(s: ValidationScores): (es: seq<(string, real)>)
    ensures |es| == 9
  {
    [("gstin_format", s.gstinFormat), ("gst_rate_valid", s.gstRateValid),
     ("amount_calculation", s.amountCalculation), ("tax_split_correct", s.taxSplitCorrect),
     ("date_valid", s.dateValid), ("invoice_number_format", s.invoiceNumberFormat),
     ("hsn_rate_consistent", s.hsnRateConsistent), ("state_code_valid", s.stateCodeValid),
     ("duplicate_check", s.duplicateCheck)]
  }

  /** `VALIDATION_WEIGHTS[rule] || 0` */
  function Weight(rule: string): real
  {
    if rule == "amount_calculation" then 0.25
    else if rule == "gstin_format" then 0.20
    else if rule == "tax_split_correct" then 0.20
    else if rule == "gst_rate_valid" then 0.10
    else if rule == "date_valid" then 0.08
    else if rule == "hsn_rate_consistent" then 0.07
    else if rule == "duplicate_check" then 0.05
    else if rule == "state_code_valid" then 0.03
    else if rule == "invoice_number_format" then 0.02
    else 0.0
  }

  /** Sum of score times weight over the entries. */
  function WeightedSum(es: seq<(string, real)>): real
  {
    if es == [] then 0.0 else es[0].1 * Weight(es[0].0) + WeightedSum(es[1..])
  }

  /** The weighted score with the nine weights written out. */
  function WeightedScore(s: ValidationScores): real
  {
    0.20 * s.gstinFormat + 0.10 * s.gstRateValid + 0.25 * s.amountCalculation
    + 0.20 * s.taxSplitCorrect + 0.08 * s.dateValid + 0.02 * s.invoiceNumberFormat
    + 0.07 * s.hsnRateConsistent + 0.03 * s.stateCodeValid + 0.05 * s.duplicateCheck
  }

  lemma WeightedSumStep(es: seq<(string, real)>, k: nat)
    requires k < |es|
    ensures WeightedSum(es[k..]) == es[k].1 * Weight(es[k].0) + WeightedSum(es[k + 1..])
  {
    assert es[k..][1..] == es[k + 1..];
  }

  /** Summing over the entries with the weight table gives the weighted score:
      every rule has its weight and no rule falls back to `|| 0`. */
  lemma EntriesWeightedSum(s: ValidationScores)
    ensures WeightedSum(Entries(s)) == WeightedScore(s)
  {
    var es := Entries(s);
    EntryWeights(s);
    assert es[9..] == [];
    WeightedSumStep(es, 8);
    WeightedSumStep(es, 7);
    WeightedSumStep(es, 6);
    WeightedSumStep(es, 5);
    WeightedSumStep(es, 4);
    WeightedSumStep(es, 3);
    WeightedSumStep(es, 2);
    WeightedSumStep(es, 1);
    WeightedSumStep(es, 0);
    assert es[0..] == es;
  }

  /** The weight table's value for each entry's rule. */
  lemma EntryWeights(s: ValidationScores)
    ensures var es := Entries(s);
            && Weight(es[0].0) == 0.20 && Weight(es[1].0) == 0.10 && Weight(es[2].0) == 0.25
            && Weight(es[3].0) == 0.20 && Weight(es[4].0) == 0.08 && Weight(es[5].0) == 0.02
            && Weight(es[6].0) == 0.07 && Weight(es[7].0) == 0.03 && Weight(es[8].0) == 0.05
  {
  }

  predicate InUnitRange(s: ValidationScores)
  {
    && 0.0 <= s.gstinFormat <= 1.0 && 0.0 <= s.gstRateValid <= 1.0 && 0.0 <= s.amountCalculation <= 1.0
    && 0.0 <= s.taxSplitCorrect <= 1.0 && 0.0 <= s.dateValid <= 1.0 && 0.0 <= s.invoiceNumberFormat <= 1.0
    && 0.0 <= s.hsnRateConsistent <= 1.0 && 0.0 <= s.stateCodeValid <= 1.0 && 0.0 <= s.duplicateCheck <= 1.0
  }

  /** The weights add up to one: scores in [0,1] give a weighted score in [0,1],
      and all-perfect scores give exactly 1. */
  lemma WeightedScoreInUnitRange(s: ValidationScores)
    requires InUnitRange(s)
    ensures 0.0 <= WeightedScore(s) <= 1.0
    ensures s == ValidationScores(1.0, 1.0, 1.0, 1.0, 1.0, 1.0, 1.0, 1.0, 1.0) ==> WeightedScore(s) == 1.0
  {
  }

  /** The penalty loop: a critical violation sets the score to 0 and stops;
      a major one takes off 0.15 and a minor one 0.05, never below 0. */
  function Penalized(c: real, vs: seq<Violation>): real
    decreases |vs|
  {
    if vs == [] then c
    else match vs[0].severity
      case Critical => 0.0
      case Major => Penalized(Max(0.0, c - 0.15), vs[1..])
      case Minor => Penalized(Max(0.0, c - 0.05), vs[1..])
  }

  datatype Status = Pass | Review | Fail

  /** Status from the clamped, unrounded score. */
  function StatusOf(c: real): (s: Status)
    ensures s == Pass <==> c >= 0.95
    ensures s == Fail <==> c < 0.80
  {
    if c >= 0.95 then Pass else if c >= 0.80 then Review else Fail
  }

  predicate IsCritical(v: Violation) { v.severity == Critical }

  /** `violations.find(v => v.severity === 'critical')?.message || default` */
  function FailReason(vs: seq<Violation>): (reason: string)
    ensures reason != []
  {
    match Find(vs, IsCritical)
    case Some(v) => if v.message != [] then v.message else "Multiple validation failures detected"
    case None => "Multiple validation failures detected"
  }

  datatype ScoreResult = ScoreResult(overallConfidence: real, status: Status, reason: string)

  /** What `calculateValidationScore` returns. */
  function ValidationScore(scores: ValidationScores, vs: seq<Violation>): ScoreResult
  {
    var c := Clamp01(Penalized(WeightedScore(scores), vs));
    var status := StatusOf(c);
    var reason :=
      match status
      case Pass => "All validations passed with high confidence"
      case Review => if vs != [] then vs[0].message else "Some validations need manual review"
      case Fail => FailReason(vs);
    ScoreResult(Round2(c), status, reason)
  }

  /** `calculateValidationScore`: two loops, the second one leaving at the
      first critical violation. */
  method CalculateValidationScore(scores: ValidationScores, violations: seq<Violation>) returns (r: ScoreResult)
    ensures r == ValidationScore(scores, violations)
  {
    var entries := Entries(scores);
    var overall := 0.0;
    var i := 0;
    while i < |entries|
      invariant 0 <= i <= |entries|
      invariant overall + WeightedSum(entries[i..]) == WeightedSum(entries)
    {
      WeightedSumStep(entries, i);
      overall := overall + entries[i].1 * Weight(entries[i].0);
      i := i + 1;
    }
    EntriesWeightedSum(scores);
    assert entries[i..] == [];
    assert overall == WeightedScore(scores);
    ghost var target := Penalized(WeightedScore(scores), violations);
    var j := 0;
    while j < |violations|
      invariant 0 <= j <= |violations|
      invariant Penalized(overall, violations[j..]) == target
    {
      assert violations[j..][1..] == violations[j + 1..];
      if violations[j].severity == Critical {
        overall := 0.0;
        break;
      } else if violations[j].severity == Major {
        overall := Max(0.0, overall - 0.15);
      } else {
        overall := Max(0.0, overall - 0.05);
      }
      j := j + 1;
    }
    assert overall == target;
    overall := Max(0.0, Min(1.0, overall));
    var status := Fail;
    var reason := "Validation failed";
    if overall >= 0.95 {
      status := Pass;
      reason := "All validations passed with high confidence";
    } else if overall >= 0.80 {
      status := Review;
      reason := if |violations| > 0 then violations[0].message else "Some validations need manual review";
    } else {
      status := Fail;
      reason := FailReason(violations);
    }
    r := ScoreResult(Round2(overall), status, reason);
  }

  /** Penalties never raise the score nor take it below 0. */
  lemma {:induction false} PenalizedBounds(c: real, vs: seq<Violation>)
    requires c >= 0.0
    ensures 0.0 <= Penalized(c, vs) <= c
    decreases |vs|
  {
    if vs != [] && vs[0].severity != Critical {
      var d := if vs[0].severity == Major then 0.15 else 0.05;
      PenalizedBounds(Max(0.0, c - d), vs[1..]);
    }
  }

  /** Any critical violation, wherever it sits in the list, forces 0. */
  lemma {:induction false} CriticalZeroes(c: real, vs: seq<Violation>, k: nat)
    requires k < |vs| && vs[k].severity == Critical
    ensures Penalized(c, vs) == 0.0
    decreases |vs|
  {
    if vs[0].severity != Critical {
      var d := if vs[0].severity == Major then 0.15 else 0.05;
      CriticalZeroes(Max(0.0, c - d), vs[1..], k - 1);
    }
  }

  /** A critical violation yields overall 0 and status fail. */
  lemma CriticalForcesFail(scores: ValidationScores, vs: seq<Violation>, k: nat)
    requires k < |vs| && vs[k].severity == Critical
    ensures ValidationScore(scores, vs).overallConfidence == 0.0
    ensures ValidationScore(scores, vs).status == Fail
  {
    CriticalZeroes(WeightedScore(scores), vs, k);
    Round2OfHundredths(0);
  }

  /** With every rule score in [0,1], a list that starts with a critical or
      major violation keeps the result from passing. */
  lemma MajorOrWorseBlocksPass(scores: ValidationScores, vs: seq<Violation>)
    requires InUnitRange(scores)
    requires vs != [] && vs[0].severity != Minor
    ensures ValidationScore(scores, vs).status != Pass
  {
    var w := WeightedScore(scores);
    WeightedScoreInUnitRange(scores);
    if vs[0].severity == Major {
      PenalizedBounds(Max(0.0, w - 0.15), vs[1..]);
    }
  }

  function CountSeverity(vs: seq<Violation>, sev: Severity): (n: nat)
    ensures n <= |vs|
  {
    if vs == [] then 0 else (if vs[0].severity == sev then 1 else 0) + CountSeverity(vs[1..], sev)
  }

  /** Without critical violations the penalty is 0.15 per major and 0.05 per
      minor violation, floored once at 0. */
  lemma {:induction false} PenaltyClosedForm(c: real, vs: seq<Violation>)
    requires c >= 0.0
    requires forall k :: 0 <= k < |vs| ==> vs[k].severity != Critical
    ensures Penalized(c, vs) == Max(0.0, c - 0.15 * CountSeverity(vs, Major) as real - 0.05 * CountSeverity(vs, Minor) as real)
    decreases |vs|
  {
    if vs != [] {
      var d := if vs[0].severity == Major then 0.15 else 0.05;
      PenaltyClosedForm(Max(0.0, c - d), vs[1..]);
    }
  }

  /** 'pass' means an overall confidence of at least 0.95, 'fail' one of at
      most 0.80, and the overall confidence stays in [0,1]. */
  lemma StatusBounds(scores: ValidationScores, vs: seq<Violation>)
    ensures var r := ValidationScore(scores, vs);
            && 0.0 <= r.overallConfidence <= 1.0
            && (r.status == Pass ==> r.overallConfidence >= 0.95)
            && (r.status == Review ==> 0.80 <= r.overallConfidence <= 1.0)
            && (r.status == Fail ==> r.overallConfidence <= 0.80)
  {
    var c := Clamp01(Penalized(WeightedScore(scores), vs));
    Round2UnitRange(c);
    if c >= 0.95 {
      Round2AtLeast(c, 95);
    } else if c >= 0.80 {
      Round2AtLeast(c, 80);
    } else {
      Round2AtMost(c, 80);
    }
  }

  /** `getValidationStatusLabel` */
  function GetValidationStatusLabel(confidence: real): (text: string)
    ensures confidence >= 0.95 <==> text == "Validated"
    ensures 0.80 <= confidence < 0.95 <==> text == "Needs Review"
    ensures 0.60 <= confidence < 0.80 <==> text == "Issues Found"
    ensures confidence < 0.60 <==> text == "Failed"
  {
    if confidence >= 0.95 then "Validated"
    else if confidence >= 0.80 then "Needs Review"
    else if confidence >= 0.60 then "Issues Found"
    else "Failed"
  }

  /** Every passing result is labelled "Validated". */
  lemma PassIsLabelledValidated(scores: ValidationScores, vs: seq<Violation>)
    requires ValidationScore(scores, vs).status == Pass
    ensures GetValidationStatusLabel(ValidationScore(scores, vs).overallConfidence) == "Validated"
  {
    StatusBounds(scores, vs);
  }

  /** The status is taken before rounding and the label after it: an amount
      within the rounding tolerance (0.95), an invoice 31 to 90 days old (0.90),
      an acceptable invoice number (0.80) and an HSN code missing from the
      table (0.60), all else perfect, weigh 0.9475, which is 'review' but is
      shown as 0.95, "Validated". */
  lemma ReviewCanBeLabelledValidated()
    ensures var s := ValidationScores(1.0, 1.0, 0.95, 1.0, 0.90, 0.80, 0.60, 1.0, 1.0);
            ValidationScore(s, []).status == Review
            && GetValidationStatusLabel(ValidationScore(s, []).overallConfidence) == "Validated"
  {
    var s := ValidationScores(1.0, 1.0, 0.95, 1.0, 0.90, 0.80, 0.60, 1.0, 1.0);
    assert WeightedScore(s) == 0.9475;
    assert (0.9475 * 100.0 + 0.5).Floor == 95;
  }
}

=== FILE: strings.dfy ===
/** The string operations the TypeScript code relies on (`trim`, `toUpperCase`,
    `toLowerCase`, `split(/\s+/)`, `includes`, `startsWith`, number printing),
    restricted to the characters the invoice fields use. */
module Strings {

  /** The characters JavaScript's `\s` and `trim` treat as white space: the
      ASCII ones, no-break space, ogham space mark, the spaces U+2000 to
      U+200A, the line and paragraph separators, narrow no-break space,
      medium mathematical space, ideographic space and the BOM. */
  predicate IsSpace(c: char)
  {
    c == ' ' || c == '\t' || c == '\n' || c == '\r' || c == '\U{000B}' || c == '\U{000C}'
    || c == '\U{00A0}' || c == '\U{1680}' || ('\U{2000}' <= c <= '\U{200A}')
    || c == '\U{2028}' || c == '\U{2029}' || c == '\U{202F}' || c == '\U{205F}'
    || c == '\U{3000}' || c == '\U{FEFF}'
  }

  predicate IsDigit(c: char) { '0' <= c <= '9' }
  predicate IsUpper(c: char) { 'A' <= c <= 'Z' }
  predicate IsLower(c: char) { 'a' <= c <= 'z' }
  predicate IsLetter(c: char) { IsUpper(c) || IsLower(c) }

  /** Number of white-space characters at the start of s. */
  function LeadingSpaces(s: string): (n: nat)
    ensures n <= |s|
    ensures forall i :: 0 <= i < n ==> IsSpace(s[i])
    ensures n == |s| || !IsSpace(s[n])
  {
    if s != [] && IsSpace(s[0]) then 1 + LeadingSpaces(s[1..]) else 0
  }

  /** Number of white-space characters at the end of s. */
  function TrailingSpaces(s: string): (n: nat)
    ensures n <= |s|
    ensures forall i :: |s| - n <= i < |s| ==> IsSpace(s[i])
    ensures n == |s| || !IsSpace(s[|s| - n - 1])
  {
    if s != [] && IsSpace(s[|s| - 1]) then 1 + TrailingSpaces(s[..|s| - 1]) else 0
  }

  function TrimStart(s: string): string
  {
    s[LeadingSpaces(s)..]
  }

  /** `s.trim()` */
  function Trim(s: string): (r: string)
    ensures |r| <= |s|
    ensures r == [] || (!IsSpace(r[0]) && !IsSpace(r[|r| - 1]))
  {
    var t := TrimStart(s);
    t[..|t| - TrailingSpaces(t)]
  }

  /** The trim of s is the part of s between a run of leading and a run of
      trailing white space; with Trim's own contract, that is all of it. */
  lemma TrimIsSlice(s: string)
    ensures exists i, j :: 0 <= i <= j <= |s| && Trim(s) == s[i..j]
                           && (forall k :: 0 <= k < i ==> IsSpace(s[k]))
                           && (forall k :: j <= k < |s| ==> IsSpace(s[k]))
  {
    var i, j := TrimBounds(s);
  }

  lemma TrimBounds(s: string) returns (i: nat, j: nat)
    ensures i <= j <= |s| && Trim(s) == s[i..j]
    ensures forall k :: 0 <= k < i ==> IsSpace(s[k])
    ensures forall k :: j <= k < |s| ==> IsSpace(s[k])
  {
    i := LeadingSpaces(s);
    var t := TrimStart(s);
    j := i + |t| - TrailingSpaces(t);
    assert Trim(s) == s[i..j];
    forall k | j <= k < |s|
      ensures IsSpace(s[k])
    {
      assert s[k] == t[k - i];
    }
  }

  /** A string without white space at either end is its own trim. */
  lemma TrimNoop(s: string)
    requires s != [] && !IsSpace(s[0]) && !IsSpace(s[|s| - 1])
    ensures Trim(s) == s
  {
    assert LeadingSpaces(s) == 0;
    assert TrailingSpaces(s) == 0;
  }

  function UpperChar(c: char): char
  {
    if IsLower(c) then (c as int - 32) as char else c
  }

  function LowerChar(c: char): char
  {
    if IsUpper(c) then (c as int + 32) as char else c
  }

  /** `s.toUpperCase()` on ASCII letters. */
  function ToUpper(s: string): (r: string)
    ensures |r| == |s|
    ensures forall i :: 0 <= i < |s| ==> r[i] == UpperChar(s[i])
  {
    seq(|s|, i requires 0 <= i < |s| => UpperChar(s[i]))
  }

  /** `s.toLowerCase()` on ASCII letters. */
  function ToLower(s: string): (r: string)
    ensures |r| == |s|
    ensures forall i :: 0 <= i < |s| ==> r[i] == LowerChar(s[i])
  {
    seq(|s|, i requires 0 <= i < |s| => LowerChar(s[i]))
  }

  /** `s.replace(/\s/g, '')` */
  function RemoveSpaces(s: string): (r: string)
    ensures |r| <= |s|
    ensures forall i :: 0 <= i < |r| ==> !IsSpace(r[i])
  {
    if s == [] then [] else (if IsSpace(s[0]) then [] else [s[0]]) + RemoveSpaces(s[1..])
  }

  /** Removing white space distributes over concatenation. */
  lemma {:induction false} RemoveSpacesAppend(a: string, b: string)
    ensures RemoveSpaces(a + b) == RemoveSpaces(a) + RemoveSpaces(b)
  {
    if a == [] {
      assert a + b == b;
    } else {
      assert (a + b)[1..] == a[1..] + b;
      RemoveSpacesAppend(a[1..], b);
    }
  }

  /** A single character is dropped exactly when it is white space. */
  lemma RemoveSpacesChar(c: char)
    ensures RemoveSpaces([c]) == if IsSpace(c) then [] else [c]
  {
    assert [c][1..] == [];
  }

  lemma {:induction false} RemoveSpacesOfSpaces(s: string)
    requires forall k :: 0 <= k < |s| ==> IsSpace(s[k])
    ensures RemoveSpaces(s) == []
  {
    if s != [] {
      RemoveSpacesOfSpaces(s[1..]);
    }
  }

  /** Trimming first makes no difference to removing all white space. */
  lemma RemoveSpacesAfterTrim(s: string)
    ensures RemoveSpaces(Trim(s)) == RemoveSpaces(s)
  {
    var i, j := TrimBounds(s);
    var x, m, y := s[..i], s[i..j], s[j..];
    assert s == x + m + y;
    assert forall k :: 0 <= k < |x| ==> x[k] == s[k];
    assert forall k :: 0 <= k < |y| ==> y[k] == s[j + k];
    RemoveSpacesAround(x, m, y);
  }

  lemma RemoveSpacesAround(x: string, m: string, y: string)
    requires forall k :: 0 <= k < |x| ==> IsSpace(x[k])
    requires forall k :: 0 <= k < |y| ==> IsSpace(y[k])
    ensures RemoveSpaces(x + m + y) == RemoveSpaces(m)
  {
    RemoveSpacesAppend(x + m, y);
    RemoveSpacesAppend(x, m);
    RemoveSpacesOfSpaces(x);
    RemoveSpacesOfSpaces(y);
  }

  /** Upper-casing distributes over concatenation. */
  lemma ToUpperAppend(a: string, b: string)
    ensures ToUpper(a + b) == ToUpper(a) + ToUpper(b)
  {
    assert forall k :: 0 <= k < |a + b| ==> ToUpper(a + b)[k] == (ToUpper(a) + ToUpper(b))[k];
  }

  /** Lower-casing distributes over concatenation. */
  lemma ToLowerAppend(a: string, b: string)
    ensures ToLower(a + b) == ToLower(a) + ToLower(b)
  {
    assert forall k :: 0 <= k < |a + b| ==> ToLower(a + b)[k] == (ToLower(a) + ToLower(b))[k];
  }

  predicate StartsWith(s: string, prefix: string)
  {
    |prefix| <= |s| && s[..|prefix|] == prefix
  }

  /** `s.includes(part)` */
  predicate Contains(s: string, part: string)
  {
    StartsWith(s, part) || (s != [] && Contains(s[1..], part))
  }

  /** The maximal runs of non-space characters of s, in order: `s.split(/\s+/)`
      without the empty strings it yields at either end. */
  function Words(s: string): (ws: seq<string>)
    ensures forall w :: w in ws ==> w != [] && forall k :: 0 <= k < |w| ==> !IsSpace(w[k])
    decreases |s|
  {
    var t := TrimStart(s);
    if t == [] then []
    else
      var n := WordLength(t);
      [t[..n]] + Words(t[n..])
  }

  /** Length of the leading run of non-space characters. */
  function WordLength(s: string): (n: nat)
    requires s != [] && !IsSpace(s[0])
    ensures 1 <= n <= |s|
    ensures forall k :: 0 <= k < n ==> !IsSpace(s[k])
    ensures n == |s| || IsSpace(s[n])
  {
    if |s| == 1 || IsSpace(s[1]) then 1 else 1 + WordLength(s[1..])
  }

  /** A string that starts with white space has the words of its rest. */
  lemma WordsSkipSpace(c: char, x: string)
    requires IsSpace(c)
    ensures Words([c] + x) == Words(x)
  {
    assert ([c] + x)[1..] == x;
    assert TrimStart([c] + x) == TrimStart(x);
  }

  /** A string that starts with a word has that word first. */
  lemma WordsAtWord(x: string)
    requires x != [] && !IsSpace(x[0])
    ensures Words(x) == [x[..WordLength(x)]] + Words(x[WordLength(x)..])
  {
    assert LeadingSpaces(x) == 0;
    assert TrimStart(x) == x;
  }

  /** A white-space character separates the words before it from those after it. */
  lemma {:induction false} WordsSplitAtSpace(a: string, c: char, b: string)
    requires IsSpace(c)
    ensures Words(a + [c] + b) == Words(a) + Words(b)
    decreases |a|
  {
    if a == [] {
      assert a + [c] + b == [c] + b;
      WordsSkipSpace(c, b);
      assert Words(a) == [];
    } else if IsSpace(a[0]) {
      var h, t := a[0], a[1..];
      assert a == [h] + t;
      WordsSplitAtSpace(t, c, b);
      SplitAfterSpace(h, t, c, b);
    } else {
      var w, r := LeadingWord(a);
      WordsSplitAtSpace(r, c, b);
      SplitAfterWord(w, r, c, b);
    }
  }

  lemma SplitAfterSpace(h: char, t: string, c: char, b: string)
    requires IsSpace(h)
    requires Words(t + [c] + b) == Words(t) + Words(b)
    ensures Words([h] + t + [c] + b) == Words([h] + t) + Words(b)
  {
    WordsSkipSpace(h, t);
    WordsSkipSpace(h, t + [c] + b);
    GlueAfterSpace(Words, h, t, c, b);
  }

  /** The step of SplitAfterSpace for any function of strings, so that the
      solver need not look inside Words. */
  lemma GlueAfterSpace(f: string -> seq<string>, h: char, t: string, c: char, b: string)
    requires f([h] + t) == f(t)
    requires f([h] + (t + [c] + b)) == f(t + [c] + b)
    requires f(t + [c] + b) == f(t) + f(b)
    ensures f([h] + t + [c] + b) == f([h] + t) + f(b)
  {
    assert [h] + t + [c] + b == [h] + (t + [c] + b);
  }

  /** A string that starts with a non-space character is a word followed by
      nothing or by white space. */
  lemma LeadingWord(a: string) returns (w: string, r: string)
    requires a != [] && !IsSpace(a[0])
    ensures a == w + r && |r| < |a|
    ensures w != [] && forall k :: 0 <= k < |w| ==> !IsSpace(w[k])
    ensures r == [] || IsSpace(r[0])
  {
    var n := WordLength(a);
    w, r := a[..n], a[n..];
    assert a == w + r;
  }

  lemma SplitAfterWord(w: string, r: string, c: char, b: string)
    requires w != [] && forall k :: 0 <= k < |w| ==> !IsSpace(w[k])
    requires r == [] || IsSpace(r[0])
    requires IsSpace(c)
    requires Words(r + [c] + b) == Words(r) + Words(b)
    ensures Words(w + r + [c] + b) == Words(w + r) + Words(b)
  {
    var x := SpaceThen(r, c, b);
    assert w + r + [c] + b == w + x;
    WordThenSpace(w, r);
    WordThenSpace(w, x);
    ConsAssoc(w, Words(r), Words(b));
  }

  lemma SpaceThen(r: string, c: char, b: string) returns (x: string)
    requires r == [] || IsSpace(r[0])
    requires IsSpace(c)
    ensures x == r + [c] + b && IsSpace(x[0])
  {
    x := r + [c] + b;
    assert x[0] == if r == [] then c else r[0];
  }

  /** Stated apart, so that the solver need not look inside the word lists. */
  lemma ConsAssoc<T>(x: T, p: seq<T>, q: seq<T>)
    ensures [x] + (p + q) == ([x] + p) + q
  {
  }

  /** A word followed by white space or by nothing comes first in the words. */
  lemma WordThenSpace(w: string, rest: string)
    requires w != [] && forall k :: 0 <= k < |w| ==> !IsSpace(w[k])
    requires rest == [] || IsSpace(rest[0])
    ensures Words(w + rest) == [w] + Words(rest)
  {
    var s := w + rest;
    WordLengthOfWordThen(w, rest);
    WordsAtWord(s);
    assert s[..|w|] == w;
    assert s[|w|..] == rest;
  }

  lemma {:induction false} WordLengthOfWordThen(w: string, rest: string)
    requires w != [] && forall k :: 0 <= k < |w| ==> !IsSpace(w[k])
    requires rest == [] || IsSpace(rest[0])
    ensures WordLength(w + rest) == |w|
  {
    if |w| > 1 {
      assert (w + rest)[1..] == w[1..] + rest;
      WordLengthOfWordThen(w[1..], rest);
    }
  }

  /** A non-empty string without white space is a single word. */
  lemma WordsOfWord(w: string)
    requires w != [] && forall k :: 0 <= k < |w| ==> !IsSpace(w[k])
    ensures Words(w) == [w]
  {
    WordThenSpace(w, []);
    assert w + [] == w;
    assert TrimStart([]) == [];
  }

  /** A string of white space only has no words. */
  lemma WordsOfSpaces(s: string)
    requires forall k :: 0 <= k < |s| ==> IsSpace(s[k])
    ensures Words(s) == []
  {
    assert LeadingSpaces(s) == |s|;
  }

  /** `parts.join(sep)` */
  function Join(parts: seq<string>, sep: string): string
  {
    if parts == [] then "" else if |parts| == 1 then parts[0] else parts[0] + sep + Join(parts[1..], sep)
  }

  lemma JoinStartsWithFirst(parts: seq<string>, sep: string)
    requires parts != []
    ensures StartsWith(Join(parts, sep), parts[0])
  {
    if |parts| > 1 {
      var rest := sep + Join(parts[1..], sep);
      assert Join(parts, sep) == parts[0] + rest;
      assert (parts[0] + rest)[..|parts[0]|] == parts[0];
    }
  }

  function DigitChar(d: nat): char
    requires d < 10
  {
    "0123456789"[d]
  }

  /** Decimal notation of a natural number, as `String(n)` prints it. */
  function NatToString(n: nat): (r: string)
    ensures r != []
    ensures forall k :: 0 <= k < |r| ==> IsDigit(r[k])
    decreases n
  {
    if n < 10 then [DigitChar(n)] else NatToString(n / 10) + [DigitChar(n % 10)]
  }

  /** Decimal notation of an integer, with a leading '-' when negative. */
  function IntToString(i: int): (r: string)
    ensures r != []
  {
    if i < 0 then "-" + NatToString(-i) else NatToString(i)
  }
}

=== FILE: validate_route.dfy ===
/** The `POST` handler of the `/api/ai/validate` route
    (app/api/ai/validate/route.ts): its request guards, the confidence
    records it stores, the new invoice status and the review notes. The
    records, status and notes it writes to the database are returned
    instead. */
module ValidateRoute {
  import opened Common
  import opened Strings
  import opened HsnTable
  import opened Rules
  import opened Duplicates
  import opened Scoring
  import opened Validator

  /** The invoice row the route fetches: its client's user, its client, its
      stored status and the number of keys of `extracted_data` (None when it
      is null). `row` is the same row as the validator reads it. */
  datatype RouteInvoice = RouteInvoice(ownerId: Option<string>, clientId: string, status: string,
                                       extractedKeys: Option<nat>, row: InvoiceRow)

  /** The checks made before `validateGSTInvoice` runs, in their order. */
  function ValidateRequestGuard(invoiceId: Option<string>, userId: Option<string>, invoice: Option<RouteInvoice>)
    : (g: Guard)
    ensures g.Proceed? <==>
              && Truthy(invoiceId) && Truthy(userId) && invoice.Some? && invoice.value.ownerId == userId
              && invoice.value.extractedKeys.Some? && invoice.value.extractedKeys.value > 0
    ensures !Truthy(invoiceId) || !Truthy(userId) ==> g.Refuse? && g.httpStatus == 400
    ensures Truthy(invoiceId) && Truthy(userId) && invoice.None? ==> g == Refuse(404, "Invoice not found")
    ensures Truthy(invoiceId) && Truthy(userId) && invoice.Some? && invoice.value.ownerId != userId ==>
              g == Refuse(403, "Unauthorized access to invoice")
    ensures Truthy(invoiceId) && Truthy(userId) && invoice.Some? && invoice.value.ownerId == userId
            && (invoice.value.extractedKeys.None? || invoice.value.extractedKeys.value == 0) ==>
              g == Refuse(400, "Invoice has not been extracted yet. Please run extraction first.")
  {
    if !Truthy(invoiceId) then Refuse(400, "Invoice ID is required")
    else if !Truthy(userId) then Refuse(400, "User ID is required")
    else if invoice.None? then Refuse(404, "Invoice not found")
    else if invoice.value.ownerId != userId then Refuse(403, "Unauthorized access to invoice")
    else if invoice.value.extractedKeys.None? || invoice.value.extractedKeys.value == 0 then
      Refuse(400, "Invoice has not been extracted yet. Please run extraction first.")
    else Proceed
  }

  // ---------------------------------------------------------------------
  // Confidence records
  // ---------------------------------------------------------------------

  /** One `extraction_confidence` row; `extracted_value` and
      `validated_value` are always null and are not modelled. */
  datatype ConfidenceRecord = ConfidenceRecord(invoiceId: string, fieldName: string, confidenceScore: real,
                                               isCorrected: bool, correctionSource: string)

  function RecordFor(invoiceId: string, entry: (string, real)): ConfidenceRecord
  {
    ConfidenceRecord(invoiceId, entry.0, entry.1, false, "auto_validation")
  }

  /** The rows stored for one validation, one per rule score. */
  function ConfidenceRecords(invoiceId: string, scores: ValidationScores): (rs: seq<ConfidenceRecord>)
    ensures |rs| == |Entries(scores)|
    ensures forall i :: 0 <= i < |rs| ==>
              rs[i].fieldName == Entries(scores)[i].0 && rs[i].confidenceScore == Entries(scores)[i].1
  {
    seq(|Entries(scores)|, i requires 0 <= i < |Entries(scores)| => RecordFor(invoiceId, Entries(scores)[i]))
  }

  /** Nine rows, one per rule and none twice, all marked as uncorrected
      automatic validation, with scores in [0,1] when the rule confidences
      are. */
  lemma ConfidenceRecordsShape(invoiceId: string, scores: ValidationScores)
    ensures var rs := ConfidenceRecords(invoiceId, scores);
            && |rs| == 9
            && (forall i :: 0 <= i < |rs| ==>
                  rs[i].invoiceId == invoiceId && !rs[i].isCorrected && rs[i].correctionSource == "auto_validation")
            && (forall i, j :: 0 <= i < j < |rs| ==> rs[i].fieldName != rs[j].fieldName)
            && (InUnitRange(scores) ==> forall i :: 0 <= i < |rs| ==> 0.0 <= rs[i].confidenceScore <= 1.0)
  {
    var es := Entries(scores);
    var rs := ConfidenceRecords(invoiceId, scores);
    forall i, j | 0 <= i < j < |rs| ensures rs[i].fieldName != rs[j].fieldName {
      assert rs[i].fieldName == es[i].0 && rs[j].fieldName == es[j].0;
      EntryNamesDistinct(scores, i, j);
    }
  }

  /** The nine rule names differ from one another, in length already. */
  lemma EntryNamesDistinct(scores: ValidationScores, i: nat, j: nat)
    requires i < j < 9
    ensures Entries(scores)[i].0 != Entries(scores)[j].0
  {
    var es := Entries(scores);
    assert |es[i].0| != |es[j].0|;
  }

  /** The `for` loop over `Object.entries(validation_scores)`. */
  method BuildConfidenceRecords(invoiceId: string, scores: ValidationScores) returns (records: seq<ConfidenceRecord>)
    ensures records == ConfidenceRecords(invoiceId, scores)
  {
    var entries := Entries(scores);
    records := [];
    for i := 0 to |entries|
      invariant records == ConfidenceRecords(invoiceId, scores)[..i]
    {
      var (ruleName, score) := entries[i];
      records := records + [ConfidenceRecord(invoiceId, ruleName, score, false, "auto_validation")];
    }
  }

  // ---------------------------------------------------------------------
  // New status
  // ---------------------------------------------------------------------

  /** `newStatus`; the invoice's earlier status is overwritten on every
      branch. */
  function NewStatus(result: ValidationResult): (status: string)
    ensures status == "approved" <==> result.status == Pass && result.overallConfidence >= 0.95
    ensures status == "review" <==>
              !(result.status == Pass && result.overallConfidence >= 0.95)
              && (result.status == Review || result.overallConfidence >= 0.80)
    ensures status == "pending" <==>
              !(result.status == Pass && result.overallConfidence >= 0.95)
              && !(result.status == Review || result.overallConfidence >= 0.80)
  {
    if result.status == Pass && result.overallConfidence >= 0.95 then "approved"
    else if result.status == Review || result.overallConfidence >= 0.80 then "review"
    else "pending"
  }

  /** Since 'pass' needs a score of at least 0.95, a passing validation always
      approves the invoice; a 'review' one always sends it to review, and a
      failing one is never approved. */
  lemma ValidationDecidesStatus(invoiceId: string, clientId: string, invoice: Option<InvoiceRow>, table: seq<HsnRow>,
                                history: Option<seq<StoredInvoice>>, cal: Calendar)
    ensures var r := ValidateInvoice(invoiceId, clientId, invoice, table, history, cal);
            && (r.status == Pass ==> NewStatus(r) == "approved")
            && (r.status == Review ==> NewStatus(r) == "review")
            && (r.status == Fail ==> NewStatus(r) != "approved")
  {
    if invoice.Some? {
      var c := ChecksOf(invoiceId, clientId, invoice.value, table, history, cal);
      StatusBounds(ScoresOf(c), ViolationsOf(c));
    }
  }

  // ---------------------------------------------------------------------
  // Review notes
  // ---------------------------------------------------------------------

  /** Entries numbered from n on, one line each. */
  function Numbered<T>(xs: seq<T>, n: nat, line: (nat, T) -> string): string
  {
    if xs == [] then "" else line(n, xs[0]) + Numbered(xs[1..], n + 1, line)
  }

  /** Numbering carries on across a split. */
  lemma {:induction false} NumberedAppend<T>(a: seq<T>, b: seq<T>, n: nat, line: (nat, T) -> string)
    ensures Numbered(a + b, n, line) == Numbered(a, n, line) + Numbered(b, n + |a|, line)
  {
    if a == [] {
      assert a + b == b;
    } else {
      assert (a + b)[1..] == a[1..] + b;
      NumberedAppend(a[1..], b, n + 1, line);
    }
  }

  /** The entry at position k is on the line numbered n + k. */
  lemma NumberedAt<T>(xs: seq<T>, n: nat, line: (nat, T) -> string, k: nat)
    requires k < |xs|
    ensures Numbered(xs, n, line) == Numbered(xs[..k], n, line) + line(n + k, xs[k]) + Numbered(xs[k + 1..], n + k + 1, line)
  {
    assert xs == xs[..k] + xs[k..];
    NumberedAppend(xs[..k], xs[k..], n, line);
    assert xs[k..][1..] == xs[k + 1..];
  }

  /** `v.severity.toUpperCase()` */
  function SeverityTag(s: Severity): string
  {
    match s
    case Critical => "CRITICAL"
    case Major => "MAJOR"
    case Minor => "MINOR"
  }

  function ViolationLine(n: nat, v: Violation): string
  {
    NatToString(n) + ". [" + SeverityTag(v.severity) + "] " + v.message + "\n"
  }

  function WarningLine(n: nat, w: Warning): string
  {
    NatToString(n) + ". " + w.message + "\n"
  }

  /** A header and its numbered lines, only when there are entries. */
  function Section<T>(header: string, xs: seq<T>, line: (nat, T) -> string): string
  {
    if xs != [] then header + Numbered(xs, 1, line) else ""
  }

  function ViolationsSection(violations: seq<Violation>): string
  {
    Section("\n\nViolations:\n", violations, ViolationLine)
  }

  function WarningsSection(warnings: seq<Warning>): string
  {
    Section("\n\nWarnings:\n", warnings, WarningLine)
  }

  /** The review notes: the reason, then the two sections. */
  function ReviewNotes(reason: string, violations: seq<Violation>, warnings: seq<Warning>): string
  {
    reason + ViolationsSection(violations) + WarningsSection(warnings)
  }

  /** The notes begin with the reason, and are only the reason when there is
      nothing to list. */
  lemma ReviewNotesStartWithReason(reason: string, violations: seq<Violation>, warnings: seq<Warning>)
    ensures var notes := ReviewNotes(reason, violations, warnings);
            && |reason| <= |notes| && notes[..|reason|] == reason
            && (violations == [] && warnings == [] ==> notes == reason)
  {
    var notes := ReviewNotes(reason, violations, warnings);
    assert notes == reason + (ViolationsSection(violations) + WarningsSection(warnings));
  }

  /** Violation k is listed on the line numbered k + 1 (its severity in
      capitals, see `ViolationLine`), after the header and the k lines
      before it. */
  lemma ReviewNotesListViolation(reason: string, violations: seq<Violation>, warnings: seq<Warning>, k: nat)
    requires k < |violations|
    ensures ReviewNotes(reason, violations, warnings)
            == reason + ("\n\nViolations:\n" + Numbered(violations, 1, ViolationLine)) + WarningsSection(warnings)
    ensures Numbered(violations, 1, ViolationLine)
            == Numbered(violations[..k], 1, ViolationLine) + ViolationLine(k + 1, violations[k])
               + Numbered(violations[k + 1..], k + 2, ViolationLine)
  {
    NumberedAt(violations, 1, ViolationLine, k);
  }

  /** Warning k is listed on the line numbered k + 1, after the header and
      the k lines before it, with the warnings section last. */
  lemma ReviewNotesListWarning(reason: string, violations: seq<Violation>, warnings: seq<Warning>, k: nat)
    requires k < |warnings|
    ensures ReviewNotes(reason, violations, warnings)
            == reason + ViolationsSection(violations) + ("\n\nWarnings:\n" + Numbered(warnings, 1, WarningLine))
    ensures Numbered(warnings, 1, WarningLine)
            == Numbered(warnings[..k], 1, WarningLine) + WarningLine(k + 1, warnings[k])
               + Numbered(warnings[k + 1..], k + 2, WarningLine)
  {
    NumberedAt(warnings, 1, WarningLine, k);
  }

  /** One `forEach`: the header, then one numbered line per entry. */
  method AppendSection<T>(notes: string, header: string, xs: seq<T>, line: (nat, T) -> string) returns (notes': string)
    ensures notes' == notes + Section(header, xs, line)
  {
    notes' := notes;
    if |xs| > 0 {
      notes' := notes' + header;
      for i := 0 to |xs|
        invariant notes' == notes + header + Numbered(xs[..i], 1, line)
      {
        NumberedAppend(xs[..i], [xs[i]], 1, line);
        assert xs[..i + 1] == xs[..i] + [xs[i]];
        notes' := notes' + line(i + 1, xs[i]);
      }
      assert xs[..|xs|] == xs;
    }
  }

  /** The review notes as the route builds them, by appending. */
  method BuildReviewNotes(reason: string, violations: seq<Violation>, warnings: seq<Warning>) returns (notes: string)
    ensures notes == ReviewNotes(reason, violations, warnings)
  {
    notes := reason;
    notes := AppendSection(notes, "\n\nViolations:\n", violations, ViolationLine);
    notes := AppendSection(notes, "\n\nWarnings:\n", warnings, WarningLine);
  }

  // ---------------------------------------------------------------------
  // The handler
  // ---------------------------------------------------------------------

  /** What `POST` answers, together with what it writes. */
  datatype ValidateResponse =
    | ValidateRefused(httpStatus: int, error: string)
    | Validated(validation: ValidationResult, records: seq<ConfidenceRecord>, updatedStatus: string,
                reviewNotes: string, autoApproved: bool, needsReview: bool)

  /** `updateFails` says whether the invoice update returned an error; a
      failed insert of the confidence records is ignored, as in the route. */
  function HandleValidate(invoiceId: Option<string>, userId: Option<string>, invoice: Option<RouteInvoice>,
                          table: seq<HsnRow>, history: Option<seq<StoredInvoice>>, cal: Calendar, updateFails: bool)
    : (resp: ValidateResponse)
    ensures ValidateRequestGuard(invoiceId, userId, invoice).Refuse? ==> resp.ValidateRefused?
    ensures ValidateRequestGuard(invoiceId, userId, invoice).Proceed? && updateFails ==>
              resp == ValidateRefused(500, "Failed to save validation results")
    ensures resp.Validated? ==>
              && resp.validation == ValidateInvoice(invoiceId.value, invoice.value.clientId, Some(invoice.value.row),
                                                    table, history, cal)
              && resp.records == ConfidenceRecords(invoiceId.value, resp.validation.scores)
              && resp.updatedStatus == NewStatus(resp.validation)
              && resp.reviewNotes == ReviewNotes(resp.validation.reason, resp.validation.violations,
                                                 resp.validation.warnings)
              && (resp.autoApproved <==> resp.updatedStatus == "approved")
              && (resp.needsReview <==> resp.updatedStatus == "review")
  {
    match ValidateRequestGuard(invoiceId, userId, invoice)
    case Refuse(status, error) => ValidateRefused(status, error)
    case Proceed =>
      var r := ValidateInvoice(invoiceId.value, invoice.value.clientId, Some(invoice.value.row), table, history, cal);
      var newStatus := NewStatus(r);
      if updateFails then ValidateRefused(500, "Failed to save validation results")
      else Validated(r, ConfidenceRecords(invoiceId.value, r.scores), newStatus,
                     ReviewNotes(r.reason, r.violations, r.warnings), newStatus == "approved", newStatus == "review")
  }

  /** The handler step by step. */
  method ValidatePost(invoiceId: Option<string>, userId: Option<string>, invoice: Option<RouteInvoice>,
                      table: seq<HsnRow>, history: Option<seq<StoredInvoice>>, cal: Calendar, updateFails: bool)
    returns (resp: ValidateResponse)
    ensures resp == HandleValidate(invoiceId, userId, invoice, table, history, cal, updateFails)
  {
    var guard := ValidateRequestGuard(invoiceId, userId, invoice);
    if guard.Refuse? {
      return ValidateRefused(guard.httpStatus, guard.error);
    }
    var id := invoiceId.value;
    var result := ValidateGSTInvoice(id, invoice.value.clientId, Some(invoice.value.row), table, history, cal);
    var records := BuildConfidenceRecords(id, result.scores);
    var newStatus := NewStatus(result);
    var notes := BuildReviewNotes(result.reason, result.violations, result.warnings);
    if updateFails {
      return ValidateRefused(500, "Failed to save validation results");
    }
    resp := Validated(result, records, newStatus, notes, newStatus == "approved", newStatus == "review");
  }

  /** A request that gets through and whose invoice passes validation
      approves the invoice. */
  lemma PassingRequestAutoApproves(invoiceId: Option<string>, userId: Option<string>, invoice: Option<RouteInvoice>,
                                   table: seq<HsnRow>, history: Option<seq<StoredInvoice>>, cal: Calendar)
    requires HandleValidate(invoiceId, userId, invoice, table, history, cal, false).Validated?
    ensures var resp := HandleValidate(invoiceId, userId, invoice, table, history, cal, false);
            (resp.validation.status == Pass ==> resp.autoApproved && !resp.needsReview)
            && |resp.records| == 9
  {
    ValidationDecidesStatus(invoiceId.value, invoice.value.clientId, Some(invoice.value.row), table, history, cal);
  }
}

=== FILE: validator.dfy ===
/** `validateGSTInvoice` (validator.ts): the nine rule checks on one invoice,
    the violations and warnings they raise, and the overall score. The invoice
    row, the HSN table, the client's earlier invoices and the calendar are
    parameters instead of database reads and the wall clock. */
module Validator {
  import opened Common
  import opened Strings
  import opened HsnTable
  import opened Gstin
  import opened Rules
  import opened Duplicates
  import opened Scoring

  /** The stored `extracted_data` object, as far as the validator reads it. */
  datatype ExtractedFields = ExtractedFields(
    invoiceNumber: Option<string>,
    invoiceDate: Option<CalendarDate>,
    vendorGstin: Option<string>,
    totalAmount: Option<real>,
    gstAmount: Option<real>,
    cgstAmount: Option<real>,
    sgstAmount: Option<real>,
    igstAmount: Option<real>,
    taxableAmount: Option<real>,
    taxableValue: Option<real>,
    hsnCode: Option<string>)

  const NoExtractedFields := ExtractedFields(None, None, None, None, None, None, None, None, None, None, None)

  /** The invoice row joined with its client's GSTIN. A missing or empty date
      is None. */
  datatype InvoiceRow = InvoiceRow(
    invoiceNumber: Option<string>,
    invoiceDate: Option<CalendarDate>,
    vendorGstin: Option<string>,
    totalAmount: Option<real>,
    gstAmount: Option<real>,
    hsnCode: Option<string>,
    extractedData: Option<ExtractedFields>,
    clientGstin: Option<string>)

  /** `a || b` on text: an empty string is falsy. */
  function TextOr(a: Option<string>, b: Option<string>): Option<string>
  {
    if a.Some? && a.value != "" then a else b
  }

  function DateOr(a: Option<CalendarDate>, b: Option<CalendarDate>): Option<CalendarDate>
  {
    if a.Some? then a else b
  }

  /** `a || b` on amounts: 0 is falsy. */
  function AmountOr(a: Option<real>, b: real): real
  {
    if a.Some? && a.value != 0.0 then a.value else b
  }

  /** The values the rules look at, each taken from the row or else from the
      extracted data. */
  datatype Fields = Fields(
    invoiceNumber: Option<string>,
    invoiceDate: Option<CalendarDate>,
    vendorGstin: Option<string>,
    totalAmount: real,
    gstAmount: real,
    cgstAmount: real,
    sgstAmount: real,
    igstAmount: real,
    taxableAmount: real,
    hsnCode: Option<string>,
    gstRate: real,
    clientGstin: string)

  function Resolve(row: InvoiceRow): (f: Fields)
    ensures f.taxableAmount > 0.0 ==> f.gstRate == f.gstAmount / f.taxableAmount * 100.0
    ensures f.taxableAmount <= 0.0 ==> f.gstRate == 0.0
  {
    var ext := if row.extractedData.Some? then row.extractedData.value else NoExtractedFields;
    var total := AmountOr(row.totalAmount, AmountOr(ext.totalAmount, 0.0));
    var gst := AmountOr(row.gstAmount, AmountOr(ext.gstAmount, 0.0));
    var taxable := AmountOr(ext.taxableAmount, AmountOr(ext.taxableValue, total - gst));
    Fields(
      TextOr(row.invoiceNumber, ext.invoiceNumber),
      DateOr(row.invoiceDate, ext.invoiceDate),
      TextOr(row.vendorGstin, ext.vendorGstin),
      total, gst,
      AmountOr(ext.cgstAmount, 0.0), AmountOr(ext.sgstAmount, 0.0), AmountOr(ext.igstAmount, 0.0),
      taxable,
      TextOr(row.hsnCode, ext.hsnCode),
      if taxable > 0.0 then gst / taxable * 100.0 else 0.0,
      if row.clientGstin.Some? then row.clientGstin.value else "")
  }

  /** `s.substring(0, 2)` */
  function FirstTwo(s: string): string
  {
    if |s| >= 2 then s[..2] else s
  }

  /** The outcome of every rule for one invoice. */
  datatype Checks = Checks(
    gstin: FormatCheck,
    state: RuleCheck,
    rate: RuleCheck,
    amount: AmountCheck,
    split: TaxSplitCheck,
    date: DateCheck,
    number: RuleCheck,
    hsn: HsnCheck,
    duplicate: DuplicateResult)

  function RunChecks(invoiceId: string, clientId: string, f: Fields, table: seq<HsnRow>,
                     history: Option<seq<StoredInvoice>>, cal: Calendar): Checks
  {
    var gstin := ValidateGSTINFormat(f.vendorGstin);
    Checks(
      gstin,
      ValidateStateCode(gstin.stateCode),
      ValidateGSTRate(Some(f.gstRate)),
      ValidateAmountCalculation(f.totalAmount, f.taxableAmount, f.cgstAmount, f.sgstAmount, f.igstAmount),
      ValidateTaxSplit(gstin.stateCode, FirstTwo(f.clientGstin), f.taxableAmount, f.gstRate,
                       f.cgstAmount, f.sgstAmount, f.igstAmount),
      ValidateInvoiceDate(f.invoiceDate, cal),
      ValidateInvoiceNumberFormat(f.invoiceNumber),
      ValidateHSNRateConsistency(f.hsnCode, f.gstRate, table),
      CheckDuplicateInvoice(history, DuplicateQuery(clientId, f.invoiceNumber, f.vendorGstin, f.invoiceDate,
                                                    f.totalAmount, invoiceId)))
  }

  function ScoresOf(c: Checks): ValidationScores
  {
    ValidationScores(c.gstin.confidence, c.rate.confidence, c.amount.confidence, c.split.confidence,
                     c.date.confidence, c.number.confidence, c.hsn.confidence, c.state.confidence,
                     c.duplicate.confidence)
  }

  /** A warning; `suggestedValue` is the expected GST rate (shown with a
      percent sign) for an HSN mismatch. */
  datatype Warning = Warning(ruleName: string, fieldName: string, message: string, suggestedValue: Option<real>)

  // One function per rule: the violation it raises, if any.

  function GstinViolations(gstin: FormatCheck): seq<Violation>
  {
    if !gstin.valid then [Violation("GSTIN_FORMAT", Critical, "vendor_gstin", gstin.message, 0.20)] else []
  }

  function StateViolations(state: RuleCheck): seq<Violation>
  {
    if !state.valid then [Violation("STATE_CODE_INVALID", Major, "vendor_gstin", state.message, 0.03)] else []
  }

  function RateViolations(rate: RuleCheck): seq<Violation>
  {
    if !rate.valid then [Violation("GST_RATE_INVALID", Major, "gst_rate", rate.message, 0.10)] else []
  }

  function AmountViolations(amount: AmountCheck): seq<Violation>
  {
    if !amount.valid then [Violation("AMOUNT_MISMATCH", Critical, "total_amount", amount.message, 0.25)] else []
  }

  function SplitViolations(split: TaxSplitCheck): seq<Violation>
  {
    if !split.valid then
      [Violation("TAX_SPLIT_INCORRECT", Critical, if split.isInterState then "igst_amount" else "cgst_sgst_amount",
                 split.message, 0.20)]
    else []
  }

  function DateViolations(date: DateCheck): seq<Violation>
  {
    if !date.valid then
      [Violation("DATE_INVALID", if date.confidence == 0.0 then Critical else Major, "invoice_date",
                 date.message, if date.confidence == 0.0 then 0.08 else 0.04)]
    else []
  }

  function DuplicateViolations(duplicate: DuplicateResult): seq<Violation>
  {
    if duplicate.isDuplicate then
      [Violation("DUPLICATE_INVOICE", if duplicate.matchType == Exact then Critical else Major, "invoice_number",
                 duplicate.reason, if duplicate.matchType == Exact then 0.05 else 0.03)]
    else []
  }

  /** The violations in the order the rules run. */
  function ViolationsOf(c: Checks): seq<Violation>
  {
    GstinViolations(c.gstin) + StateViolations(c.state) + RateViolations(c.rate) + AmountViolations(c.amount)
    + SplitViolations(c.split) + DateViolations(c.date) + DuplicateViolations(c.duplicate)
  }

  function GstinWarnings(gstin: FormatCheck): seq<Warning>
  {
    if gstin.valid && gstin.confidence < 1.0 then [Warning("GSTIN_CHECKSUM", "vendor_gstin", gstin.message, None)] else []
  }

  function AmountWarnings(amount: AmountCheck): seq<Warning>
  {
    if amount.valid && amount.difference > 0.0 && amount.difference <= 1.0 then
      [Warning("AMOUNT_ROUNDING", "total_amount", "Minor rounding difference", None)]
    else []
  }

  function DateWarnings(date: DateCheck): seq<Warning>
  {
    if date.valid && date.daysOld > 90 then
      [Warning("DATE_OLD", "invoice_date", "Invoice is " + NatToString(date.daysOld) + " days old", None)]
    else []
  }

  function NumberWarnings(number: RuleCheck): seq<Warning>
  {
    if !number.valid then [Warning("INVOICE_NUMBER_FORMAT", "invoice_number", number.message, None)] else []
  }

  function HsnWarnings(hsn: HsnCheck): seq<Warning>
  {
    if !hsn.valid && hsn.expectedRate.Some? then
      [Warning("HSN_RATE_MISMATCH", "hsn_code", hsn.message, hsn.expectedRate)]
    else []
  }

  function DuplicateWarnings(duplicate: DuplicateResult): seq<Warning>
  {
    if !duplicate.isDuplicate && duplicate.potentialDuplicates != [] then
      [Warning("POTENTIAL_DUPLICATE", "invoice_number", duplicate.reason, None)]
    else []
  }

  /** The warnings in the order the rules run. */
  function WarningsOf(c: Checks): seq<Warning>
  {
    GstinWarnings(c.gstin) + AmountWarnings(c.amount) + DateWarnings(c.date) + NumberWarnings(c.number) + HsnWarnings(c.hsn) + DuplicateWarnings(c.duplicate)
  }

  /** `ValidationResult`; `corrections` is always empty and is not modelled. */
  datatype ValidationResult = ValidationResult(
    invoiceId: string,
    isValid: bool,
    overallConfidence: real,
    scores: ValidationScores,
    violations: seq<Violation>,
    warnings: seq<Warning>,
    duplicateInfo: Option<DuplicateResult>,
    status: Status,
    reason: string)

  /** The result of the `catch` block; the only error that reaches it is the
      failed invoice lookup. */
  function ErrorResult(invoiceId: string, message: string): ValidationResult
  {
    ValidationResult(invoiceId, false, 0.0, ZeroScores,
                     [Violation("VALIDATION_ERROR", Critical, "system", "Validation failed: " + message, 1.0)],
                     [], None, Fail, "Validation error: " + message)
  }

  /** The result for an invoice that was found, from its rule outcomes. */
  function ResultOf(invoiceId: string, c: Checks): (r: ValidationResult)
    ensures r.violations == ViolationsOf(c) && r.warnings == WarningsOf(c) && r.scores == ScoresOf(c)
  {
    var violations := ViolationsOf(c);
    var score := ValidationScore(ScoresOf(c), violations);
    ValidationResult(invoiceId, score.status == Pass, score.overallConfidence, ScoresOf(c), violations,
                     WarningsOf(c), Some(c.duplicate), score.status, score.reason)
  }

  /** The checks of an invoice that was found. */
  function ChecksOf(invoiceId: string, clientId: string, row: InvoiceRow, table: seq<HsnRow>,
                    history: Option<seq<StoredInvoice>>, cal: Calendar): Checks
  {
    RunChecks(invoiceId, clientId, Resolve(row), table, history, cal)
  }

  /** What `validateGSTInvoice` returns. `invoice` is None when the lookup by
      id and client finds no single row. */
  function ValidateInvoice(invoiceId: string, clientId: string, invoice: Option<InvoiceRow>, table: seq<HsnRow>,
                           history: Option<seq<StoredInvoice>>, cal: Calendar): (r: ValidationResult)
    ensures r.isValid <==> r.status == Pass
    ensures r.invoiceId == invoiceId
    ensures invoice.None? ==>
              && r.status == Fail && r.overallConfidence == 0.0 && r.scores == ZeroScores
              && |r.violations| == 1 && r.violations[0].ruleName == "VALIDATION_ERROR"
              && r.violations[0].severity == Critical && r.warnings == [] && r.duplicateInfo.None?
    ensures invoice.Some? ==> r == ResultOf(invoiceId, ChecksOf(invoiceId, clientId, invoice.value, table, history, cal))
  {
    if invoice.None? then ErrorResult(invoiceId, "Invoice not found")
    else ResultOf(invoiceId, ChecksOf(invoiceId, clientId, invoice.value, table, history, cal))
  }

  // Each rule block of `validateGSTInvoice` pushes at most one violation and
  // one warning; one method per block.

  /** The first block starts the two lists. */
  method RecordGstin(gstin: FormatCheck) returns (violations: seq<Violation>, warnings: seq<Warning>)
    ensures violations == GstinViolations(gstin) && warnings == GstinWarnings(gstin)
  {
    violations, warnings := [], [];
    if !gstin.valid {
      violations := violations + [Violation("GSTIN_FORMAT", Critical, "vendor_gstin", gstin.message, 0.20)];
    } else if gstin.confidence < 1.0 {
      warnings := warnings + [Warning("GSTIN_CHECKSUM", "vendor_gstin", gstin.message, None)];
    }
  }

  method RecordState(violations: seq<Violation>, state: RuleCheck) returns (violations': seq<Violation>)
    ensures violations' == violations + StateViolations(state)
  {
    violations' := violations;
    if !state.valid {
      violations' := violations' + [Violation("STATE_CODE_INVALID", Major, "vendor_gstin", state.message, 0.03)];
    }
  }

  method RecordRate(violations: seq<Violation>, rate: RuleCheck) returns (violations': seq<Violation>)
    ensures violations' == violations + RateViolations(rate)
  {
    violations' := violations;
    if !rate.valid {
      violations' := violations' + [Violation("GST_RATE_INVALID", Major, "gst_rate", rate.message, 0.10)];
    }
  }

  method RecordAmount(violations: seq<Violation>, warnings: seq<Warning>, amount: AmountCheck)
    returns (violations': seq<Violation>, warnings': seq<Warning>)
    ensures violations' == violations + AmountViolations(amount) && warnings' == warnings + AmountWarnings(amount)
  {
    violations', warnings' := violations, warnings;
    if !amount.valid {
      violations' := violations' + [Violation("AMOUNT_MISMATCH", Critical, "total_amount", amount.message, 0.25)];
    } else if amount.difference > 0.0 && amount.difference <= 1.0 {
      warnings' := warnings' + [Warning("AMOUNT_ROUNDING", "total_amount", "Minor rounding difference", None)];
    }
  }

  method RecordSplit(violations: seq<Violation>, split: TaxSplitCheck) returns (violations': seq<Violation>)
    ensures violations' == violations + SplitViolations(split)
  {
    violations' := violations;
    if !split.valid {
      var field := if split.isInterState then "igst_amount" else "cgst_sgst_amount";
      violations' := violations' + [Violation("TAX_SPLIT_INCORRECT", Critical, field, split.message, 0.20)];
    }
  }

  method RecordDate(violations: seq<Violation>, warnings: seq<Warning>, date: DateCheck)
    returns (violations': seq<Violation>, warnings': seq<Warning>)
    ensures violations' == violations + DateViolations(date) && warnings' == warnings + DateWarnings(date)
  {
    violations', warnings' := violations, warnings;
    if !date.valid {
      var severity := if date.confidence == 0.0 then Critical else Major;
      var impact := if date.confidence == 0.0 then 0.08 else 0.04;
      violations' := violations' + [Violation("DATE_INVALID", severity, "invoice_date", date.message, impact)];
    } else if date.daysOld > 90 {
      warnings' := warnings' + [Warning("DATE_OLD", "invoice_date", "Invoice is " + NatToString(date.daysOld) + " days old", None)];
    }
  }

  method RecordNumber(warnings: seq<Warning>, number: RuleCheck) returns (warnings': seq<Warning>)
    ensures warnings' == warnings + NumberWarnings(number)
  {
    warnings' := warnings;
    if !number.valid {
      warnings' := warnings' + [Warning("INVOICE_NUMBER_FORMAT", "invoice_number", number.message, None)];
    }
  }

  method RecordHsn(warnings: seq<Warning>, hsn: HsnCheck) returns (warnings': seq<Warning>)
    ensures warnings' == warnings + HsnWarnings(hsn)
  {
    warnings' := warnings;
    if !hsn.valid && hsn.expectedRate.Some? {
      warnings' := warnings' + [Warning("HSN_RATE_MISMATCH", "hsn_code", hsn.message, hsn.expectedRate)];
    }
  }

  method RecordDuplicate(violations: seq<Violation>, warnings: seq<Warning>, duplicate: DuplicateResult)
    returns (violations': seq<Violation>, warnings': seq<Warning>)
    ensures violations' == violations + DuplicateViolations(duplicate) && warnings' == warnings + DuplicateWarnings(duplicate)
  {
    violations', warnings' := violations, warnings;
    if duplicate.isDuplicate {
      var severity := if duplicate.matchType == Exact then Critical else Major;
      var impact := if duplicate.matchType == Exact then 0.05 else 0.03;
      violations' := violations' + [Violation("DUPLICATE_INVOICE", severity, "invoice_number", duplicate.reason, impact)];
    } else if duplicate.potentialDuplicates != [] {
      warnings' := warnings' + [Warning("POTENTIAL_DUPLICATE", "invoice_number", duplicate.reason, None)];
    }
  }

  /** `validateGSTInvoice`: runs the nine rules in order, recording the
      violations and warnings of each, then scores the result. */
  method ValidateGSTInvoice(invoiceId: string, clientId: string, invoice: Option<InvoiceRow>, table: seq<HsnRow>,
                            history: Option<seq<StoredInvoice>>, cal: Calendar) returns (r: ValidationResult)
    ensures r == ValidateInvoice(invoiceId, clientId, invoice, table, history, cal)
  {
    if invoice.None? {
      return ErrorResult(invoiceId, "Invoice not found");
    }
    var f := Resolve(invoice.value);
    var gstinValidation := ValidateGSTINFormat(f.vendorGstin);
    var violations, warnings := RecordGstin(gstinValidation);
    var stateValidation := ValidateStateCode(gstinValidation.stateCode);
    violations := RecordState(violations, stateValidation);
    var rateValidation := ValidateGSTRate(Some(f.gstRate));
    violations := RecordRate(violations, rateValidation);
    var amountValidation := ValidateAmountCalculation(f.totalAmount, f.taxableAmount, f.cgstAmount, f.sgstAmount, f.igstAmount);
    violations, warnings := RecordAmount(violations, warnings, amountValidation);
    var splitValidation := ValidateTaxSplit(gstinValidation.stateCode, FirstTwo(f.clientGstin), f.taxableAmount, f.gstRate,
                                            f.cgstAmount, f.sgstAmount, f.igstAmount);
    violations := RecordSplit(violations, splitValidation);
    var dateValidation := ValidateInvoiceDate(f.invoiceDate, cal);
    violations, warnings := RecordDate(violations, warnings, dateValidation);
    var numberValidation := ValidateInvoiceNumberFormat(f.invoiceNumber);
    warnings := RecordNumber(warnings, numberValidation);
    var hsnValidation := ValidateHSNRateConsistency(f.hsnCode, f.gstRate, table);
    warnings := RecordHsn(warnings, hsnValidation);
    var duplicateCheck := CheckDuplicateInvoice(history, DuplicateQuery(clientId, f.invoiceNumber, f.vendorGstin,
                                                                       f.invoiceDate, f.totalAmount, invoiceId));
    violations, warnings := RecordDuplicate(violations, warnings, duplicateCheck);

    var scores := ValidationScores(gstinValidation.confidence, rateValidation.confidence, amountValidation.confidence,
                                   splitValidation.confidence, dateValidation.confidence, numberValidation.confidence,
                                   hsnValidation.confidence, stateValidation.confidence, duplicateCheck.confidence);
    ghost var c := Checks(gstinValidation, stateValidation, rateValidation, amountValidation, splitValidation,
                          dateValidation, numberValidation, hsnValidation, duplicateCheck);
    assert c == RunChecks(invoiceId, clientId, f, table, history, cal);
    assert violations == ViolationsOf(c);
    assert warnings == WarningsOf(c);
    assert scores == ScoresOf(c);
    var scoring := CalculateValidationScore(scores, violations);
    r := ValidationResult(invoiceId, scoring.status == Pass, scoring.overallConfidence, scores, violations,
                          warnings, Some(duplicateCheck), scoring.status, scoring.reason);
    assert r == ResultOf(invoiceId, c);
  }

  /** What every rule promises about its outcome: confidences in [0,1], and
      an invalid date always at confidence 0. */
  predicate WellFormed(c: Checks)
  {
    InUnitRange(ScoresOf(c)) && (!c.date.valid ==> c.date.confidence == 0.0)
  }

  lemma ChecksWellFormed(invoiceId: string, clientId: string, row: InvoiceRow, table: seq<HsnRow>,
                         history: Option<seq<StoredInvoice>>, cal: Calendar)
    ensures WellFormed(ChecksOf(invoiceId, clientId, row, table, history, cal))
  {
    RunChecksWellFormed(invoiceId, clientId, Resolve(row), table, history, cal);
  }

  lemma RunChecksWellFormed(invoiceId: string, clientId: string, f: Fields, table: seq<HsnRow>,
                            history: Option<seq<StoredInvoice>>, cal: Calendar)
    ensures WellFormed(RunChecks(invoiceId, clientId, f, table, history, cal))
  {
  }

  /** A GSTIN-format failure, an amount mismatch beyond the rounding
      tolerance, a wrong tax split, a missing, invalid or future date, or an
      exact duplicate each force 'fail' with confidence 0. */
  lemma CriticalRuleForcesFail(invoiceId: string, c: Checks)
    requires !c.gstin.valid || !c.amount.valid || !c.split.valid || (!c.date.valid && c.date.confidence == 0.0)
             || (c.duplicate.isDuplicate && c.duplicate.matchType == Exact)
    ensures var r := ResultOf(invoiceId, c);
            r.status == Fail && r.overallConfidence == 0.0 && !r.isValid
  {
    var vs := ViolationsOf(c);
    var g, st, ra, am, sp, da, du :=
      GstinViolations(c.gstin), StateViolations(c.state), RateViolations(c.rate), AmountViolations(c.amount),
      SplitViolations(c.split), DateViolations(c.date), DuplicateViolations(c.duplicate);
    var k: nat;
    if !c.gstin.valid {
      k := 0;
    } else if !c.amount.valid {
      k := |g + st + ra|;
    } else if !c.split.valid {
      k := |g + st + ra + am|;
    } else if !c.date.valid && c.date.confidence == 0.0 {
      k := |g + st + ra + am + sp|;
    } else {
      k := |g + st + ra + am + sp + da|;
    }
    Scoring.CriticalForcesFail(ScoresOf(c), vs, k);
  }

  /** The HSN check never raises a violation: whatever it finds, the
      violations are the same. */
  lemma HsnNeverAddsViolations(c: Checks, hsn: HsnCheck)
    ensures ViolationsOf(c.(hsn := hsn)) == ViolationsOf(c)
  {
  }

  /** Neither does the invoice-number check. */
  lemma InvoiceNumberNeverAddsViolations(c: Checks, number: RuleCheck)
    ensures ViolationsOf(c.(number := number)) == ViolationsOf(c)
  {
  }

  /** Whatever the HSN table holds, an invoice gets the same violations. */
  lemma HsnTableNeverChangesViolations(invoiceId: string, clientId: string, row: InvoiceRow, table1: seq<HsnRow>,
                                       table2: seq<HsnRow>, history: Option<seq<StoredInvoice>>, cal: Calendar)
    ensures ValidateInvoice(invoiceId, clientId, Some(row), table1, history, cal).violations
            == ValidateInvoice(invoiceId, clientId, Some(row), table2, history, cal).violations
  {
    var c1 := ChecksOf(invoiceId, clientId, row, table1, history, cal);
    var c2 := ChecksOf(invoiceId, clientId, row, table2, history, cal);
    assert c2 == c1.(hsn := c2.hsn);
    HsnNeverAddsViolations(c1, c2.hsn);
  }

  /** The violations name only the seven blocking rules. */
  lemma ViolationRuleNames(c: Checks)
    ensures forall v :: v in ViolationsOf(c) ==>
              v.ruleName in {"GSTIN_FORMAT", "STATE_CODE_INVALID", "GST_RATE_INVALID", "AMOUNT_MISMATCH",
                             "TAX_SPLIT_INCORRECT", "DATE_INVALID", "DUPLICATE_INVOICE"}
  {
  }

  /** With well-formed rule outcomes, a passing result has no violation at
      all: a valid GSTIN, a known state code, a standard rate, an amount within
      the rounding tolerance, a correct split, a valid date and no duplicate. */
  lemma PassMeansNoViolations(invoiceId: string, c: Checks)
    requires WellFormed(c)
    requires ResultOf(invoiceId, c).status == Pass
    ensures ViolationsOf(c) == []
    ensures && c.gstin.valid && c.state.valid && c.rate.valid && c.amount.valid && c.split.valid
            && c.date.valid && !c.duplicate.isDuplicate
  {
    var vs := ViolationsOf(c);
    // Every rule in the list is critical or major.
    if vs != [] {
      Scoring.MajorOrWorseBlocksPass(ScoresOf(c), vs);
    }
  }

  /** The same for an invoice: passing means no violation. */
  lemma PassingInvoiceHasNoViolations(invoiceId: string, clientId: string, row: InvoiceRow, table: seq<HsnRow>,
                                      history: Option<seq<StoredInvoice>>, cal: Calendar)
    requires ValidateInvoice(invoiceId, clientId, Some(row), table, history, cal).isValid
    ensures ValidateInvoice(invoiceId, clientId, Some(row), table, history, cal).violations == []
  {
    ChecksWellFormed(invoiceId, clientId, row, table, history, cal);
    PassMeansNoViolations(invoiceId, ChecksOf(invoiceId, clientId, row, table, history, cal));
  }
}
